=== FILE: README.md ===
# dynamiC value runtime in Dafny

dynamiC is the value layer of a small scripting virtual machine, written in
C. Its core is a tagged `struct dynamic` (NONE, BOOL, INTEGER, FLOAT,
STRING, LIST, SET, DICT, FUNCTION, EXTERN, REFERENCE, REFERENCE2,
MISCELLANEOUS), together with the operations built on it:

- the owning containers: the list, the set built on the list, and the
  insertion-ordered dict;
- deep copy and move;
- the rendering of a value as text (`dyn_string_len`, `dyn_string_add`,
  `dyn_get_string`);
- the operators of dynamic_op.c: arithmetic, Kleene three-valued logic, the
  comparison `dyn_op_cmp` with its idiosyncratic outcome codes, membership,
  and the bitwise operators;
- the byte code a value is serialised to, with the stack machine that reads
  it back;
- the 16-bit string helpers of ss_string.c.

The model is purely functional. A value is an immutable `Value` tree, and an
operation that the C performs in place on its first operand returns
`Done(value, ok)`: the value left behind and the returned flag. A failing
operator leaves NONE.

Two things that are pointers in C need a representation here:

- A REFERENCE is modelled by the value it points at.
- A REFERENCE2, the handle by which a procedure reaches the dict that
  encloses it, is a location `Loc`. Reads through a REFERENCE2 go through a
  `Heap` from locations to dicts.

Operations that place a value somewhere take the destination location `at`.
This is because copying or moving a dict rebinds its procedures' receivers
(`dyn_dict_set_loc`) to the dict's new place. In C a REFERENCE2 is a raw
pointer into a container, so only `dyn_move` and `dyn_dict_copy` rebind it.
The model's `Loc` is a path, `Slot(parent, i)`, and it stays valid when the
enclosing container is reallocated. The C pointer does not; see "Left out".

C's fixed widths are written out:

- `int32`, `ushort` and `int16` are subtypes;
- 16-bit counters are reduced modulo 2^16 where the C lets them wrap;
- the 8-bit `char` that `dyn_set_bool` stores is its own case;
- C's truncating `/` and `%` are `CDiv` and `CRem`;
- the bitwise operators work on 32-bit two's-complement words, bit by bit.

Modules, one per file:

| file | module | C source |
|---|---|---|
| cstring.dfy | CString | ss_string.c |
| values.dfy | Values | dynamic_types.h |
| dynamic.dfy | Dynamic | dynamic.c, plus the recursive list, dict and function routines |
| copying.dfy | CopyFacts | facts about copy, move and receiver binding |
| lists.dfy | Lists | dynamic_list.c |
| dicts.dfy | Dicts | dynamic_dict.c |
| functions.dfy | Functions | dynamic_function.c |
| compare.dfy, compare_facts.dfy | Compare, CompareFacts | `dyn_op_cmp`, the comparison operators and `dyn_op_in`; dynamic_set.c |
| bits.dfy | Bits | 32-bit words |
| ops.dfy, ops_facts.dfy | Ops, OpsFacts | the remaining operators of dynamic_op.c |
| codec.dfy | Codec | dynamic_encoding.c |

The behaviours the model keeps exactly as the C has them:

- Two unequal strings compare GT in both directions. The result of
  `ss_strcmp` is stored in an unsigned short.
- Lists of equal length compare to the single outcome that all their element
  pairs share. They are NEQ when two pairs disagree, and MARK when they are
  empty. So `[] <= []` and `[] >= []` hold, yet `[] == []` does not.
- `dyn_set_insert` therefore adds an empty list to a set twice. It also adds
  a second copy of an element that sits at position 256, because `dyn_op_in`
  keeps only the low 8 bits of the position.
- Adding a list to a list nests the second list; it does not splice.
- A string times a count of 2 or more repeats only its first `|s| mod 2^16`
  characters, the length `ss_strlen` counts in 16 bits.
- `ss_ftoa` prints the five fractional digits as an integer. Leading zeros
  are lost, so 1.03125 prints as "1.3125". For a float between -1 and 0 the
  sign is lost as well.
- `dyn_dict_insert` looks up the slot of a key at or beyond position 32768
  through an `ss_short`, which counts back from the end or finds nothing.
- Adding dicts fails.
- Strings and dicts do not survive the byte code. See Findings for strings.
  For dicts, the decoder has no case for them, and the encoder falls through
  into the reference case.

## Model

| member | source | states |
|---|---|---|
| CString.StrLen | ss_string.c:3-11 | the loop's count is the length of the text before the first NUL, modulo 2^16 |
| CString.StrCat | ss_string.c:13-16 | when the first string is shorter than 2^16, the buffer then holds the concatenation of the two texts, NUL-terminated, in a buffer of unchanged size |
| CString.StrCpy | ss_string.c:25-31 | the source text and a NUL are written at the offset; every other byte of the destination is unchanged |
| CString.ItoaLen | ss_string.c:33-48 | the length `ss_itoa_len` counts equals the length of the text `ss_itoa` writes |
| CString.ItoaRoundTrip | ss_string.c:50-66 | parsing the decimal text `ss_itoa` writes gives the integer back |
| CString.Itoa | ss_string.c:50-66 | the text starts with '-' iff the integer is negative, and the rest is non-empty decimal digits |
| CString.FtoaReadsBack | ss_string.c:82-93 | the text of `ss_ftoa` is the integer part's text, a '.', and the text of the absolute fractional digits, and each part parses back to its number |
| CString.FtoaSignLost | ss_string.c:82-93 | for a float strictly between -1 and 0 the sign is lost: it prints like its negation |
| CString.FtoaDropsZeros | ss_string.c:82-93 | leading zeros of the fractional digits are not written: 1.03125 prints as "1.3125" |
| CString.StrCmp | ss_string.c:96-103 | equal texts compare 0; the result is an 8-bit signed char |
| CString.ParseDigitsRoundTrip | ss_string.c:50-66 | the digits produced last-first by the do-while loop read back as the magnitude |
| CString.FtoaLen | ss_string.c:68-93 | `ss_ftoa_len` is the length of what `ss_ftoa` writes, plus one exactly when the fraction is negative |
| CString.StrCmpZero | ss_string.c:96-103 | `ss_strcmp` is 0 exactly when the two C strings are equal |
| CString.StrCmpOrder | ss_string.c:96-103 | on 7-bit text, `ss_strcmp` is negative exactly when the first string is lexicographically smaller |
| CString.CompareText | ss_string.c:96-103 | on two stored strings, the result is 0 iff they are equal and, for 7-bit text, negative iff the first sorts first |
| Values.TagInjective | dynamic_types.h:56-72 | the type tag identifies the kind of value |
| Values.MaxType | dynamic_op.c:3 | `max_type` is the larger of the two operands' tags |
| Dynamic.Deref | dynamic_op.c:13-15 | one hop through a reference: a REFERENCE2 reads as a dict, and anything that is not a reference reads as itself |
| Dynamic.Free | dynamic.c:4-19 | a released value is NONE, whatever it held |
| Dynamic.SetNone | dynamic.c:26-30 | the value becomes NONE |
| Dynamic.SetBool | dynamic.c:32-37 | the stored boolean is true iff the low 8 bits of the argument are nonzero |
| Dynamic.SetInt | dynamic.c:39-44 | `dyn_get_int` reads the stored integer back |
| Dynamic.SetFloat | dynamic.c:46-51 | `dyn_get_float` reads the stored number back |
| Dynamic.SetExtern | dynamic.c:53-58 | the value holds the handle and does not own it |
| Dynamic.SetString | dynamic.c:60-72 | the value holds the characters before the buffer's NUL, and `dyn_length` reports `ss_strlen` of the buffer |
| Dynamic.SetRef | dynamic.c:74-80 | the result is a REFERENCE, and it never points at another reference unless the original was already such a chain |
| Compare.DerefSetRef | dynamic.c:74-80 | reading through a new reference reaches what reading through the original reaches |
| Dynamic.Length | dynamic.c:313-329 | characters of a string modulo 2^16, elements of a list, set or dict, and 0 for non-container kinds |
| Dynamic.GetBool | dynamic.c:135-154 | numbers are true iff nonzero; strings and containers are true iff non-empty; NONE, functions, external data and MISCELLANEOUS are false |
| Dynamic.GetInt | dynamic.c:156-168 | a boolean is 1/0, a float is truncated toward zero, and non-numbers give 0 |
| Dynamic.GetFloat | dynamic.c:171-183 | an integer converts exactly, and non-numbers give 0 |
| Dynamic.RenderShape | dynamic.c:213-245 | an integer renders as decimal text that parses back to it; a list renders in brackets, and a set or dict in braces |
| Dynamic.RenderLen | dynamic.c:249-274 | for booleans, integers and strings the count is exactly the length of the rendering; for a float it is one more when the fractional digits are negative, as `ss_ftoa_len` counts a '-' that `ss_ftoa` never writes |
| Dynamic.StringLen | dynamic.c:249-274 | when the count does not wrap, the rendering fits in the length `dyn_string_len` reports |
| Dynamic.RenderFits | dynamic_list.c:187-215 | the text `string_add` appends is never longer than the count `string_len` computes, for lists, sets and dicts alike |
| Dynamic.GetString | dynamic.c:196-211 | a string renders as itself, and the rendering fits in the allocated `dyn_string_len + 1` bytes |
| Dynamic.DictInsert | dynamic_dict.c:53-84 | afterwards the key is among the live keys, every key that was there still is, and the allocation never shrinks |
| Dynamic.DictCopy | dynamic_dict.c:262-279 | every live key of the original is a key of the copy, and the copy has room for all the original's values |
| Dynamic.HasKey | dynamic_dict.c:133-144 | the answer is 1 + the position of the first equal key among the live pairs, or 0 when none matches |
| Dynamic.Copy | dynamic.c:276-294 | the copy holds no top-level reference and keeps the kind; copied lists and sets have exactly as many slots as elements |
| Dynamic.FctCopy | dynamic_function.c:85-100 | a native copy keeps pointer and type byte, a procedure copy keeps its bytecode, and the info survives or is dropped |
| Dynamic.KeepInfo | dynamic_function.c:5-32 | the info string is kept iff it is present and its 16-bit length is nonzero |
| Dynamic.FctSetLoc | dynamic_dict.c:319-334 | natives are unchanged; for a procedure only parameter values change, and the keys and shape stay |
| Dynamic.DictSetLoc | dynamic_dict.c:337-364 | keys, length and allocation are unchanged |
| Dynamic.SetLocOne | dynamic_dict.c:337-364 | only functions and dicts are touched, and the kind is kept |
| Dynamic.Move | dynamic.c:297-310 | the destination has the source's kind and content, except that a reference becomes a copy of its target and a dict gets its receivers rebound |
| CopyFacts.CopyRender | dynamic.c:276-294 | a deep copy renders exactly like the original |
| CopyFacts.CopyWf | dynamic.c:276-294 | a deep copy of a well-formed value is well formed |
| CopyFacts.DictCopyFilled | dynamic_dict.c:262-279 | the copied dict has the same keys in order, each value a copy in its own slot, with room for exactly the pairs, then receivers rebound |
| CopyFacts.DictCopyFromShape | dynamic_dict.c:262-279 | the insertion loop of `dyn_dict_copy` keeps the copied prefix invariant to the end |
| CopyFacts.SetLocRender | dynamic_dict.c:337-364 | rebinding receivers changes nothing a rendering shows |
| CopyFacts.FctSetLocIdempotent | dynamic_dict.c:319-334 | `fct_set_loc` applied twice with the same location is applied once |
| CopyFacts.SetLocIdempotent | dynamic_dict.c:337-364 | `dyn_dict_set_loc` is idempotent |
| CopyFacts.SetLocWf | dynamic_dict.c:337-364 | rebinding keeps every shape invariant |
| CopyFacts.MoveRender | dynamic.c:297-310 | the destination of a move renders like the source |
| CopyFacts.MoveWf | dynamic.c:297-310 | a move keeps the shape invariants |
| CopyFacts.MoveRefDict | dynamic.c:297-310 | moving a reference to a dict stores a copy whose receivers point at the destination |
| Lists.SetListLen | dynamic_list.c:6-30 | an empty, well-formed list with `len` NONE slots |
| Lists.Resize | dynamic_list.c:49-69 | the allocation becomes `size` slots, every existing slot keeps its content, and new slots are NONE |
| Lists.Push | dynamic_list.c:72-81 | the old elements stay, a copy of the value is last, and a full list grows by LIST_DEFAULT |
| Lists.PushNone | dynamic_list.c:83-90 | one more element, NONE, growing a full list by LIST_DEFAULT |
| Lists.Popi | dynamic_list.c:133-139 | the last `n` elements are gone, and the others and the allocation stay |
| Lists.Pop | dynamic_list.c:120-130 | the last element moves out; the allocation shrinks by LIST_DEFAULT when more than LIST_DEFAULT slots are unused |
| Lists.PushPop | dynamic_list.c:72-130 | popping right after a push restores the elements, and the popped value renders like the pushed one |
| Lists.Remove | dynamic_list.c:92-102 | the C loop computes `Removed`: the element at `i` is gone and its successors moved down |
| Lists.RemovePlain | dynamic_list.c:92-102 | for values that move unchanged, removal is `s[..i] + s[i+1..]` |
| Lists.Insert | dynamic_list.c:105-117 | the C loop computes `Inserted`, which is one element longer with the value at `i` and the argument reset to NONE |
| Lists.RemoveInserted | dynamic_list.c:92-117 | removing at `i` what was inserted at `i` gives back the old elements |
| Lists.RemoveExample | src/dynamic_list.c:151 | `remove([0,1,2,3,4], 2) == [0,1,3,4]` |
| Lists.InsertExample | src/dynamic_list.c:178 | `insert([0,1,3,4], "22", 2) == [0,1,"22",3,4]` |
| Lists.GetAsWritten | dynamic_list.c:142-156 | as written: an index up to and including the length is accepted |
| Lists.GetRefAsWritten | dynamic_list.c:159-166 | as written: the slot handed out may be the one at the length |
| Lists.GetPastEnd | dynamic_list.c:142-166 | for a full one-element list, index 1 reads and points past the allocation |
| Lists.Get | dynamic_list.c:142-156 | corrected: an element is copied iff `-length <= i < length`, counting from the end when negative, and nothing past the allocation is read |
| Lists.GetRef | dynamic_list.c:159-166 | corrected: a slot iff `-length <= i < length`, and it is inside the list |
| Lists.GetLongList | dynamic_list.c:142-156 | the length goes through `ss_short`, so a list of 32768 or more elements reads as missing at every index |
| Lists.PushCopyPopScenario | test/test.cpp:286-316 | three pushes, a copy pushed as a fourth element, and a pop leave lengths 3, 4, 3 and 3 |
| Dicts.SetDict | dynamic_dict.c:12-38 | an empty, well-formed dict with room for `len` pairs |
| Dicts.Resize | dynamic_dict.c:96-113 | succeeds iff the new size is larger, and then only the allocation changes; otherwise nothing changes |
| Dicts.Change | dynamic_dict.c:116-119 | slot `i` holds a copy of the value, and all other slots and the keys stay |
| Dicts.Empty | dynamic_dict.c:217-228 | no pairs left and the allocation kept |
| Dicts.HasKeyPosition | dynamic_dict.c:133-144 | `has_key` is 0 iff the key is absent, else position + 1 |
| Dicts.Get | dynamic_dict.c:252-260 | a value iff the key is among the live pairs, and it is the value aligned with the key |
| Dicts.InsertSlot | dynamic_dict.c:53-84 | the returned slot is the inserted key's slot while its position is below 32768; from there the position, read as an `ss_short`, counts back from the end or finds no slot; below 32768 pairs there is always a slot |
| Dicts.InsertExisting | dynamic_dict.c:53-84 | an existing key gets a copy of the value in its own slot, and nothing else changes |
| Dicts.InsertNew | dynamic_dict.c:53-84 | a new key is appended with a copy of the value, and a full dict grows by DICT_DEFAULT |
| Dicts.InsertOk | dynamic_dict.c:53-84 | insertion keeps keys unique and aligned, and the key then finds a copy of the value |
| Dicts.InsertOthers | dynamic_dict.c:53-84 | insertion leaves every other key's lookup unchanged |
| Dicts.GetAt | dynamic_dict.c:252-260 | lookup by a key at position `j` yields value `j` |
| Dicts.GetAbsent | dynamic_dict.c:252-260 | lookup of an absent key yields NULL |
| Dicts.Remove | dynamic_dict.c:187-210 | found iff the key is present; then one pair fewer with the allocation kept, otherwise nothing changes |
| Dicts.RemoveLayout | dynamic_dict.c:187-210 | all pairs keep their position except the last, which is moved into the gap |
| Dicts.RemoveOk | dynamic_dict.c:187-210 | removal keeps the dict invariant, the key is gone, and every other key stays present |
| Dicts.RemoveKeepsValues | dynamic_dict.c:187-210 | every other key still finds a value that renders as before |
| Dicts.RenderEmpty | dynamic_dict.c:282-317 | a dict with no pairs renders as `{}` with count 2 |
| Dicts.SelfBinding | dynamic_dict.c:319-334 | with key `""` at position `j < 255`, exactly slot `j` of the parameters becomes a REFERENCE2 to the dict |
| Dicts.NoSelfKey | dynamic_dict.c:319-334 | a procedure without key `""` is unchanged |
| Dicts.SetLocSlots | dynamic_dict.c:337-364 | slot by slot: procedures are bound to this dict, nested dicts to their own slot, and other values are untouched |
| Functions.SetFct | dynamic_function.c:5-32 | a native function with the pointer and type byte, and the info kept iff present and non-empty |
| Functions.SetFctSs | dynamic_function.c:35-66 | a procedure with the first `length` bytes of code and a dereferenced copy of the parameters |
| Functions.SetFctSsWf | dynamic_function.c:35-66 | a procedure built from well-formed parameters is well formed |
| Functions.GetSsRoundTrip | dynamic_function.c:103-106 | `dyn_fct_get_ss` returns the code `dyn_set_fct_ss` stored |
| Functions.SetFctSsParams | dynamic_function.c:35-66 | the stored parameters render like the ones passed in |
| Functions.CopyNative | dynamic_function.c:85-100 | copying a native function gives an identical function |
| Functions.CopyProc | dynamic_function.c:85-100 | copying a procedure is `dyn_set_fct_ss` of its own parameters, code and info |
| Functions.CopyProcRender | dynamic_function.c:85-100 | a copied procedure keeps its code and its parameters' rendering, and loses only an empty info string |
| Compare.Cmp | dynamic_op.c:457-596 | the outcome is one of EQ, LT, GT, NEQ, TYPE or MARK |
| Compare.SetCmp | dynamic_op.c:509-546 | the set branch yields EQ, LT, GT or NEQ |
| Compare.SearchSeq | dynamic_op.c:23-49 | a position within the list, or 0 |
| Compare.Search | dynamic_op.c:23-49 | a dict is searched by the key the element renders to; non-containers give 0 |
| Compare.In | dynamic_op.c:881-898 | succeeds iff the right side is a list, set or dict, and yields a boolean |
| Compare.Eq | dynamic_op.c:598-668 | true iff the comparison is EQ |
| Compare.Ne | dynamic_op.c:671-683 | the negation of `eq` |
| Compare.Lt | dynamic_op.c:686-766 | fails iff the comparison is TYPE, else true iff LT |
| Compare.Gt | dynamic_op.c:778-867 | fails iff the comparison is TYPE, else true iff GT |
| Compare.Ge | dynamic_op.c:768-776 | the negation of a successful `lt` |
| Compare.Le | dynamic_op.c:870-878 | the negation of a successful `gt` |
| Compare.SetSetLen | dynamic_set.c:4-11 | an empty, well-formed set with room for `len` elements |
| Compare.SetInsert | dynamic_set.c:13-27 | below 256 elements, the element is inserted iff no element of the set compares EQ to it; in general iff the 16-bit search position is a multiple of 256; an insertion appends a copy and grows a full set by LIST_DEFAULT, otherwise the set is unchanged |
| Compare.SetFound | dynamic_op.c:881-898 | `dyn_op_in` on the reference `dyn_set_insert` builds reports found iff the search position is not a multiple of 256, and below 256 elements iff some element compares EQ |
| CompareFacts.SearchSeqFirst | dynamic_op.c:23-49 | the search answers 1 + the index of the first element comparing EQ, and 0 iff there is none |
| CompareFacts.InPosExactly | dynamic_op.c:881-898 | `in` reports a found position iff it is not a multiple of 256 |
| CompareFacts.InSmall | dynamic_op.c:881-898 | below 256 elements, `in` is membership up to EQ |
| CompareFacts.InDictKeys | dynamic_op.c:881-898 | for a dict below 256 pairs, `in` of a string is key membership |
| CompareFacts.InPosition256 | dynamic_op.c:881-898 | an element found at position 256 reads as absent |
| CompareFacts.InsertTwiceAt256 | dynamic_set.c:13-27 | so `dyn_set_insert` adds that element a second time |
| CompareFacts.InsertOnce | dynamic_set.c:13-27 | below 255 elements, inserting an element that compares EQ to its own copy a second time leaves the set unchanged |
| CompareFacts.InsertIntOnce | dynamic_set.c:13-27 | below 255 elements, inserting an integer twice adds it once |
| CompareFacts.CmpElemsFrom | dynamic_op.c:547-587 | the list loop keeps its outcome iff every pair agrees with it |
| CompareFacts.ListUniform | dynamic_op.c:547-587 | equal-length non-empty lists compare to the shared outcome of all pairs, else NEQ |
| CompareFacts.ListLength | dynamic_op.c:547-587 | lists of different length compare by length |
| CompareFacts.EmptyListsMark | dynamic_op.c:547-587 | two empty lists compare MARK: not `eq`, yet both `le` and `ge` |
| CompareFacts.EmptyListInsertedTwice | dynamic_set.c:13-27 | an empty list is inserted into a set twice |
| CompareFacts.ListOrderMatters | dynamic_op.c:547-587 | `[1,2]` and `[2,1]` compare NEQ |
| CompareFacts.AllInEvery | dynamic_op.c:509-546 | the containment loop holds iff every element is found |
| CompareFacts.SetEq | dynamic_op.c:509-546 | two sets are EQ iff they have equal size and every element of the first is found in the second |
| CompareFacts.SetOrderFree | dynamic_op.c:509-546 | `{1,2}` and `{2,1}` compare EQ |
| CompareFacts.NumberSwap | dynamic_op.c:481-498 | booleans and numbers are totally ordered: swapping the operands swaps LT and GT |
| CompareFacts.ScalarSelf | dynamic_op.c:457-508 | every scalar compares EQ to itself |
| CompareFacts.StringsGreater | dynamic_op.c:499-508 | unequal strings compare GT both ways, so no string is less than another |
| CompareFacts.StringNumber | dynamic_op.c:457-596 | a string and a number compare TYPE, so `lt` and `gt` fail |
| CompareFacts.RefTransparent | dynamic_op.c:457-596 | a reference compares like its target |
| Ops.CheckCopy | dynamic_op.c:7-11 | a reference first operand is replaced by a copy of its target, and other values are kept |
| Ops.CDiv | dynamic_op.c:262-278 | C's `/`: the quotient truncated toward zero |
| Ops.CRem | dynamic_op.c:281-296 | C's `%`: it rebuilds the dividend with `CDiv`, is smaller than the divisor, and takes the dividend's sign |
| Ops.And | dynamic_op.c:397-410 | a boolean, true iff both operands are true; NONE iff neither is false and one is unknown |
| Ops.Or | dynamic_op.c:412-425 | a boolean, true iff either operand is true; NONE iff neither is true and one is unknown |
| Ops.Xor | dynamic_op.c:427-441 | NONE iff either operand is unknown, else true iff the two truth values differ |
| Ops.Not | dynamic_op.c:443-455 | NONE iff the operand is unknown, else true iff it is false |
| Ops.Neg | dynamic_op.c:51-66 | booleans are negated logically and numbers arithmetically; every other operand fails |
| Ops.Union | dynamic_op.c:115-128 | set union by insertion keeps the first set's elements as a prefix and adds at most the others |
| Ops.Add | dynamic_op.c:69-144 | succeeds iff neither side is NONE and the higher type is at most SET, and the result has the promoted type |
| Ops.Sub | dynamic_op.c:146-186 | succeeds for numbers and sets only, with the promoted type |
| Ops.Mul | dynamic_op.c:189-259 | succeeds for numbers, and for a string or list times an integer |
| Ops.StrTimes | dynamic_op.c:209-226 | a count of 0 gives `""` and 1 keeps the string; from 2 on the result has `(|s| mod 2^16) * n` characters, character `k` being character `k mod (|s| mod 2^16)` of the string, since the length comes from the 16-bit `ss_strlen` |
| Ops.MulList | dynamic_op.c:189-259 | a list times `n` has `length * n` elements in exactly that many slots, and times 0 is empty |
| Ops.Div | dynamic_op.c:262-278 | integer quotient and C remainder rebuild the dividend, and a float quotient times the divisor is the dividend |
| Ops.Mod | dynamic_op.c:281-296 | the C remainder of the operands as integers |
| Ops.Pow | dynamic_op.c:324-370 | a positive integer exponent gives the power, and a non-positive one gives the reciprocal float |
| Ops.PowInt | dynamic_op.c:324-370 | an integer exponent: a positive one gives the integer or real power of the base, and a non-positive one a float whose product with the base's power of the negated exponent is 1 |
| Ops.MulLoopPow | dynamic_op.c:344-358 | the multiplication loop computes `acc * base^k` |
| Ops.DivLoopPow | dynamic_op.c:347-362 | the division loop ends at `1 / base^n` |
| Ops.GetBool3 | dynamic_op.c:373-395 | unknown iff the value is not a boolean, number, string or container |
| Ops.BNot | dynamic_op.c:901-916 | only integers, giving `-1 - i` |
| Ops.Bitwise | dynamic_op.c:918-956 | only integers, and every bit of the result is the gate applied to the two operand bits |
| Ops.ShiftLeft | dynamic_op.c:959-970 | only integers; the result is divisible by 2^j, and dividing it by 2^j gives the operand back |
| Ops.ShiftRight | dynamic_op.c:972-983 | only integers, giving the floor of the division by 2^j |
| OpsFacts.NegTwice | dynamic_op.c:51-66 | negating twice gives the operand back |
| OpsFacts.NegOthers | dynamic_op.c:51-66 | strings and containers are not negated |
| OpsFacts.ListsNest | dynamic_op.c:99-114 | a list plus a list appends the second as one nested element |
| OpsFacts.AddPrepends | dynamic_op.c:99-114 | a lower-typed value added to a list is put in front of it |
| OpsFacts.AddListDocExample | dynamic.h:258-259 | `[1,2,3] + "test"` appends and `"test" + [1,2,3]` prepends |
| OpsFacts.AddStringConcat | dynamic_op.c:83-98 | a string plus a scalar, either way round, concatenates the renderings |
| OpsFacts.AddStringExample | dynamic_op.c:83-98 | `"n=" + 5 == "n=5"` and `"ab" + "cd" == "abcd"` |
| OpsFacts.AddSubInt | dynamic_op.c:69-186 | subtracting the integer just added gives the first operand back |
| OpsFacts.AddSubFloat | dynamic_op.c:69-186 | subtracting the float just added gives the first operand back |
| OpsFacts.DictAddFails | dynamic_op.c:129-143 | adding dicts fails, with a dict on the left or on both sides |
| OpsFacts.SetAddTwice | dynamic_op.c:115-128 | adding an integer to a small set a second time changes nothing |
| OpsFacts.SubUndoesAdd | dynamic_op.c:146-186 | removing an integer just added to a set restores its elements |
| Ops.RepeatAt | dynamic_op.c:189-259 | character `k` of a repetition is character `k mod |s|` |
| OpsFacts.MulDocExample | dynamic.h:262-263 | `3 * "abc" == "abc" * 3 == "abcabcabc"` |
| OpsFacts.MulStringCount | dynamic_op.c:189-259 | a zero count gives `""`, a count of 1 keeps the string, and a count of -1 gives 65535 repetitions of the first `|s| mod 2^16` characters |
| OpsFacts.MulLongStringEmpty | dynamic_op.c:209-226 | a string of exactly 65536 characters times 2 is the empty string |
| OpsFacts.MulListRender | dynamic_op.c:189-259 | every element of a multiplied list renders like the element it repeats |
| OpsFacts.MulDivInt | dynamic_op.c:189-278 | dividing a product by its second factor gives the first back |
| OpsFacts.MulDivFloat | dynamic_op.c:189-278 | the same for floats |
| OpsFacts.CDivExact | dynamic_op.c:262-278 | C's `/` undoes an exact multiplication |
| OpsFacts.DivModRebuild | dynamic_op.c:262-296 | `(i / j) * j + i % j == i` |
| OpsFacts.DivModSigns | dynamic_op.c:262-296 | `-7 / 2 == -3`, `-7 % 2 == -1`, `7 % -2 == 1` |
| OpsFacts.ModFloatExample | dynamic_op.c:262-296 | `7.5 % 2 == 1`: the float operand is truncated first |
| OpsFacts.PowExamples | dynamic_op.c:324-370 | `2^10 == 1024`, `2^-2 == 0.25`, `5^0 == 1.0` |
| OpsFacts.PowMixedExamples | dynamic_op.c:324-370 | a float exponent goes to the approximation, and a string base fails |
| OpsFacts.IntPowAdd | dynamic_op.c:344-346 | the integer power obeys `b^(m+n) == b^m * b^n` |
| OpsFacts.Bool3Agrees | dynamic_op.c:373-395 | where `get_bool_3` knows the answer, it agrees with `dyn_get_bool` |
| OpsFacts.Bool3Unknown | dynamic_op.c:373-395 | NONE, functions and external data are unknown |
| OpsFacts.TruthOfBool | dynamic.c:32-37 | the boolean left behind has the truth of the low byte |
| OpsFacts.AndKleene | dynamic_op.c:397-410 | `and` is the Kleene meet |
| OpsFacts.OrKleene | dynamic_op.c:412-425 | `or` is the Kleene join |
| OpsFacts.XorKleene | dynamic_op.c:427-441 | `xor` is unknown iff either side is, and otherwise it is inequality |
| OpsFacts.NotKleene | dynamic_op.c:443-455 | `not` mirrors the truth order and keeps unknown |
| OpsFacts.DeMorgan | dynamic_op.c:397-455 | `not (x and y)` has the truth of `not x or not y` |
| OpsFacts.XorUndo | dynamic_op.c:945-956 | xor-ing the same integer twice gives the first back |
| OpsFacts.BitwiseSymmetric | dynamic_op.c:918-956 | `&`, `|` and `^` are symmetric |
| OpsFacts.BitwiseSelf | dynamic_op.c:918-956 | `i & i == i | i == i` and `i ^ i == 0` |
| OpsFacts.BNotTwice | dynamic_op.c:901-916 | complementing twice gives the integer back |
| OpsFacts.ShiftBack | dynamic_op.c:959-983 | shifting left and then right by the same count gives the integer back |
| OpsFacts.ShiftRightNegative | dynamic_op.c:972-983 | the right shift keeps the sign: `-1 >> 1 == -1` and `-7 >> 1 == -4` |
| OpsFacts.BitwiseNeedsIntegers | dynamic_op.c:901-956 | floats, booleans and strings fail |
| Codec.CopyBuffer | dynamic_encoding.c:59-66 | the pre-decrement loop appends exactly `len - 1` bytes (65535 for 0) |
| Codec.ReadLeLe | dynamic_encoding.c:88-95 | the low `k` bytes of a number, in the target's byte order (taken as little-endian), read back as the number modulo 256^k |
| Codec.IntBytes | dynamic_encoding.c:83-95 | the one, two or four payload bytes of an integer in its width's range read back as the integer |
| Codec.IntWidths | dynamic_encoding.c:83-95 | the width switches at strict bounds: 127 and -128 take two bytes, 32767 and -32768 take four |
| Codec.EncStringAsWritten | dynamic_encoding.c:103-105 | as written: a string's code and bytes with no NUL after them |
| Codec.Buffer | dynamic_encoding.c:68-143 | the encoding always ends in ENC_HALT |
| Codec.NulAt | dynamic_encoding.c:200-203 | the first NUL of the bytes, as `dyn_set_string` finds it |
| Codec.DecodeScalar | dynamic_encoding.c:174-203 | a scalar code reads forward only |
| Codec.Collect | dynamic_encoding.c:205-223 | a list or set code reads forward only |
| Codec.InsertDistinct | dynamic_encoding.c:216-220 | inserting pairwise-distinct elements into an empty set rebuilds them in order |
| Codec.DecodeOne | dynamic_encoding.c:163-231 | ENC_HALT reads nothing and leaves the stack |
| Codec.Run | dynamic_encoding.c:145-161 | a successful run consumes at least one byte, so the bytes left are fewer than those given |
| Codec.DecodeAll | dynamic_encoding.c:145-161 | on success the bytes after the value are fewer than the input |
| Codec.RunStopsAtHalt | dynamic_encoding.c:145-161 | a successful run stops right after an ENC_HALT code: what is left is a suffix of the input, and the byte before it is ENC_HALT |
| Codec.DecodeAllLoop | dynamic_encoding.c:145-161 | the C loop computes `DecodeAll` |
| Codec.EncShape | dynamic_encoding.c:68-143 | a string's code is ENC_STRING, its NUL-free characters and a NUL; a list's or set's code ends with its kind code and its element count as two bytes in the target's byte order (taken as little-endian) |
| Codec.RunEnc | dynamic_encoding.c:68-231 | decoding the code of a value pushes that value and stops right after it |
| Codec.RoundTrip | dynamic_encoding.c:68-231 | decoding the encoding of NONE, a boolean, integer, float, string, or a list or set of them gives the value back and leaves the following bytes untouched |
| Codec.RefRoundTrip | dynamic_encoding.c:135-137 | a reference is encoded as its target and decodes as the target |
| Codec.StringAsWrittenReadsOn | dynamic_encoding.c:103-105 | as written, a string decodes longer than itself, or not at all, unless a NUL happens to follow |
| Codec.StringAsWrittenUnreadable | dynamic_encoding.c:103-105 | as written, the buffer of `"a"` is `[10, 'a', 12]` and does not decode |
| Codec.StringCorrected | dynamic_encoding.c:200-203 | with the NUL written, `"a"` decodes as itself |
| Codec.FunctionVanishes | dynamic_encoding.c:72-138 | a function writes nothing, so a list holding one cannot be decoded |
| Codec.DictCodeIsNone | dynamic_encoding.c:173-226 | ENC_DICT decodes as NONE |
| Codec.InsertOneTwice | dynamic_encoding.c:216-220 | inserting 1 twice keeps one copy |
| Codec.SetDuplicatesCollapse | dynamic_encoding.c:216-220 | a set holding 1 twice decodes as a set holding it once |
| Codec.SpaceTrimmed | dynamic_encoding.c:211-215 | a list decodes with its allocation trimmed to its length |

## Left out

- Floating point: a FLOAT is an exact real. Rounding to 32 bits is not
  modelled, and neither is the bit pattern a float is encoded as. Codec
  takes `fbits` and `fval` as parameters.
- `fast_approx_pow` (dynamic_op.c:298-321) is a parameter of `Ops.Pow`. Its
  bit-level approximation is floating point.
- `ss_ftoa`'s rounding of the five fractional digits is taken on exact
  reals.
- Allocation failure: every `malloc`/`realloc` is taken to succeed, so the
  error returns on allocation failure are absent.
- `dyn_size` (dynamic.c:82-133): it reports byte sizes of the C structs,
  which depend on the target.
- `dyn_encoding_length` (dynamic_encoding.c:3-57): it is a byte count that
  mirrors `dyn_encode` and adds nothing to the model.
- Encoding a DICT: `dyn_encode` falls from the DICT case into the
  REFERENCE case and reads the dict payload as a pointer, which is
  undefined behaviour. `Codec.Encodable` excludes dicts and REFERENCE2.
- `ss_strcat2` (ss_string.c:18-22): it is not used by the core.
- Undefined behaviour in C becomes a precondition:
  - signed overflow, for example `Ops.AddOk`, `Ops.MulOk` and `Ops.Neg`;
  - division by zero;
  - shift counts outside 0..31, and shifting a negative number left;
  - reading past a buffer, for example `CString.StrCpy` and `Codec.CopyBuffer`.
- Native pointers and EXTERN payloads are opaque numbers. A native function
  is never called.
- The stale tests in test/test.cpp that no longer match the library are not
  modelled.
- The headers' macros appear only through the functions that use them.
- `dyn_list_free`, `dyn_dict_free` and `dyn_fct_free` (dynamic_list.c:33-47,
  dynamic_dict.c:233-250, dynamic_function.c:69-83): releasing memory leaves
  NONE, which is `Dynamic.Free`. Memory itself is not modelled.
- `dyn_dict_get_i_ref` and `dyn_dict_get_i_key` (dynamic_dict.c:156-185):
  these accessors are index reads of the value list and the key array.
- `dyn_set_list_len(0)` asks `malloc` for zero bytes. The model gives an
  empty list with no slots.
- Ops.Add, Ops.Sub, Ops.Mul: their own contracts state only when they
  succeed and the result type. What they compute is stated per case by the
  OpsFacts lemmas: the inverse lemmas, nesting, prepending, concatenation,
  set insertion and the documented examples.
- Codec.IntBytes, Codec.RoundTrip, Codec.ReadLeLe, Codec.EncShape: the
  target is taken to be little-endian. `copy_buffer` copies the first bytes
  of the `int32`, the `float` or the `ushort` length in memory order
  (dynamic_encoding.c:88-100, 116), and the decoder reads them back the
  same way. On a big-endian target the first two bytes of an `int32` are
  its high bytes, so an ENC_INT2 integer such as 200 decodes as 0. The
  model's codes, and so the round trip, hold only in little-endian order.
- Ops.StrTimes, Ops.Mul: `len * i + 1` (dynamic_op.c:214) is an `int`
  product of two 16-bit numbers and overflows when it exceeds 2^31 - 1.
  The model then repeats as if the buffer were large enough. For `n * s`
  with `|s| >= 2^16`, `dyn_copy` first copies the string into a buffer of
  `|s| mod 2^16 + 1` bytes, which overflows; the model takes the copy as
  the full string.
- Ops.Add, Ops.Sub: the two operands are modelled as separate values. In
  C a right operand that is a REFERENCE to the left one aliases it, and
  `CHECK_NOCOPY_REFERENCE` (dynamic_op.c:13-15) only follows the reference,
  so the operation reads the left operand while changing it. For a set
  `s = {1,2,3}`, `s - ref(s)` leaves `{2}` in C and `{}` in the model;
  `{[]} + ref({[]})` does not terminate in C, while the model appends once.
- CString.Itoa, CString.ItoaLen, Dynamic.Render: for INT32_MIN, where
  `i *= -1` overflows (ss_string.c:39-41, 53-56), the model gives the
  mathematical text "-2147483648" of length 11. The C behaviour there is
  undefined.
- Dynamic.Render, Dynamic.RenderLen: a dict that reaches itself through a
  REFERENCE2 renders its inner occurrence as `{}` in the model. The C
  follows the reference and recurses without end (dynamic.c:243-245,
  267-269).
- CString.StrCmp: plain `char` is taken to be signed, as the
  `ss_char` typedef's comment says (dynamic_types.h:30). On a target with
  unsigned `char` the difference of two bytes above 127 has another sign.
- Ops.ShiftRight, OpsFacts.ShiftRightNegative: `>>` on a negative integer is
  taken to be the arithmetic shift. C leaves that implementation-defined.
- CString.Ftoa, Dynamic.Render, Codec.Enc: they carry no `ensures` of their
  own, because postconditions on them make the proofs that unfold them too
  costly. Their properties are stated by `CString.FtoaReadsBack`,
  `CString.FtoaSignLost`, `CString.FtoaDropsZeros`, `Dynamic.RenderShape`,
  `Dynamic.RenderFits`, `Codec.EncShape` and `Codec.RoundTrip`.
- Compare.Cmp: its own contract only bounds the outcome codes. The
  behaviour of each kind is stated by the CompareFacts lemmas.
- Codec.RoundTrip: it covers the values that survive the byte code:
  - NONE, booleans, integers and strings shorter than 65534 characters;
  - floats whose bit pattern `fval` reads back;
  - lists and sets of such values whose allocation equals their length
    (the decoder allocates exactly the length) and whose length is below
    32768 (`dyn_list_popi` takes an `ss_short`);
  - sets whose elements are pairwise not EQ, because the decoder inserts
    them again.

  Dicts, functions, external data and REFERENCE2 are out, as the C writes
  nothing decodable for them.
- Codec.Run, Codec.Collect: a list or set code is treated as malformed in
  two cases where the C goes on:
  - a length above 32767, which the C passes to `dyn_list_popi` as a
    negative `ss_short`;
  - a length larger than the number of values decoded so far, where
    `DYN_LIST_GET_REF_END(to, i)` reads before the start of the stack
    (dynamic_encoding.c:212-220).
- Lists.Push, Lists.PushNone, Lists.Pop, Lists.Resize, Ops.MulList,
  Dicts.Resize, Dicts.InsertNew, Dynamic.Deref: a REFERENCE2 handle is
  modelled as a path, so it stays valid when a container is reallocated.
  In C it is a pointer to a cell inside the enclosing container.
  `dyn_list_resize` reallocates that container (dynamic_list.c:54), and it
  is called when a full list grows on a push (dynamic_list.c:74-76, 85-87),
  when a pop shrinks it (dynamic_list.c:125-127), by list repetition
  (dynamic_op.c:244), and by `dyn_dict_resize` when a full dict grows
  (dynamic_dict.c:62, 103). Only `dyn_move` (dynamic.c:306-307) and
  `dyn_dict_copy` (dynamic_dict.c:276) rebind the handles. So after such a
  reallocation, a procedure's `""` parameter in a dict nested in that
  container dangles in C, while the model's `Loc` still reaches the dict.
  An example is a list with one free slot holding such a dict, followed by
  two pushes. The stale state is not modelled.
- Lists.Popi: the count must be between 0 and the length. The C does not
  check it.

## Findings

| source | as written | input that shows it | evidently intended | confidence | as-written member | corrected member |
|---|---|---|---|---|---|---|
| dynamic_list.c:142-166 | `dyn_list_get` and `dyn_list_get_ref` accept a non-negative index `i <= length` | a list `[7]` with one slot, index 1: the read and the pointer are one past the allocation | accept `0 <= i < length`, like the negative bound `-i <= length` | not executed; high | Lists.GetPastEnd (on Lists.GetAsWritten, Lists.GetRefAsWritten) | Lists.Get, Lists.GetRef |
| dynamic_encoding.c:103-105 | the string case passes `dyn_string_len + 1` to `copy_buffer`, which copies one byte fewer than it is given, so the NUL is not written; the decoder reads up to a NUL and skips `length + 1` bytes | the string `"a"` encodes as `[10, 'a', 12]`, and decoding reads past ENC_HALT and the end of the buffer | pass `dyn_string_len + 2` so that the terminator is written | not executed; high | Codec.StringAsWrittenUnreadable (with Codec.StringAsWrittenReadsOn, on Codec.EncStringAsWritten) | Codec.Enc, proved by Codec.RoundTrip and Codec.StringCorrected |

=== FILE: bits.dfy ===
/** The 32-bit two's complement words behind the bitwise operators of
    dynamic_op.c, in plain arithmetic: a word is a number below 2^32, and
    its bits are read off by repeated halving, least significant first. */
module Bits {
  import opened CString

  function Pow2(k: nat): (r: nat)
    ensures r >= 1
  {
    if k == 0 then 1 else 2 * Pow2(k - 1)
  }

  lemma {:induction false} Pow2Add(a: nat, b: nat)
    ensures Pow2(a + b) == Pow2(a) * Pow2(b)
  {
    if a > 0 {
      Pow2Add(a - 1, b);
    }
  }

  lemma Pow2Word()
    ensures Pow2(32) == 0x1_0000_0000
  {
    assert Pow2(8) == 0x100;
    Pow2Add(8, 8);
    Pow2Add(16, 16);
  }

  // ---------------------------------------------------------------------------
  // Division facts the halving proofs rest on
  // ---------------------------------------------------------------------------

  lemma MulMono(d: nat, a: int, b: int)
    ensures a <= b ==> d * a <= d * b
  {
    assert d * b - d * a == d * (b - a);
  }

  /** Quotient and remainder are the only pair that rebuilds `n`. */
  lemma DivModUnique(n: int, d: int, x: int, y: int)
    requires d > 0 && n == d * x + y && 0 <= y < d
    ensures n / d == x && n % d == y
  {
    var x' := n / d;
    var y' := n % d;
    assert n == d * x' + y';
    MulMono(d, x' + 1, x);
    MulMono(d, x + 1, x');
    assert d * (x' + 1) == d * x' + d;
    assert d * (x + 1) == d * x + d;
  }

  /** Dividing by `2m` is halving and then dividing by `m`. */
  lemma Halve(n: nat, m: nat)
    requires m > 0
    ensures n / (2 * m) == (n / 2) / m
    ensures n % (2 * m) == n % 2 + 2 * ((n / 2) % m)
  {
    var q := n / 2;
    var t := q / m;
    var s := q % m;
    assert n == 2 * m * t + (2 * s + n % 2) by {
      assert q == m * t + s;
      assert n == 2 * q + n % 2;
    }
    DivModUnique(n, 2 * m, t, 2 * s + n % 2);
  }

  /** A low bit `g` followed by the higher bits `rest`. */
  lemma Split(g: nat, rest: nat)
    requires g < 2
    ensures (g + 2 * rest) % 2 == g && (g + 2 * rest) / 2 == rest
  {
    DivModUnique(g + 2 * rest, 2, rest, g);
  }

  // ---------------------------------------------------------------------------
  // Words
  // ---------------------------------------------------------------------------

  /** The word that holds `i` in two's complement. */
  function ToWord(i: int32): (u: nat)
    ensures u < 0x1_0000_0000
    ensures (u - i) % 0x1_0000_0000 == 0
    ensures (u < 0x8000_0000) <==> (i >= 0)
  {
    if i < 0 then i + 0x1_0000_0000 else i
  }

  /** The integer a word holds in two's complement. */
  function FromWord(u: nat): (i: int32)
    requires u < 0x1_0000_0000
    ensures ToWord(i) == u
  {
    if u < 0x8000_0000 then u else u - 0x1_0000_0000
  }

  /** Bit `k` of `n`. */
  function BitAt(n: nat, k: nat): bool {
    (n / Pow2(k)) % 2 == 1
  }

  /** Bit `j + 1` of `n` is bit `j` of `n` halved. */
  lemma BitHalve(n: nat, j: nat)
    ensures BitAt(n, j + 1) == BitAt(n / 2, j)
  {
    Halve(n, Pow2(j));
  }

  // ---------------------------------------------------------------------------
  // and, or, xor, not
  // ---------------------------------------------------------------------------

  datatype BitOp = AndBits | OrBits | XorBits

  /** One bit of `&`, `|` or `^`. */
  function Gate(op: BitOp, p: bool, q: bool): bool {
    match op
    case AndBits => p && q
    case OrBits => p || q
    case XorBits => p != q
  }

  function Digit(b: bool): nat {
    if b then 1 else 0
  }

  /** The low `k` bits of `a` and `b` combined bit by bit. */
  function Combine(op: BitOp, a: nat, b: nat, k: nat): (r: nat)
    ensures r < Pow2(k)
  {
    if k == 0 then 0
    else Digit(Gate(op, a % 2 == 1, b % 2 == 1)) + 2 * Combine(op, a / 2, b / 2, k - 1)
  }

  /** Bit `j` of a combination is the gate applied to bit `j` of each side. */
  lemma {:induction false} CombineBits(op: BitOp, a: nat, b: nat, k: nat, j: nat)
    requires j < k
    ensures BitAt(Combine(op, a, b, k), j) == Gate(op, BitAt(a, j), BitAt(b, j))
  {
    var g := Digit(Gate(op, a % 2 == 1, b % 2 == 1));
    var rest := Combine(op, a / 2, b / 2, k - 1);
    Split(g, rest);
    if j > 0 {
      CombineBits(op, a / 2, b / 2, k - 1, j - 1);
      BitHalve(g + 2 * rest, j - 1);
      BitHalve(a, j - 1);
      BitHalve(b, j - 1);
    }
  }

  /** Xor-ing the same mask twice gives back the low `k` bits. */
  lemma {:induction false} XorTwice(a: nat, b: nat, k: nat)
    ensures Combine(XorBits, Combine(XorBits, a, b, k), b, k) == a % Pow2(k)
  {
    if k > 0 {
      var g := Digit(Gate(XorBits, a % 2 == 1, b % 2 == 1));
      var rest := Combine(XorBits, a / 2, b / 2, k - 1);
      Split(g, rest);
      XorTwice(a / 2, b / 2, k - 1);
      Halve(a, Pow2(k - 1));
    }
  }

  /** The order of the operands does not matter. */
  lemma {:induction false} CombineSymmetric(op: BitOp, a: nat, b: nat, k: nat)
    ensures Combine(op, a, b, k) == Combine(op, b, a, k)
  {
    if k > 0 {
      CombineSymmetric(op, a / 2, b / 2, k - 1);
    }
  }

  /** `a & a` and `a | a` are `a`, and `a ^ a` is zero. */
  lemma {:induction false} CombineSelf(op: BitOp, a: nat, k: nat)
    ensures Combine(op, a, a, k) == if op == XorBits then 0 else a % Pow2(k)
  {
    if k > 0 {
      CombineSelf(op, a / 2, k - 1);
      Halve(a, Pow2(k - 1));
    }
  }

  /** The low `k` bits of `a`, each inverted. */
  function Flip(a: nat, k: nat): (r: nat)
    ensures r < Pow2(k)
  {
    if k == 0 then 0 else (1 - a % 2) + 2 * Flip(a / 2, k - 1)
  }

  /** Inverting every bit subtracts from the all-ones word. */
  lemma {:induction false} FlipValue(a: nat, k: nat)
    ensures Flip(a, k) == Pow2(k) - 1 - a % Pow2(k)
  {
    if k > 0 {
      FlipValue(a / 2, k - 1);
      Halve(a, Pow2(k - 1));
    }
  }
}

=== FILE: codec.dfy ===
/** dynamic_encoding.c: the byte code a value is serialised to, and the
    stack machine that reads it back. Multi-byte payloads are written in
    the byte order of the target, little-endian here. The 32-bit pattern of
    a float is not modelled: `fbits` gives it when encoding and `fval`
    reads it back when decoding. */
module Codec {
  import opened CString
  import opened Values
  import opened Dynamic
  import opened Compare
  import opened Bits
  import Lists
  import CompareFacts

  const ENC_NONE: byte := 0
  const ENC_TRUE: byte := 1
  const ENC_FALSE: byte := 2
  const ENC_INT1: byte := 3
  const ENC_INT2: byte := 4
  const ENC_INT4: byte := 5
  const ENC_FLOAT: byte := 6
  const ENC_LIST: byte := 7
  const ENC_SET: byte := 8
  const ENC_PROC: byte := 9
  const ENC_STRING: byte := 10
  const ENC_DICT: byte := 11
  const ENC_HALT: byte := 12

  // ---------------------------------------------------------------------------
  // Bytes
  // ---------------------------------------------------------------------------

  function Pow256(k: nat): (r: nat)
    ensures r >= 1
  {
    if k == 0 then 1 else 0x100 * Pow256(k - 1)
  }

  /** The low `k` bytes of `n`, least significant first. */
  function Le(n: nat, k: nat): (r: seq<byte>)
    ensures |r| == k
  {
    if k == 0 then [] else [n % 0x100] + Le(n / 0x100, k - 1)
  }

  /** The number little-endian bytes spell. */
  function ReadLe(bs: seq<byte>): (n: nat)
    ensures n < Pow256(|bs|)
  {
    if bs == [] then 0 else bs[0] + 0x100 * ReadLe(bs[1..])
  }

  lemma DivideBy256(n: nat, m: nat)
    requires m > 0
    ensures n % (0x100 * m) == n % 0x100 + 0x100 * ((n / 0x100) % m)
  {
    var q := n / 0x100;
    var t := q / m;
    var s := q % m;
    assert n == 0x100 * m * t + (0x100 * s + n % 0x100) by {
      assert q == m * t + s;
      assert n == 0x100 * q + n % 0x100;
    }
    DivModUnique(n, 0x100 * m, t, 0x100 * s + n % 0x100);
  }

  /** Reading back `k` written bytes gives the number modulo 256^k. */
  lemma {:induction false} ReadLeLe(n: nat, k: nat)
    ensures ReadLe(Le(n, k)) == n % Pow256(k)
  {
    if k > 0 {
      var bs := Le(n, k);
      assert bs[1..] == Le(n / 0x100, k - 1);
      ReadLeLe(n / 0x100, k - 1);
      DivideBy256(n, Pow256(k - 1));
    }
  }

  /** The 8-bit signed `char` a byte is read as. */
  function SignExtend8(b: byte): (i: int)
    ensures -0x80 <= i < 0x80
  {
    if b < 0x80 then b else b - 0x100
  }

  /** The 16-bit signed `short` two bytes are read as. */
  function SignExtend16(u: nat): (i: int)
    requires u < 0x1_0000
    ensures -0x8000 <= i < 0x8000
  {
    if u < 0x8000 then u else u - 0x1_0000
  }

  /** `copy_buffer(from, to, len)`: the pre-decrement loop copies `len - 1`
      bytes, and 65535 of them when `len` is 0. */
  method CopyBuffer(from: seq<byte>, to: seq<byte>, len: ushort) returns (out: seq<byte>)
    requires Width16(len - 1) <= |from|
    ensures out == to + from[..Width16(len - 1)]
  {
    var n: int := Width16(len - 1);
    var i := 0;
    out := to;
    while i < n
      invariant 0 <= i <= n
      invariant out == to + from[..i]
    {
      out := out + [from[i]];
      i := i + 1;
    }
  }

  // ---------------------------------------------------------------------------
  // dyn_encode
  // ---------------------------------------------------------------------------

  /** What `dyn_encode` can walk: a dict falls through into the reference
      case and reads its payload as a pointer, so dicts, and the REFERENCE2
      handles that point at them, are out. */
  predicate Encodable(v: Value) {
    match v
    case List(l) => ListOk(l) && forall i :: 0 <= i < |l.elems| ==> Encodable(l.elems[i])
    case Set(l) => ListOk(l) && forall i :: 0 <= i < |l.elems| ==> Encodable(l.elems[i])
    case Str(s) => |s| < 0xFFFE
    case Dict(_) => false
    case Ref2(_) => false
    case Ref(t) => Encodable(t)
    case _ => true
  }

  /** The bytes of a string without its terminator. */
  function StrBytes(t: Text): (r: seq<byte>)
    ensures |r| == |t| && 0 !in r
  {
    seq(|t|, i requires 0 <= i < |t| => t[i] as int)
  }

  /** The string case of `dyn_encode` as written: `copy_buffer` is handed
      the length plus one, and copies one byte fewer than it is handed, so
      the NUL stays behind. */
  function EncStringAsWritten(s: Text): (r: seq<byte>)
    ensures |r| >= 1 && r[0] == ENC_STRING && 0 !in r[1..]
  {
    [ENC_STRING] + StrBytes(s[..TextLen(s)])
  }

  /** `dyn_encode`, with the string case corrected to copy the NUL the
      decoder looks for (the length plus two). Integers take one, two or
      four payload bytes, by strict bounds: 127 and -128 already take two.
      A list or set is its elements, then its code and its 16-bit length.
      A reference is followed; functions and external data write nothing. */
  function Enc(v: Value, fbits: real -> nat): (r: seq<byte>)
    requires Encodable(v)
    decreases Size(v), 0
  {
    match v
    case None => [ENC_NONE]
    case Bool(b) => [if b then ENC_TRUE else ENC_FALSE]
    case Int(i) =>
      if -0x80 < i < 0x7F then [ENC_INT1, ToWord(i) % 0x100]
      else if -0x8000 < i < 0x7FFF then [ENC_INT2] + Le(ToWord(i), 2)
      else [ENC_INT4] + Le(ToWord(i), 4)
    case Float(f) => [ENC_FLOAT] + Le(fbits(f), 4)
    case Str(s) => [ENC_STRING] + StrBytes(s) + [0]
    case List(l) => EncSeq(l.elems, fbits) + [ENC_LIST] + Le(|l.elems|, 2)
    case Set(l) => EncSeq(l.elems, fbits) + [ENC_SET] + Le(|l.elems|, 2)
    case Ref(t) => Enc(t, fbits)
    case _ => []
  }

  /** A string's code is framed by ENC_STRING and its NUL, with no NUL in
      between; a list's or set's code ends in its kind and a 16-bit count
      that reads back as its length. */
  lemma EncShape(v: Value, fbits: real -> nat)
    requires Encodable(v)
    ensures var r := Enc(v, fbits);
      && (v.Str? ==> |r| >= 2 && r[0] == ENC_STRING && r[|r| - 1] == 0 && 0 !in r[1..|r| - 1])
      && (v.List? || v.Set? ==>
        && |r| >= 3 && r[|r| - 3] == (if v.List? then ENC_LIST else ENC_SET)
        && ReadLe(r[|r| - 2..]) == |v.l.elems|)
  {
    var r := Enc(v, fbits);
    if v.Str? {
      assert r[1..|r| - 1] == StrBytes(v.s);
    } else if v.List? || v.Set? {
      Trailer(EncSeq(v.l.elems, fbits), if v.List? then ENC_LIST else ENC_SET, |v.l.elems|);
    }
  }

  lemma Trailer(pre: seq<byte>, code: byte, n: nat)
    requires n < 0x1_0000
    ensures var r := pre + [code] + Le(n, 2);
      |r| >= 3 && r[|r| - 3] == code && ReadLe(r[|r| - 2..]) == n
  {
    var r := pre + [code] + Le(n, 2);
    assert r[|r| - 2..] == Le(n, 2);
    ReadLeLe(n, 2);
    assert Pow256(2) == 0x1_0000;
  }

  function EncSeq(s: seq<Value>, fbits: real -> nat): (r: seq<byte>)
    requires forall i :: 0 <= i < |s| ==> Encodable(s[i])
    decreases SizeSeq(s), 1
  {
    if s == [] then [] else Enc(s[0], fbits) + EncSeq(s[1..], fbits)
  }

  /** The buffer `dyn_encode` leaves: the code, then ENC_HALT. */
  function Buffer(v: Value, fbits: real -> nat): (r: seq<byte>)
    requires Encodable(v)
    ensures |r| >= 1 && r[|r| - 1] == ENC_HALT
  {
    Enc(v, fbits) + [ENC_HALT]
  }

  // ---------------------------------------------------------------------------
  // dyn_decode, dyn_decode_all
  // ---------------------------------------------------------------------------

  datatype Decoded = Decoded(rest: seq<byte>, stack: seq<Value>)

  datatype Read = Read(value: Value, rest: seq<byte>)

  /** The first NUL, if any. */
  function NulAt(bs: seq<byte>): (r: Option<nat>)
    ensures r.Some? ==> r.value < |bs| && bs[r.value] == 0 && 0 !in bs[..r.value]
    ensures r.Nothing? ==> 0 !in bs
  {
    if bs == [] then Nothing
    else if bs[0] == 0 then Some(0)
    else match NulAt(bs[1..])
      case Nothing => Nothing
      case Some(k) =>
        assert bs[..k + 1] == [bs[0]] + bs[1..][..k];
        Some(k + 1)
  }

  /** Bytes before a NUL read as characters. */
  function Chars(bs: seq<byte>): (t: Text)
    requires 0 !in bs
    ensures |t| == |bs|
  {
    seq(|bs|, i requires 0 <= i < |bs| => bs[i] as char)
  }

  /** Where the decoder keeps the set it rebuilds. Decoded values hold no
      references, so the heap and the location play no part. */
  const Scratch: Loc := Root(0)

  /** `dyn_set_insert` of each item in turn, as the set branch of
      `dyn_decode` does. */
  function InsertAll(s: ListV, items: seq<Value>): (r: ListV)
    requires ListOk(s) && |s.elems| + |items| <= s.space
    ensures ListOk(r) && r.space == s.space && |r.elems| <= |s.elems| + |items|
    decreases |items|
  {
    if items == [] then s
    else InsertAll(SetInsert(s, items[0], map[], Scratch).after, items[1..])
  }

  /** The codes that push one value read from the bytes after them: the
      value and the bytes left, or Nothing when the bytes run out first.
      A string is read up to its NUL, and the 16-bit length decides how far
      to skip. */
  function DecodeScalar(code: byte, from: seq<byte>, fval: nat -> real): (r: Option<Read>)
    requires ENC_TRUE <= code <= ENC_FLOAT || code == ENC_STRING
    ensures r.Some? ==> |r.value.rest| <= |from|
  {
    if code == ENC_TRUE || code == ENC_FALSE then Some(Read(SetBool(if code == ENC_TRUE then 1 else 0), from))
    else if code == ENC_INT1 then
      if |from| < 1 then Nothing else Some(Read(Int(SignExtend8(from[0])), from[1..]))
    else if code == ENC_INT2 then
      if |from| < 2 then Nothing else Some(Read(Int(SignExtend16(ReadLe(from[..2]))), from[2..]))
    else if code == ENC_INT4 then
      if |from| < 4 then Nothing else Some(Read(Int(FromWord(ReadLe(from[..4]))), from[4..]))
    else if code == ENC_FLOAT then
      if |from| < 4 then Nothing else Some(Read(Float(fval(ReadLe(from[..4]))), from[4..]))
    else
      match NulAt(from)
      case Nothing => Nothing
      case Some(k) => Some(Read(Str(Chars(from[..k])), from[k % 0x1_0000 + 1..]))
  }

  /** ENC_LIST and ENC_SET: the 16-bit length after the code says how many
      values on top of the stack become the elements, in order. A list takes
      them as they are; a set inserts each, so later duplicates drop out.
      Nothing when the bytes run out, the stack is too short, or the length
      does not fit the signed short `dyn_list_popi` takes. */
  function Collect(code: byte, from: seq<byte>, stack: seq<Value>): (r: Option<Decoded>)
    requires code == ENC_LIST || code == ENC_SET
    ensures r.Some? ==> |r.value.rest| <= |from|
  {
    if |from| < 2 then Nothing
    else
      var len := ReadLe(from[..2]);
      if len > |stack| || len > 0x7FFF then Nothing
      else
        var items := stack[|stack| - len..];
        var made := if code == ENC_LIST then List(ListV(items, len)) else Set(InsertAll(ListV([], len), items));
        Some(Decoded(from[2..], stack[..|stack| - len] + [made]))
  }

  /** `dyn_decode(code, from, to)` with `to` as a stack. Codes it does not
      know, ENC_DICT among them, push NONE and read nothing. */
  function DecodeOne(code: byte, from: seq<byte>, stack: seq<Value>, fval: nat -> real): (r: Option<Decoded>)
    ensures r.Some? ==> |r.value.rest| <= |from|
    ensures r.Some? && code == ENC_HALT ==> r.value == Decoded(from, stack)
  {
    if code == ENC_HALT then Some(Decoded(from, stack))
    else if code == ENC_LIST || code == ENC_SET then Collect(code, from, stack)
    else if ENC_TRUE <= code <= ENC_FLOAT || code == ENC_STRING then
      match DecodeScalar(code, from, fval)
      case Nothing => Nothing
      case Some(d) => Some(Decoded(d.rest, stack + [d.value]))
    else Some(Decoded(from, stack + [None]))
  }

  /** The loop of `dyn_decode_all`: read a code, decode it, stop after
      ENC_HALT. */
  function Run(bytes: seq<byte>, stack: seq<Value>, fval: nat -> real): (r: Option<Decoded>)
    ensures r.Some? ==> |r.value.rest| < |bytes|
    decreases |bytes|
  {
    if bytes == [] then Nothing
    else match DecodeOne(bytes[0], bytes[1..], stack, fval)
      case Nothing => Nothing
      case Some(d) => if bytes[0] == ENC_HALT then Some(d) else Run(d.rest, d.stack, fval)
  }

  /** `dyn_decode_all`: the first value on the stack (NONE when nothing was
      pushed) and the bytes after ENC_HALT. */
  function DecodeAll(bytes: seq<byte>, fval: nat -> real): (r: Option<Read>)
    ensures r.Some? ==> |r.value.rest| < |bytes|
  {
    match Run(bytes, [], fval)
    case Nothing => Nothing
    case Some(d) => Some(Read(if d.stack == [] then None else d.stack[0], d.rest))
  }

  /** A decode step reads a prefix of its bytes: what is left is a suffix. */
  lemma DecodeOneSuffix(code: byte, from: seq<byte>, stack: seq<Value>, fval: nat -> real)
    ensures var r := DecodeOne(code, from, stack, fval);
      r.Some? ==> r.value.rest == from[|from| - |r.value.rest|..]
  {
  }

  /** The loop ends after ENC_HALT, leaving the bytes after it. */
  lemma RunHalt(bytes: seq<byte>, stack: seq<Value>, fval: nat -> real)
    requires |bytes| > 0 && bytes[0] == ENC_HALT
    ensures Run(bytes, stack, fval) == Some(Decoded(bytes[1..], stack))
  {
  }

  /** A successful run that does not start with ENC_HALT decoded its first
      code and went on from the bytes that step left. */
  lemma RunNext(bytes: seq<byte>, stack: seq<Value>, fval: nat -> real)
    requires Run(bytes, stack, fval).Some?
    ensures |bytes| > 0 && DecodeOne(bytes[0], bytes[1..], stack, fval).Some?
    ensures var d := DecodeOne(bytes[0], bytes[1..], stack, fval).value;
      bytes[0] != ENC_HALT ==> Run(bytes, stack, fval) == Run(d.rest, d.stack, fval)
  {
  }

  /** `dyn_decode_all` stops right after an ENC_HALT code: what is left is a
      suffix of the bytes, and the byte just before it is ENC_HALT. */
  lemma {:induction false} RunStopsAtHalt(bytes: seq<byte>, stack: seq<Value>, fval: nat -> real, r: Decoded)
    requires Run(bytes, stack, fval) == Some(r)
    ensures |r.rest| < |bytes|
    ensures r.rest == bytes[|bytes| - |r.rest|..]
    ensures bytes[|bytes| - |r.rest| - 1] == ENC_HALT
    decreases |bytes|
  {
    RunNext(bytes, stack, fval);
    if bytes[0] == ENC_HALT {
      RunHalt(bytes, stack, fval);
    } else {
      var d := DecodeOne(bytes[0], bytes[1..], stack, fval).value;
      DecodeOneSuffix(bytes[0], bytes[1..], stack, fval);
      RunStopsAtHalt(d.rest, d.stack, fval, r);
      assert bytes[1..][|bytes| - 1 - |d.rest|..] == bytes[|bytes| - |d.rest|..];
    }
  }

  /** The loop of `dyn_decode_all` as the C writes it: read a code, decode
      it, and stop once the code was ENC_HALT. */
  method DecodeAllLoop(bytes: seq<byte>, fval: nat -> real) returns (r: Option<Read>)
    ensures r == DecodeAll(bytes, fval)
  {
    var from := bytes;
    var stack: seq<Value> := [];
    while true
      invariant Run(from, stack, fval) == Run(bytes, [], fval)
      decreases |from|
    {
      if from == [] {
        return Nothing;
      }
      var code := from[0];
      var step := DecodeOne(code, from[1..], stack, fval);
      if step.Nothing? {
        return Nothing;
      }
      if code == ENC_HALT {
        return Some(Read(if stack == [] then None else stack[0], from[1..]));
      }
      from, stack := step.value.rest, step.value.stack;
    }
  }

  // ---------------------------------------------------------------------------
  // The round trip
  // ---------------------------------------------------------------------------

  /** The values that come back unchanged: NONE, booleans, integers, floats
      whose bit pattern `fval` reads back, strings, and lists and sets of
      them whose space equals their length (the decoder allocates exactly
      the length) and whose sets hold no two elements that compare EQ (the
      decoder inserts each element again). */
  predicate Codable(v: Value, fbits: real -> nat, fval: nat -> real)
    ensures Codable(v, fbits, fval) ==> Encodable(v)
  {
    match v
    case None => true
    case Bool(_) => true
    case Int(_) => true
    case Float(f) => fval(fbits(f) % 0x1_0000_0000) == f
    case Str(s) => |s| < 0xFFFE
    case List(l) => Tight(l) && forall i :: 0 <= i < |l.elems| ==> Codable(l.elems[i], fbits, fval)
    case Set(l) =>
      && Tight(l)
      && (forall i :: 0 <= i < |l.elems| ==> Codable(l.elems[i], fbits, fval))
      && Distinct(l.elems)
    case _ => false
  }

  predicate Tight(l: ListV) {
    l.space == |l.elems| <= 0x7FFF
  }

  predicate Distinct(s: seq<Value>) {
    forall i, j :: 0 <= i < j < |s| ==> Cmp(s[i], s[j], map[]) != EQ
  }

  /** Copying changes nothing a decoder builds. */
  lemma {:induction false} CopyCodable(v: Value, at: Loc, fbits: real -> nat, fval: nat -> real)
    requires Codable(v, fbits, fval)
    ensures Copy(v, at) == v
    decreases Size(v), 0
  {
    match v
    case List(l) => CopyElemsCodable(l.elems, at, 0, fbits, fval);
    case Set(l) => CopyElemsCodable(l.elems, at, 0, fbits, fval);
    case _ =>
  }

  lemma {:induction false} CopyElemsCodable(s: seq<Value>, at: Loc, k: nat, fbits: real -> nat, fval: nat -> real)
    requires forall i :: 0 <= i < |s| ==> Codable(s[i], fbits, fval)
    ensures CopyElems(s, at, k) == s
    decreases SizeSeq(s), 1
  {
    if s != [] {
      CopyCodable(s[0], Slot(at, k), fbits, fval);
      CopyElemsCodable(s[1..], at, k + 1, fbits, fval);
      assert s == [s[0]] + s[1..];
    }
  }

  /** `dyn_op_in` does not find an element that compares EQ to nothing in
      the set. */
  lemma NotIn(prefix: seq<Value>, e: Value, n: nat)
    requires !IsRef(e)
    requires forall j :: 0 <= j < |prefix| ==> Cmp(prefix[j], e, map[]) != EQ
    ensures !In(SetRef(e, map[]), Set(ListV(prefix, n)), map[]).value.b
  {
    CompareFacts.SearchSeqFirst(prefix, e, map[]);
  }

  /** An element that compares EQ to nothing before it is appended, as it is. */
  lemma InsertFresh(es: seq<Value>, k: nat, n: nat, fbits: real -> nat, fval: nat -> real)
    requires k < |es| <= n < 0x1_0000
    requires Codable(es[k], fbits, fval)
    requires forall j :: 0 <= j < k ==> Cmp(es[j], es[k], map[]) != EQ
    ensures SetInsert(ListV(es[..k], n), es[k], map[], Scratch) == Added(ListV(es[..k + 1], n), true)
  {
    var e := es[k];
    var prefix := es[..k];
    assert forall j :: 0 <= j < k ==> prefix[j] == es[j];
    NotIn(prefix, e, n);
    CopyCodable(e, Slot(Scratch, k), fbits, fval);
    assert prefix + [e] == es[..k + 1];
  }

  /** Inserting distinct elements one by one into an empty set of the right
      space rebuilds them in order. */
  lemma {:induction false} InsertDistinct(es: seq<Value>, k: nat, n: nat, fbits: real -> nat, fval: nat -> real)
    requires k <= |es| <= n < 0x1_0000
    requires forall i :: 0 <= i < |es| ==> Codable(es[i], fbits, fval)
    requires Distinct(es)
    ensures InsertAll(ListV(es[..k], n), es[k..]) == ListV(es, n)
    decreases |es| - k
  {
    if k == |es| {
      assert es[..k] == es;
    } else {
      InsertFresh(es, k, n, fbits, fval);
      assert es[k..][0] == es[k] && es[k..][1..] == es[k + 1..];
      InsertDistinct(es, k + 1, n, fbits, fval);
    }
  }

  lemma Pow256Word()
    ensures Pow256(2) == 0x1_0000 && Pow256(4) == 0x1_0000_0000
  {
    assert Pow256(1) == 0x100;
    assert Pow256(3) == 0x100_0000;
  }

  /** The one, two or four payload bytes of an integer read back as it. */
  lemma IntBytes(i: int32)
    ensures -0x80 < i < 0x7F ==> SignExtend8(ToWord(i) % 0x100) == i
    ensures -0x8000 < i < 0x7FFF ==> SignExtend16(ReadLe(Le(ToWord(i), 2))) == i
    ensures FromWord(ReadLe(Le(ToWord(i), 4))) == i
  {
    Pow256Word();
    ReadLeLe(ToWord(i), 2);
    ReadLeLe(ToWord(i), 4);
    var w := ToWord(i);
    if -0x80 < i < 0 {
      DivModUnique(w, 0x100, 0xFF_FFFF, i + 0x100);
    } else if 0 <= i < 0x7F {
      DivModUnique(w, 0x100, 0, i);
    }
    if -0x8000 < i < 0 {
      DivModUnique(w, 0x1_0000, 0xFFFF, i + 0x1_0000);
    } else if 0 <= i < 0x7FFF {
      DivModUnique(w, 0x1_0000, 0, i);
    }
    DivModUnique(w, 0x1_0000_0000, 0, w);
  }

  /** A string's bytes, with the NUL after them, read back as the string. */
  lemma StrBytesRead(s: Text, rest: seq<byte>)
    ensures NulAt(StrBytes(s) + [0] + rest) == Some(|s|)
    ensures Chars((StrBytes(s) + [0] + rest)[..|s|]) == s
  {
    var bs := StrBytes(s) + [0] + rest;
    assert bs[..|s|] == StrBytes(s);
    NulFirst(bs, |s|);
  }

  /** A NUL at `k` with none before it is the one `NulAt` finds. */
  lemma {:induction false} NulFirst(bs: seq<byte>, k: nat)
    requires k < |bs| && bs[k] == 0 && 0 !in bs[..k]
    ensures NulAt(bs) == Some(k)
  {
    if k > 0 {
      assert bs[0] == bs[..k][0];
      assert bs[1..][..k - 1] == bs[..k][1..];
      NulFirst(bs[1..], k - 1);
    }
  }

  /** One turn of the decoding loop. */
  lemma RunStep(bytes: seq<byte>, stack: seq<Value>, fval: nat -> real, d: Decoded)
    requires |bytes| > 0 && bytes[0] != ENC_HALT
    requires DecodeOne(bytes[0], bytes[1..], stack, fval) == Some(d)
    ensures Run(bytes, stack, fval) == Run(d.rest, d.stack, fval)
  {
  }

  /** A scalar is one code and its payload: decoding it pushes the value
      and leaves the bytes after it. */
  lemma ScalarStep(v: Value, rest: seq<byte>, stack: seq<Value>, fbits: real -> nat, fval: nat -> real)
    requires Codable(v, fbits, fval) && !v.List? && !v.Set?
    ensures var bytes := Enc(v, fbits) + rest;
      && |bytes| > 0 && bytes[0] != ENC_HALT
      && DecodeOne(bytes[0], bytes[1..], stack, fval) == Some(Decoded(rest, stack + [v]))
  {
    match v
    case None => NoneStep(rest, stack, fbits, fval);
    case Bool(b) => BoolStep(b, rest, stack, fbits, fval);
    case Int(i) => IntStep(i, rest, stack, fbits, fval);
    case Float(f) => FloatStep(f, rest, stack, fbits, fval);
    case Str(s) => StrStep(s, rest, stack, fbits, fval);
  }

  lemma NoneStep(rest: seq<byte>, stack: seq<Value>, fbits: real -> nat, fval: nat -> real)
    ensures var bytes := Enc(None, fbits) + rest;
      && |bytes| > 0 && bytes[0] != ENC_HALT
      && DecodeOne(bytes[0], bytes[1..], stack, fval) == Some(Decoded(rest, stack + [None]))
  {
    assert (Enc(None, fbits) + rest)[1..] == rest;
  }

  lemma BoolStep(b: bool, rest: seq<byte>, stack: seq<Value>, fbits: real -> nat, fval: nat -> real)
    ensures var bytes := Enc(Bool(b), fbits) + rest;
      && |bytes| > 0 && bytes[0] != ENC_HALT
      && DecodeOne(bytes[0], bytes[1..], stack, fval) == Some(Decoded(rest, stack + [Bool(b)]))
  {
    assert (Enc(Bool(b), fbits) + rest)[1..] == rest;
  }

  lemma FloatStep(f: real, rest: seq<byte>, stack: seq<Value>, fbits: real -> nat, fval: nat -> real)
    requires fval(fbits(f) % 0x1_0000_0000) == f
    ensures var bytes := Enc(Float(f), fbits) + rest;
      && |bytes| > 0 && bytes[0] != ENC_HALT
      && DecodeOne(bytes[0], bytes[1..], stack, fval) == Some(Decoded(rest, stack + [Float(f)]))
  {
    var bytes := Enc(Float(f), fbits) + rest;
    Pow256Word();
    ReadLeLe(fbits(f), 4);
    assert bytes[1..][..4] == Le(fbits(f), 4);
    assert bytes[1..][4..] == rest;
  }

  lemma StrStep(s: Text, rest: seq<byte>, stack: seq<Value>, fbits: real -> nat, fval: nat -> real)
    requires |s| < 0xFFFE
    ensures var bytes := Enc(Str(s), fbits) + rest;
      && |bytes| > 0 && bytes[0] != ENC_HALT
      && DecodeOne(bytes[0], bytes[1..], stack, fval) == Some(Decoded(rest, stack + [Str(s)]))
  {
    var bytes := Enc(Str(s), fbits) + rest;
    var from := StrBytes(s) + [0] + rest;
    assert bytes == [ENC_STRING] + from;
    assert bytes[1..] == from;
    StrBytesRead(s, rest);
    assert |s| % 0x1_0000 == |s|;
    assert from[|s| + 1..] == rest;
    assert DecodeScalar(ENC_STRING, from, fval) == Some(Read(Str(s), rest));
  }

  lemma IntStep(i: int32, rest: seq<byte>, stack: seq<Value>, fbits: real -> nat, fval: nat -> real)
    ensures var bytes := Enc(Int(i), fbits) + rest;
      && |bytes| > 0 && bytes[0] != ENC_HALT
      && DecodeOne(bytes[0], bytes[1..], stack, fval) == Some(Decoded(rest, stack + [Int(i)]))
  {
    var bytes := Enc(Int(i), fbits) + rest;
    IntBytes(i);
    var w := ToWord(i);
    if -0x80 < i < 0x7F {
      assert bytes[1..][1..] == rest;
    } else if -0x8000 < i < 0x7FFF {
      assert bytes[1..][..2] == Le(w, 2);
      assert bytes[1..][2..] == rest;
    } else {
      assert bytes[1..][..4] == Le(w, 4);
      assert bytes[1..][4..] == rest;
    }
  }

  /** Decoding the code of a value pushes the value and leaves the bytes
      after it. */
  lemma {:induction false} RunEnc(v: Value, rest: seq<byte>, stack: seq<Value>, fbits: real -> nat, fval: nat -> real)
    requires Codable(v, fbits, fval)
    ensures Run(Enc(v, fbits) + rest, stack, fval) == Run(rest, stack + [v], fval)
    decreases Size(v), 1
  {
    if v.List? {
      RunEncList(v, v.l, ENC_LIST, rest, stack, fbits, fval);
    } else if v.Set? {
      RunEncList(v, v.l, ENC_SET, rest, stack, fbits, fval);
    } else {
      ScalarStep(v, rest, stack, fbits, fval);
      RunStep(Enc(v, fbits) + rest, stack, fval, Decoded(rest, stack + [v]));
    }
  }

  /** The list and set cases: the elements are decoded onto the stack, and
      the code and length gather them back. */
  lemma {:induction false} RunEncList(v: Value, l: ListV, code: byte, rest: seq<byte>, stack: seq<Value>,
                                      fbits: real -> nat, fval: nat -> real)
    requires Codable(v, fbits, fval)
    requires (v == List(l) && code == ENC_LIST) || (v == Set(l) && code == ENC_SET)
    ensures Run(Enc(v, fbits) + rest, stack, fval) == Run(rest, stack + [v], fval)
    decreases Size(v), 0
  {
    var tail := [code] + Le(|l.elems|, 2) + rest;
    assert Enc(v, fbits) + rest == EncSeq(l.elems, fbits) + tail;
    assert SizeSeq(l.elems) < Size(v);
    RunEncSeq(l.elems, tail, stack, fbits, fval);
    GatherStep(v, l, code, rest, stack, fbits, fval);
    assert tail[1..] == Le(|l.elems|, 2) + rest;
    RunStep(tail, stack + l.elems, fval, Decoded(rest, stack + [v]));
  }

  /** The first element and the rest of an encodable sequence are
      encodable. */
  lemma CodableTail(es: seq<Value>, fbits: real -> nat, fval: nat -> real)
    requires |es| > 0
    requires forall i :: 0 <= i < |es| ==> Codable(es[i], fbits, fval)
    requires forall i :: 0 <= i < |es| ==> Encodable(es[i])
    ensures Codable(es[0], fbits, fval) && Encodable(es[0])
    ensures forall i :: 0 <= i < |es[1..]| ==> Codable(es[1..][i], fbits, fval)
    ensures forall i :: 0 <= i < |es[1..]| ==> Encodable(es[1..][i])
  {
    forall i | 0 <= i < |es| - 1
      ensures es[1..][i] == es[i + 1]
    {
    }
  }

  /** With the elements on top of the stack, the list or set code and the
      length put the value back together. */
  lemma GatherStep(v: Value, l: ListV, code: byte, rest: seq<byte>, stack: seq<Value>,
               fbits: real -> nat, fval: nat -> real)
    requires Codable(v, fbits, fval)
    requires (v == List(l) && code == ENC_LIST) || (v == Set(l) && code == ENC_SET)
    ensures DecodeOne(code, Le(|l.elems|, 2) + rest, stack + l.elems, fval) == Some(Decoded(rest, stack + [v]))
  {
    var es := l.elems;
    var n := |es|;
    var from := Le(n, 2) + rest;
    Pow256Word();
    ReadLeLe(n, 2);
    DivModUnique(n, 0x1_0000, 0, n);
    assert from[..2] == Le(n, 2);
    assert from[2..] == rest;
    var st := stack + es;
    assert st[|st| - n..] == es;
    assert st[..|st| - n] == stack;
    if code == ENC_SET {
      InsertDistinct(es, 0, n, fbits, fval);
      assert es[..0] == [] && es[0..] == es;
    }
  }

  lemma EncSeqCons(es: seq<Value>, rest: seq<byte>, fbits: real -> nat)
    requires es != [] && forall i :: 0 <= i < |es| ==> Encodable(es[i])
    ensures EncSeq(es, fbits) + rest == Enc(es[0], fbits) + (EncSeq(es[1..], fbits) + rest)
  {
  }

  lemma {:induction false} RunEncSeq(es: seq<Value>, rest: seq<byte>, stack: seq<Value>,
                                     fbits: real -> nat, fval: nat -> real)
    requires forall i :: 0 <= i < |es| ==> Codable(es[i], fbits, fval)
    requires forall i :: 0 <= i < |es| ==> Encodable(es[i])
    ensures Run(EncSeq(es, fbits) + rest, stack, fval) == Run(rest, stack + es, fval)
    decreases SizeSeq(es), 2
  {
    if es == [] {
      assert EncSeq(es, fbits) + rest == rest;
      assert stack + es == stack;
    } else {
      var v, tail := es[0], es[1..];
      var more := EncSeq(tail, fbits) + rest;
      EncSeqCons(es, rest, fbits);
      assert Size(v) <= SizeSeq(es);
      CodableTail(es, fbits, fval);
      RunEnc(v, more, stack, fbits, fval);
      RunEncSeq(tail, rest, stack + [v], fbits, fval);
      StackCons(stack, es);
    }
  }

  lemma StackCons(stack: seq<Value>, es: seq<Value>)
    requires es != []
    ensures stack + [es[0]] + es[1..] == stack + es
  {
  }

  /** ENC_HALT ends the loop and leaves the stack as it is. */
  lemma HaltStep(tail: seq<byte>, stack: seq<Value>, fval: nat -> real)
    ensures Run([ENC_HALT] + tail, stack, fval) == Some(Decoded(tail, stack))
  {
    assert ([ENC_HALT] + tail)[1..] == tail;
  }

  /** `dyn_decode_all` undoes `dyn_encode`, and hands back the bytes after
      the buffer untouched. */
  lemma RoundTrip(v: Value, tail: seq<byte>, fbits: real -> nat, fval: nat -> real)
    requires Codable(v, fbits, fval)
    ensures DecodeAll(Buffer(v, fbits) + tail, fval) == Some(Read(v, tail))
  {
    var after := [ENC_HALT] + tail;
    assert Buffer(v, fbits) + tail == Enc(v, fbits) + after;
    RunEnc(v, after, [], fbits, fval);
    HaltStep(tail, [v], fval);
  }

  /** A reference is encoded as its target, so it comes back as the target. */
  lemma RefRoundTrip(t: Value, tail: seq<byte>, fbits: real -> nat, fval: nat -> real)
    requires Codable(t, fbits, fval)
    ensures DecodeAll(Buffer(Ref(t), fbits) + tail, fval) == Some(Read(t, tail))
  {
    assert Buffer(Ref(t), fbits) == Buffer(t, fbits);
    RoundTrip(t, tail, fbits, fval);
  }

  // ---------------------------------------------------------------------------
  // What does not come back
  // ---------------------------------------------------------------------------

  /** Bytes without a NUL in front of more bytes: the first NUL is found in
      the later ones. */
  lemma {:induction false} NulAfter(a: seq<byte>, b: seq<byte>)
    requires 0 !in a
    ensures NulAt(a + b) == match NulAt(b) case Nothing => Nothing case Some(k) => Some(|a| + k)
  {
    if a == [] {
      assert a + b == b;
    } else {
      assert (a + b)[0] == a[0] && a[0] in a;
      assert (a + b)[1..] == a[1..] + b;
      assert forall x :: x in a[1..] ==> x in a;
      NulAfter(a[1..], b);
    }
  }

  /** As written, a string is read back together with the bytes that follow
      it, up to the next NUL: never as itself, unless a NUL happens to come
      next. */
  lemma StringAsWrittenReadsOn(s: Text, rest: seq<byte>, fval: nat -> real)
    requires |s| < 0x1_0000 && (rest == [] || rest[0] != 0)
    ensures var r := DecodeScalar(ENC_STRING, (EncStringAsWritten(s) + rest)[1..], fval);
      r.Nothing? || (r.value.value.Str? && |r.value.value.s| > |s|)
  {
    var bytes := (EncStringAsWritten(s) + rest)[1..];
    assert s[..TextLen(s)] == s;
    assert bytes == StrBytes(s) + rest;
    NulAfter(StrBytes(s), rest);
    if rest != [] && NulAt(rest).Some? {
      assert NulAt(rest).value != 0;
    }
  }

  /** So the buffer for the string "a" alone does not decode at all: the
      string runs into ENC_HALT and past the end. */
  lemma StringAsWrittenUnreadable(fval: nat -> real)
    ensures EncStringAsWritten("a") + [ENC_HALT] == [ENC_STRING, 0x61, ENC_HALT]
    ensures DecodeAll(EncStringAsWritten("a") + [ENC_HALT], fval) == Nothing
  {
    var bytes := EncStringAsWritten("a") + [ENC_HALT];
    assert bytes == [ENC_STRING, 0x61, ENC_HALT];
    assert bytes[1..] == [0x61, ENC_HALT];
    assert NulAt(bytes[1..][1..]) == Nothing;
  }

  /** With the terminator written, it does. */
  lemma StringCorrected(fval: nat -> real, fbits: real -> nat)
    ensures Buffer(Str("a"), fbits) == [ENC_STRING, 0x61, 0, ENC_HALT]
    ensures DecodeAll(Buffer(Str("a"), fbits), fval) == Some(Read(Str("a"), []))
  {
    assert StrBytes("a") == [0x61];
    RoundTrip(Str("a"), [], fbits, fval);
    assert Buffer(Str("a"), fbits) + [] == Buffer(Str("a"), fbits);
  }

  /** A function writes nothing, so a list holding one asks the decoder for
      an element that is not on the stack. */
  lemma FunctionVanishes(f: Fct, fbits: real -> nat, fval: nat -> real)
    ensures Buffer(List(ListV([Function(f)], 1)), fbits) == [ENC_LIST, 1, 0, ENC_HALT]
    ensures DecodeAll(Buffer(List(ListV([Function(f)], 1)), fbits), fval) == Nothing
  {
    var v := List(ListV([Function(f)], 1));
    assert EncSeq([Function(f)], fbits) == [];
    assert Le(1, 2) == [1, 0];
    assert Buffer(v, fbits) == [ENC_LIST, 1, 0, ENC_HALT];
    assert ReadLe([1, 0]) == 1;
  }

  /** The decoder has no case for ENC_DICT: the code reads as NONE. */
  lemma DictCodeIsNone(tail: seq<byte>, fval: nat -> real)
    ensures DecodeAll([ENC_DICT, ENC_HALT] + tail, fval) == Some(Read(None, tail))
  {
    var bytes := [ENC_DICT, ENC_HALT] + tail;
    assert bytes[0] == ENC_DICT && bytes[1..] == [ENC_HALT] + tail;
    var empty: seq<Value> := [];
    assert empty + [None] == [None];
    RunStep(bytes, empty, fval, Decoded([ENC_HALT] + tail, [None]));
    HaltStep(tail, [None], fval);
  }

  /** Inserting 1 twice keeps one copy. */
  lemma InsertOneTwice()
    ensures InsertAll(ListV([], 2), [Int(1), Int(1)]) == ListV([Int(1)], 2)
  {
    var once := SetInsert(ListV([], 2), Int(1), map[], Scratch);
    assert once.after.elems == [Int(1)];
    assert Cmp(once.after.elems[0], Int(1), map[]) == EQ;
    assert [Int(1), Int(1)][1..] == [Int(1)];
  }

  /** A set is rebuilt by insertion, so equal elements collapse into one. */
  lemma SetDuplicatesCollapse(fbits: real -> nat, fval: nat -> real)
    ensures Buffer(Set(ListV([Int(1), Int(1)], 2)), fbits) == [ENC_INT1, 1, ENC_INT1, 1, ENC_SET, 2, 0, ENC_HALT]
    ensures DecodeAll(Buffer(Set(ListV([Int(1), Int(1)], 2)), fbits), fval) == Some(Read(Set(ListV([Int(1)], 2)), []))
  {
    DupSetBytes(fbits);
    DupSetRun(Buffer(Set(ListV([Int(1), Int(1)], 2)), fbits), fbits, fval);
  }

  /** The run over the two element codes, ENC_SET and ENC_HALT. */
  lemma DupSetRun(buf: seq<byte>, fbits: real -> nat, fval: nat -> real)
    requires buf == EncSeq([Int(1), Int(1)], fbits) + [ENC_SET, 2, 0, ENC_HALT]
    ensures Run(buf, [], fval) == Some(Decoded([], [Set(ListV([Int(1)], 2))]))
  {
    var es := [Int(1), Int(1)];
    var rest: seq<byte> := [ENC_SET, 2, 0, ENC_HALT];
    var one := [Set(ListV([Int(1)], 2))];
    RunEncSeq(es, rest, [], fbits, fval);
    assert [] + es == es;
    DupSetCollect();
    assert rest[1..] == [2, 0, ENC_HALT];
    RunStep(rest, es, fval, Decoded([ENC_HALT], one));
    HaltStep([], one, fval);
    assert [ENC_HALT] + [] == [ENC_HALT];
  }


  lemma DupSetBytes(fbits: real -> nat)
    ensures EncSeq([Int(1), Int(1)], fbits) == [ENC_INT1, 1, ENC_INT1, 1]
    ensures Buffer(Set(ListV([Int(1), Int(1)], 2)), fbits) == [ENC_INT1, 1, ENC_INT1, 1, ENC_SET, 2, 0, ENC_HALT]
    ensures Buffer(Set(ListV([Int(1), Int(1)], 2)), fbits) == EncSeq([Int(1), Int(1)], fbits) + [ENC_SET, 2, 0, ENC_HALT]
  {
    assert Enc(Int(1), fbits) == [ENC_INT1, 1];
    assert [Int(1), Int(1)][1..] == [Int(1)];
    assert Le(2, 2) == [2, 0];
  }

  lemma DupSetCollect()
    ensures Collect(ENC_SET, [2, 0, ENC_HALT], [Int(1), Int(1)]) == Some(Decoded([ENC_HALT], [Set(ListV([Int(1)], 2))]))
  {
    var from: seq<byte> := [2, 0, ENC_HALT];
    assert from[..2] == [2, 0];
    assert ReadLe([2, 0]) == 2;
    InsertOneTwice();
    assert from[2..] == [ENC_HALT];
    var st := [Int(1), Int(1)];
    assert st[|st| - 2..] == st;
    assert st[..|st| - 2] + [Set(ListV([Int(1)], 2))] == [Set(ListV([Int(1)], 2))];
  }

  /** A list comes back with its space trimmed to its length. */
  lemma SpaceTrimmed(fbits: real -> nat, fval: nat -> real)
    ensures DecodeAll(Buffer(List(ListV([None], 5)), fbits), fval) == Some(Read(List(ListV([None], 1)), []))
  {
    var v := List(ListV([None], 5));
    assert Buffer(v, fbits) == Buffer(List(ListV([None], 1)), fbits);
    RoundTrip(List(ListV([None], 1)), [], fbits, fval);
    assert Buffer(v, fbits) + [] == Buffer(v, fbits);
  }

  /** The integer widths switch at strict bounds: 127 and -128 take two
      payload bytes, 32767 and -32768 take four. */
  lemma IntWidths(fbits: real -> nat)
    ensures |Enc(Int(126), fbits)| == 2 && |Enc(Int(-127), fbits)| == 2
    ensures |Enc(Int(127), fbits)| == 3 && |Enc(Int(-128), fbits)| == 3
    ensures |Enc(Int(32766), fbits)| == 3 && |Enc(Int(-32767), fbits)| == 3
    ensures |Enc(Int(32767), fbits)| == 5 && |Enc(Int(-32768), fbits)| == 5
  {
  }
}

=== FILE: compare.dfy ===
/** The comparison core of dynamic_op.c: `dyn_op_cmp` and the operators
    built on it (`eq`, `ne`, `lt`, `gt`, `le`, `ge`), the membership search
    behind `dyn_op_in`, and the set insertion of dynamic_set.c that uses it.
    Every comparison reads each operand through at most one reference. */
module Compare {
  import opened CString
  import opened Values
  import opened Dynamic
  import Lists

  // The codes `dyn_op_cmp` stores in its first operand.
  const EQ: nat := 0
  const LT: nat := 1
  const GT: nat := 2
  const NEQ: nat := 3
  const TYPE: nat := 4
  const MARK: nat := 0xFF

  /** The outcome of an operator: the value left in the first operand and
      the returned flag. A failed operator leaves NONE behind. */
  datatype Done = Done(value: Value, ok: bool)

  const Failed := Done(None, false)

  // ---------------------------------------------------------------------------
  // A measure for the comparison recursion: only lists and sets are entered,
  // and following a reference never makes a value heavier.
  // ---------------------------------------------------------------------------

  function Weight(v: Value): (n: nat)
    ensures n >= 1
  {
    match v
    case List(l) => 1 + WeightSeq(l.elems)
    case Set(l) => 1 + WeightSeq(l.elems)
    case Ref(t) => 1 + Weight(t)
    case _ => 1
  }

  function WeightSeq(s: seq<Value>): (n: nat)
    ensures n >= |s|
  {
    if s == [] then 0 else Weight(s[0]) + WeightSeq(s[1..])
  }

  lemma DerefWeight(v: Value, h: Heap)
    ensures Weight(Deref(v, h)) <= Weight(v)
  {
  }

  /** What a comparison reaches through `dyn_set_ref` and one dereference
      is what it reaches by dereferencing the original once. */
  lemma DerefSetRef(v: Value, h: Heap)
    ensures Deref(SetRef(v, h), h) == Deref(v, h)
  {
  }

  // ---------------------------------------------------------------------------
  // dyn_op_cmp
  // ---------------------------------------------------------------------------

  /** The three-way outcome of two numbers; booleans and integers are
      compared as the reals they convert to. */
  function Order(p: real, q: real): (r: nat)
    ensures r == LT <==> p < q
    ensures r == GT <==> p > q
    ensures r == EQ <==> p == q
  {
    if p < q then LT else if p > q then GT else EQ
  }

  function Bit(b: bool): int {
    if b then 1 else 0
  }

  /** `dyn_op_cmp(x, y)`. NONE is below everything and equal to itself;
      booleans and numbers compare by value at the higher of the two types;
      strings only distinguish equal from unequal, because `ss_strcmp`'s
      result is kept in an unsigned short, so any difference reads as GT;
      sets compare by size and containment; lists of equal length yield the
      one outcome all their elements agree on, NEQ when two disagree, and
      MARK when they are empty; anything else is TYPE. */
  function Cmp(x: Value, y: Value, h: Heap): (r: nat)
    ensures r <= TYPE || r == MARK
    decreases Weight(x) + Weight(y), 0
  {
    var a := Deref(x, h);
    var b := Deref(y, h);
    DerefWeight(x, h);
    DerefWeight(y, h);
    if a.None? && b.None? then EQ
    else if a.None? then LT
    else if b.None? then GT
    else
      var t := MaxType(a, b);
      if t == BOOL then Order(Bit(GetBool(a, h)) as real, Bit(GetBool(b, h)) as real)
      else if t == INTEGER then Order(GetInt(a) as real, GetInt(b) as real)
      else if t == FLOAT then Order(GetFloat(a), GetFloat(b))
      else if t == STRING then
        if !(a.Str? && b.Str?) then TYPE
        else if Width16(CompareText(a.s, b.s)) > 0 then GT
        else EQ
      else if t == SET then
        if !(a.Set? && b.Set?) then TYPE
        else SetCmp(a.l.elems, b.l.elems, h)
      else if t == LIST then
        if !(a.List? && b.List?) then TYPE
        else if |a.l.elems| < |b.l.elems| then LT
        else if |a.l.elems| > |b.l.elems| then GT
        else CmpElems(a.l.elems, b.l.elems, MARK, h)
      else TYPE
  }

  /** The set branch: the size decides the candidate outcome, and it stands
      only when every element of the smaller set is found in the larger. */
  function SetCmp(xs: seq<Value>, ys: seq<Value>, h: Heap): (r: nat)
    ensures r <= NEQ
    decreases WeightSeq(xs) + WeightSeq(ys), 3
  {
    var ret := if |xs| == |ys| then EQ else if |xs| < |ys| then LT else GT;
    var found := if |xs| <= |ys| then AllIn(xs, ys, h) else AllIn(ys, xs, h);
    if found then ret else NEQ
  }

  /** The list branch: `ret` starts as MARK and takes the first outcome
      that follows a MARK; a later different outcome gives NEQ. */
  function CmpElems(xs: seq<Value>, ys: seq<Value>, ret: nat, h: Heap): (r: nat)
    requires |xs| == |ys| && (ret <= TYPE || ret == MARK)
    ensures r <= TYPE || r == MARK
    decreases WeightSeq(xs) + WeightSeq(ys), 1
  {
    if xs == [] then ret
    else
      var c := Cmp(xs[0], ys[0], h);
      if ret != MARK && c != ret then NEQ
      else CmpElems(xs[1..], ys[1..], c, h)
  }

  /** Every element of `ls` is found in `rs` by `dyn_op_in`. */
  function AllIn(ls: seq<Value>, rs: seq<Value>, h: Heap): (r: bool)
    decreases WeightSeq(ls) + WeightSeq(rs), 2
  {
    if ls == [] then true
    else
      DerefWeight(ls[0], h);
      InPos(SearchSeq(rs, Deref(ls[0], h), h)) && AllIn(ls[1..], rs, h)
  }

  /** The list and set loop of `search`: one plus the index of the first
      element that compares EQ with `e`, or 0. */
  function SearchSeq(s: seq<Value>, e: Value, h: Heap): (p: nat)
    ensures p <= |s|
    decreases WeightSeq(s) + Weight(e), 1
  {
    if s == [] then 0
    else if Cmp(s[0], e, h) == EQ then 1
    else
      var p := SearchSeq(s[1..], e, h);
      if p == 0 then 0 else p + 1
  }

  /** `dyn_op_in` hands the 16-bit position to `dyn_set_bool`, which keeps
      only its low 8 bits. */
  predicate InPos(p: nat) {
    Width16(p) % 0x100 != 0
  }

  // ---------------------------------------------------------------------------
  // search, dyn_op_in
  // ---------------------------------------------------------------------------

  /** `search(container, element)`: in a dict, the position of the key that
      the element renders to; in a list or set, the position of the first
      element equal to it; otherwise 0. */
  function Search(c: Value, e: Value, h: Heap): (p: ushort)
    ensures !c.Dict? && !c.List? && !c.Set? ==> p == 0
    ensures c.Dict? ==> p == Width16(HasKey(c.d, GetString(e, h)))
  {
    match c
    case Dict(d) => Width16(HasKey(d, GetString(e, h)))
    case List(l) => Width16(SearchSeq(l.elems, e, h))
    case Set(l) => Width16(SearchSeq(l.elems, e, h))
    case _ => 0
  }

  /** `dyn_op_in(x, y)`: whether `x` occurs in the container `y`; anything
      but a list, set or dict on the right fails. */
  function In(x: Value, y: Value, h: Heap): (r: Done)
    ensures r.ok <==> Deref(y, h).List? || Deref(y, h).Set? || Deref(y, h).Dict?
    ensures r.ok ==> r.value.Bool?
    ensures !r.ok ==> r == Failed
  {
    var c := Deref(y, h);
    if c.List? || c.Set? || c.Dict? then Done(SetBool(Search(c, Deref(x, h), h)), true)
    else Failed
  }

  // ---------------------------------------------------------------------------
  // The relational operators
  // ---------------------------------------------------------------------------

  /** `dyn_op_eq`: true exactly when the comparison is EQ. */
  function Eq(x: Value, y: Value, h: Heap): (r: Value)
    ensures r.Bool? && (r.b <==> Cmp(x, y, h) == EQ)
  {
    SetBool(if Cmp(x, y, h) == EQ then 1 else 0)
  }

  /** `dyn_op_ne`: the negation of `dyn_op_eq`. */
  function Ne(x: Value, y: Value, h: Heap): (r: Value)
    ensures r.Bool? && r.b == !Eq(x, y, h).b
  {
    SetBool(if Eq(x, y, h).b then 0 else 1)
  }

  /** `dyn_op_lt`: fails when the operands are of different kinds (TYPE),
      otherwise true exactly on LT. */
  function Lt(x: Value, y: Value, h: Heap): (r: Done)
    ensures r.ok <==> Cmp(x, y, h) != TYPE
    ensures r.ok ==> r.value.Bool? && (r.value.b <==> Cmp(x, y, h) == LT)
    ensures !r.ok ==> r == Failed
  {
    var c := Cmp(x, y, h);
    if c == TYPE then Failed else Done(SetBool(if c == LT then 1 else 0), true)
  }

  /** `dyn_op_gt`: as `dyn_op_lt`, true exactly on GT. */
  function Gt(x: Value, y: Value, h: Heap): (r: Done)
    ensures r.ok <==> Cmp(x, y, h) != TYPE
    ensures r.ok ==> r.value.Bool? && (r.value.b <==> Cmp(x, y, h) == GT)
    ensures !r.ok ==> r == Failed
  {
    var c := Cmp(x, y, h);
    if c == TYPE then Failed else Done(SetBool(if c == GT then 1 else 0), true)
  }

  /** `dyn_op_ge`: the negation of a successful `dyn_op_lt`. */
  function Ge(x: Value, y: Value, h: Heap): (r: Done)
    ensures r.ok <==> Lt(x, y, h).ok
    ensures r.ok ==> r.value.Bool? && r.value.b == !Lt(x, y, h).value.b
    ensures !r.ok ==> r == Failed
  {
    var lt := Lt(x, y, h);
    if lt.ok then Done(SetBool(if lt.value.b then 0 else 1), true) else lt
  }

  /** `dyn_op_le`: the negation of a successful `dyn_op_gt`. */
  function Le(x: Value, y: Value, h: Heap): (r: Done)
    ensures r.ok <==> Gt(x, y, h).ok
    ensures r.ok ==> r.value.Bool? && r.value.b == !Gt(x, y, h).value.b
    ensures !r.ok ==> r == Failed
  {
    var gt := Gt(x, y, h);
    if gt.ok then Done(SetBool(if gt.value.b then 0 else 1), true) else gt
  }

  // ---------------------------------------------------------------------------
  // dynamic_set.c: dyn_set_set_len, dyn_set_insert
  // ---------------------------------------------------------------------------

  /** `dyn_set_set_len(len)`: an empty set with room for `len` elements. */
  function SetSetLen(len: ushort): (r: Value)
    ensures r.Set? && r.l.elems == [] && r.l.space == len
    ensures Wf(r) && Length(r, map[]) == 0
  {
    Set(Lists.SetListLen(len))
  }

  datatype Added = Added(after: ListV, inserted: bool)

  /** `dyn_set_insert(set, e)`: a copy of `e` is appended unless `dyn_op_in`
      already finds `e` in the set. Below 256 elements that is exactly when no
      element compares EQ to `e`; beyond, a match whose 16-bit position is a
      multiple of 256 reads as absent. */
  function SetInsert(s: ListV, e: Value, h: Heap, at: Loc): (r: Added)
    requires Lists.CanGrow(s)
    ensures |s.elems| < 0x100 ==>
      (r.inserted <==> forall j :: 0 <= j < |s.elems| ==> Cmp(s.elems[j], Deref(e, h), h) != EQ)
    ensures r.inserted <==> Width16(SearchSeq(s.elems, Deref(e, h), h)) % 0x100 == 0
    ensures r.inserted ==> r.after.elems == s.elems + [Copy(e, Slot(at, |s.elems|))]
    ensures r.inserted ==> r.after.space == Lists.Grown(s)
    ensures !r.inserted ==> r.after == s
  {
    var found := In(SetRef(e, h), Set(s), h);
    SetFound(s, e, h);
    if !found.value.b then Added(Lists.Push(s, e, at), true) else Added(s, false)
  }

  /** What `dyn_op_in` answers for the reference `dyn_set_insert` builds:
      whether the 16-bit position survives the cut to 8 bits, and below 256
      elements whether some element compares EQ. */
  lemma SetFound(s: ListV, e: Value, h: Heap)
    ensures var p := SearchSeq(s.elems, Deref(e, h), h);
      In(SetRef(e, h), Set(s), h).value.b <==> Width16(p) % 0x100 != 0
    ensures |s.elems| < 0x100 ==>
      (In(SetRef(e, h), Set(s), h).value.b <==>
        exists j :: 0 <= j < |s.elems| && Cmp(s.elems[j], Deref(e, h), h) == EQ)
  {
    var x := Deref(e, h);
    DerefSetRef(e, h);
    var p := SearchSeq(s.elems, x, h);
    assert In(SetRef(e, h), Set(s), h) == Done(SetBool(Width16(p)), true);
    if |s.elems| < 0x100 {
      SearchSeqMiss(s.elems, x, h);
      assert Width16(p) == p;
    }
  }

  // ---------------------------------------------------------------------------
  // Facts about the list and set search
  // ---------------------------------------------------------------------------

  /** The search answers 0 exactly when no element compares EQ. */
  lemma {:induction false} SearchSeqMiss(s: seq<Value>, e: Value, h: Heap)
    ensures SearchSeq(s, e, h) == 0 <==> forall i :: 0 <= i < |s| ==> Cmp(s[i], e, h) != EQ
  {
    if s != [] && Cmp(s[0], e, h) != EQ {
      var t := s[1..];
      var q := SearchSeq(t, e, h);
      SearchSeqMiss(t, e, h);
      assert SearchSeq(s, e, h) == if q == 0 then 0 else q + 1;
      Shifted(s);
    }
  }

  lemma Shifted(s: seq<Value>)
    requires s != []
    ensures forall i :: 0 <= i < |s| - 1 ==> s[1..][i] == s[i + 1]
  {
  }
}

=== FILE: compare_facts.dfy ===
/** What `dyn_op_cmp`, `search` and `dyn_op_in` compute, and the places where
    they depart from an ordering. */
module CompareFacts {
  import opened CString
  import opened Values
  import opened Dynamic
  import opened Compare
  import Lists
  import Dicts

  // ---------------------------------------------------------------------------
  // search and dyn_op_in
  // ---------------------------------------------------------------------------

  /** A search whose only match is the last element finds it there. */
  lemma {:induction false} SearchLast(s: seq<Value>, e: Value, h: Heap)
    requires |s| > 0 && Cmp(s[|s| - 1], e, h) == EQ
    requires forall j :: 0 <= j < |s| - 1 ==> Cmp(s[j], e, h) != EQ
    ensures SearchSeq(s, e, h) == |s|
  {
    if |s| > 1 {
      var t := s[1..];
      assert t[|t| - 1] == s[|s| - 1];
      forall j | 0 <= j < |t| - 1
        ensures Cmp(t[j], e, h) != EQ
      {
        assert t[j] == s[j + 1];
      }
      SearchLast(t, e, h);
    }
  }

  /** The list and set search answers the first element that compares EQ. */
  lemma SearchSeqFirst(s: seq<Value>, e: Value, h: Heap)
    ensures var p := SearchSeq(s, e, h);
      && (p == 0 <==> forall i :: 0 <= i < |s| ==> Cmp(s[i], e, h) != EQ)
      && (p > 0 ==> Cmp(s[p - 1], e, h) == EQ)
      && (forall j :: 0 <= j < p - 1 ==> Cmp(s[j], e, h) != EQ)
  {
    SearchSeqMiss(s, e, h);
    SearchSeqHit(s, e, h);
  }

  /** A non-zero answer points one past an element comparing EQ, and every
      element before it compares otherwise. */
  lemma SearchSeqHit(s: seq<Value>, e: Value, h: Heap)
    ensures var p := SearchSeq(s, e, h);
      p > 0 ==> Cmp(s[p - 1], e, h) == EQ && forall j :: 0 <= j < p - 1 ==> Cmp(s[j], e, h) != EQ
  {
    SearchSeqAt(s, e, h);
    SearchSeqBefore(s, e, h);
  }

  lemma {:induction false} SearchSeqAt(s: seq<Value>, e: Value, h: Heap)
    ensures var p := SearchSeq(s, e, h); p > 0 ==> Cmp(s[p - 1], e, h) == EQ
  {
    if s != [] && Cmp(s[0], e, h) != EQ {
      var t := s[1..];
      var q := SearchSeq(t, e, h);
      SearchSeqAt(t, e, h);
      assert SearchSeq(s, e, h) == if q == 0 then 0 else q + 1;
      if q > 0 {
        assert s[q] == t[q - 1];
      }
    }
  }

  lemma {:induction false} SearchSeqBefore(s: seq<Value>, e: Value, h: Heap)
    ensures var p := SearchSeq(s, e, h); forall j :: 0 <= j < p - 1 ==> Cmp(s[j], e, h) != EQ
  {
    if s != [] && Cmp(s[0], e, h) != EQ {
      var t := s[1..];
      var q := SearchSeq(t, e, h);
      SearchSeqBefore(t, e, h);
      assert SearchSeq(s, e, h) == if q == 0 then 0 else q + 1;
      Shifted(s);
    }
  }

  /** The 8-bit truncation loses exactly the positions that are multiples
      of 256. */
  lemma InPosExactly(p: nat)
    requires p < 0x1_0000
    ensures InPos(p) <==> p % 0x100 != 0
  {
  }

  /** In a list or set of fewer than 256 elements `dyn_op_in` is membership
      up to EQ. */
  lemma InSmall(x: Value, l: ListV, h: Heap)
    requires |l.elems| < 0x100
    ensures In(x, List(l), h).value.b <==> exists i :: 0 <= i < |l.elems| && Cmp(l.elems[i], Deref(x, h), h) == EQ
    ensures In(x, Set(l), h).value.b <==> exists i :: 0 <= i < |l.elems| && Cmp(l.elems[i], Deref(x, h), h) == EQ
  {
    InSeq(x, l, h);
    SearchSeqMiss(l.elems, Deref(x, h), h);
  }

  /** Below 256 elements the answer of `in` is whether the search found
      anything. */
  lemma InSeq(x: Value, l: ListV, h: Heap)
    requires |l.elems| < 0x100
    ensures var p := SearchSeq(l.elems, Deref(x, h), h);
      && (In(x, List(l), h).value.b <==> p != 0)
      && (In(x, Set(l), h).value.b <==> p != 0)
  {
    var e := Deref(x, h);
    var p := SearchSeq(l.elems, e, h);
    assert Width16(p) == p;
    assert Search(List(l), e, h) == p && Search(Set(l), e, h) == p;
    assert In(x, List(l), h) == Done(SetBool(p), true);
    assert In(x, Set(l), h) == Done(SetBool(p), true);
    assert SetBool(p).b <==> p != 0;
  }

  /** A dict answers `in` for a string by its keys (while it holds fewer
      than 256 pairs). */
  lemma InDictKeys(k: Text, d: DictV, h: Heap)
    requires DictOk(d) && |d.keys| < 0x100
    ensures In(Str(k), Dict(d), h).value.b <==> k in d.keys
  {
    Dicts.HasKeyPosition(d, k);
  }

  /** The element found at position 256 reads as absent: NONE fills the first
      255 slots and the match sits in slot 255. */
  lemma InPosition256(h: Heap)
    ensures var s := seq(0xFF, _ => None) + [Int(7)];
      && SearchSeq(s, Int(7), h) == 0x100
      && !In(Int(7), Set(ListV(s, 0x100)), h).value.b
  {
    var s := seq(0xFF, _ => None) + [Int(7)];
    SearchSeqFirst(s, Int(7), h);
    assert Cmp(s[0xFF], Int(7), h) == EQ;
    assert forall j :: 0 <= j < 0xFF ==> Cmp(s[j], Int(7), h) == LT;
  }

  /** Hence `dyn_set_insert` adds that element a second time. */
  lemma InsertTwiceAt256(h: Heap, at: Loc)
    ensures var s := seq(0xFF, _ => None) + [Int(7)];
      var r := SetInsert(ListV(s, 0x100), Int(7), h, at);
      r.inserted && |r.after.elems| == 0x101
  {
    InPosition256(h);
  }

  /** Below 255 elements, `dyn_set_insert` adds an element that compares EQ
      to its own copy at most once: after the first insertion the set holds
      an element EQ to it, so the second changes nothing. Empty lists, which
      compare MARK to each other, are the exception
      (`EmptyListInsertedTwice`), as is a match at position 256
      (`InsertTwiceAt256`). */
  lemma InsertOnce(s: ListV, e: Value, h: Heap, at: Loc)
    requires Lists.CanGrow(s) && |s.elems| < 0xFF
    requires Cmp(Copy(e, Slot(at, |s.elems|)), Deref(e, h), h) == EQ
    ensures var r := SetInsert(s, e, h, at);
      && Lists.CanGrow(r.after)
      && (exists i :: 0 <= i < |r.after.elems| && Cmp(r.after.elems[i], Deref(e, h), h) == EQ)
      && SetInsert(r.after, e, h, at) == Added(r.after, false)
  {
    var r := SetInsert(s, e, h, at);
    var n := |s.elems|;
    if r.inserted {
      assert Cmp(r.after.elems[n], Deref(e, h), h) == EQ;
    } else {
      var i :| 0 <= i < n && Cmp(s.elems[i], Deref(e, h), h) == EQ;
      assert Cmp(r.after.elems[i], Deref(e, h), h) == EQ;
    }
  }

  /** In particular an integer is added at most once. */
  lemma InsertIntOnce(s: ListV, k: int32, h: Heap, at: Loc)
    requires Lists.CanGrow(s) && |s.elems| < 0xFF
    ensures var r := SetInsert(s, Int(k), h, at);
      && Lists.CanGrow(r.after)
      && !SetInsert(r.after, Int(k), h, at).inserted
  {
    assert Copy(Int(k), Slot(at, |s.elems|)) == Int(k);
    InsertOnce(s, Int(k), h, at);
  }

  // ---------------------------------------------------------------------------
  // dyn_op_cmp on lists: the uniform outcome rule
  // ---------------------------------------------------------------------------

  /** Once `ret` holds an outcome other than MARK, and no element pair
      compares to MARK, the loop keeps `ret` exactly when every pair agrees
      with it. */
  lemma {:induction false} CmpElemsFrom(xs: seq<Value>, ys: seq<Value>, ret: nat, h: Heap)
    requires |xs| == |ys| && ret <= TYPE
    requires forall i :: 0 <= i < |xs| ==> Cmp(xs[i], ys[i], h) != MARK
    ensures CmpElems(xs, ys, ret, h) ==
      if forall i :: 0 <= i < |xs| ==> Cmp(xs[i], ys[i], h) == ret then ret else NEQ
  {
    if xs != [] && Cmp(xs[0], ys[0], h) == ret {
      CmpElemsFrom(xs[1..], ys[1..], ret, h);
      assert forall i :: 1 <= i < |xs| ==> xs[i] == xs[1..][i - 1] && ys[i] == ys[1..][i - 1];
    }
  }

  /** Two lists of the same non-zero length compare to the outcome all their
      element pairs share, and to NEQ when two pairs disagree. */
  lemma ListUniform(xs: seq<Value>, ys: seq<Value>, n: nat, m: nat, h: Heap)
    requires |xs| == |ys| > 0
    requires forall i :: 0 <= i < |xs| ==> Cmp(xs[i], ys[i], h) != MARK
    ensures var c := Cmp(xs[0], ys[0], h);
      Cmp(List(ListV(xs, n)), List(ListV(ys, m)), h) ==
        if forall i :: 0 <= i < |xs| ==> Cmp(xs[i], ys[i], h) == c then c else NEQ
  {
    var c := Cmp(xs[0], ys[0], h);
    var a, b := List(ListV(xs, n)), List(ListV(ys, m));
    assert Cmp(a, b, h) == CmpElems(xs, ys, MARK, h);
    assert CmpElems(xs, ys, MARK, h) == CmpElems(xs[1..], ys[1..], c, h);
    Shifted(xs);
    Shifted(ys);
    CmpElemsFrom(xs[1..], ys[1..], c, h);
  }

  /** Lists of different length compare by length alone. */
  lemma ListLength(xs: seq<Value>, ys: seq<Value>, n: nat, m: nat, h: Heap)
    requires |xs| != |ys|
    ensures Cmp(List(ListV(xs, n)), List(ListV(ys, m)), h) == if |xs| < |ys| then LT else GT
  {
  }

  /** Two empty lists compare to MARK: they are not equal, and yet both
      `le` and `ge` hold. */
  lemma EmptyListsMark(n: nat, m: nat, h: Heap)
    ensures var a := List(ListV([], n));
      var b := List(ListV([], m));
      && Cmp(a, b, h) == MARK
      && !Eq(a, b, h).b
      && Le(a, b, h).ok && Le(a, b, h).value.b
      && Ge(a, b, h).ok && Ge(a, b, h).value.b
  {
  }

  /** So `dyn_set_insert` adds an empty list to a set twice. */
  lemma EmptyListInsertedTwice(h: Heap, at: Loc)
    ensures var e := List(ListV([], 0));
      var first := SetInsert(ListV([], LIST_DEFAULT), e, h, at);
      var second := SetInsert(first.after, e, h, at);
      first.inserted && second.inserted && |second.after.elems| == 2
  {
    var e := List(ListV([], 0));
    var r := SetRef(e, h);
    assert Deref(r, h) == e;
    var s0 := ListV([], LIST_DEFAULT);
    assert SearchSeq(s0.elems, e, h) == 0;
    assert !In(r, Set(s0), h).value.b;
    var f := Lists.Push(s0, e, at);
    assert Copy(e, Slot(at, 0)) == e;
    assert f.elems == [e];
    EmptyListsCmp(h);
    assert SearchSeq(f.elems, e, h) == 0;
    assert !In(r, Set(f), h).value.b;
  }

  lemma EmptyListsCmp(h: Heap)
    ensures Cmp(List(ListV([], 0)), List(ListV([], 0)), h) == MARK
  {
  }

  /** Order matters for lists: `[1,2]` and `[2,1]` are NEQ. */
  lemma ListOrderMatters(h: Heap)
    ensures Cmp(List(ListV([Int(1), Int(2)], 2)), List(ListV([Int(2), Int(1)], 2)), h) == NEQ
  {
    ListUniform([Int(1), Int(2)], [Int(2), Int(1)], 2, 2, h);
  }

  // ---------------------------------------------------------------------------
  // dyn_op_cmp on sets
  // ---------------------------------------------------------------------------

  /** `AllIn` is "every element is found". */
  lemma {:induction false} AllInEvery(ls: seq<Value>, rs: seq<Value>, h: Heap)
    ensures AllIn(ls, rs, h) <==> forall i :: 0 <= i < |ls| ==> InPos(SearchSeq(rs, Deref(ls[i], h), h))
  {
    if ls != [] {
      AllInEvery(ls[1..], rs, h);
      assert forall i :: 1 <= i < |ls| ==> ls[i] == ls[1..][i - 1];
    }
  }

  /** Two sets are EQ exactly when they have the same size and every element
      of the first is found in the second. */
  lemma SetEq(a: ListV, b: ListV, h: Heap)
    ensures Cmp(Set(a), Set(b), h) == EQ <==>
      |a.elems| == |b.elems| &&
      forall i :: 0 <= i < |a.elems| ==> InPos(SearchSeq(b.elems, Deref(a.elems[i], h), h))
  {
    AllInEvery(a.elems, b.elems, h);
  }

  /** Order does not matter for sets: `{1,2}` and `{2,1}` are EQ. */
  lemma SetOrderFree(h: Heap)
    ensures Cmp(Set(ListV([Int(1), Int(2)], 2)), Set(ListV([Int(2), Int(1)], 2)), h) == EQ
  {
    var a := [Int(1), Int(2)];
    var b := [Int(2), Int(1)];
    assert Cmp(Int(2), Int(1), h) != EQ;
    assert SearchSeq(b, Int(1), h) == 2;
    assert SearchSeq(b, Int(2), h) == 1;
    assert Deref(a[0], h) == Int(1) && Deref(a[1], h) == Int(2);
    SetEq(ListV(a, 2), ListV(b, 2), h);
  }

  // ---------------------------------------------------------------------------
  // Scalars
  // ---------------------------------------------------------------------------

  predicate Number(v: Value) {
    v.Bool? || v.Int? || v.Float?
  }

  /** Booleans and numbers are totally ordered: swapping the operands swaps
      LT and GT and keeps EQ, and `lt` and `gt` mirror each other. */
  lemma NumberSwap(x: Value, y: Value, h: Heap)
    requires Number(x) && Number(y)
    ensures Cmp(x, y, h) == LT <==> Cmp(y, x, h) == GT
    ensures Cmp(x, y, h) == EQ <==> Cmp(y, x, h) == EQ
    ensures Cmp(x, y, h) <= GT
    ensures Lt(x, y, h).ok && Gt(y, x, h).ok && Lt(x, y, h).value.b == Gt(y, x, h).value.b
  {
  }

  /** Every scalar equals itself. */
  lemma ScalarSelf(x: Value, h: Heap)
    requires x.None? || Number(x) || x.Str?
    ensures Cmp(x, x, h) == EQ && Eq(x, x, h).b
  {
  }

  /** Unequal strings compare GT in both directions, so no string is ever
      less than another. */
  lemma StringsGreater(s: Text, t: Text, h: Heap)
    ensures s != t ==> Cmp(Str(s), Str(t), h) == GT && Cmp(Str(t), Str(s), h) == GT
    ensures Lt(Str(s), Str(t), h).ok && !Lt(Str(s), Str(t), h).value.b
  {
    if s != t {
      assert CompareText(s, t) != 0 && CompareText(t, s) != 0;
    }
  }

  /** A string and a number are of different kinds: `lt` and `gt` fail. */
  lemma StringNumber(s: Text, x: Value, h: Heap)
    requires Number(x)
    ensures Cmp(Str(s), x, h) == TYPE && !Lt(Str(s), x, h).ok && !Gt(x, Str(s), h).ok
  {
  }

  /** A reference compares like the value it points at. */
  lemma RefTransparent(x: Value, y: Value, h: Heap)
    requires !IsRef(x)
    ensures Cmp(Ref(x), y, h) == Cmp(x, y, h) && Cmp(y, Ref(x), h) == Cmp(y, x, h)
  {
    RefLeft(x, y, h);
    RefRight(x, y, h);
  }

  lemma RefLeft(x: Value, y: Value, h: Heap)
    requires !IsRef(x)
    ensures Cmp(Ref(x), y, h) == Cmp(x, y, h)
  {
  }

  lemma RefRight(x: Value, y: Value, h: Heap)
    requires !IsRef(x)
    ensures Cmp(y, Ref(x), h) == Cmp(y, x, h)
  {
  }
}

=== FILE: copying.dfy ===
/** What deep copy, receiver rebinding and move preserve: the rendering of a
    value (everything `dyn_get_string` can observe) and the runtime's shape
    invariants. Rebinding the receivers of a dict twice to the same location
    is the same as doing it once. */
module CopyFacts {
  import opened CString
  import opened Values
  import opened Dynamic

  // ---------------------------------------------------------------------------
  // Element-wise views of the sequence walks
  // ---------------------------------------------------------------------------

  lemma {:induction false} CopyElemsAt(s: seq<Value>, at: Loc, k: nat, i: nat)
    requires i < |s|
    ensures CopyElems(s, at, k)[i] == Copy(s[i], Slot(at, k + i))
    decreases i
  {
    if i > 0 {
      CopyElemsAt(s[1..], at, k + 1, i - 1);
    }
  }

  lemma {:induction false} SetLocElemsAt(s: seq<Value>, here: Loc, k: nat, i: nat)
    requires i < |s|
    ensures SetLocElems(s, here, k)[i] == SetLocOne(s[i], here, k + i)
    decreases i
  {
    if i > 0 {
      SetLocElemsAt(s[1..], here, k + 1, i - 1);
    }
  }

  /** Rendering a list only looks at the renderings of its elements. */
  lemma {:induction false} JoinPointwise(a: seq<Value>, b: seq<Value>, h: Heap)
    requires |a| == |b|
    requires forall j :: 0 <= j < |a| ==> Render(a[j], h) == Render(b[j], h)
    ensures RenderJoin(a, h) == RenderJoin(b, h)
    decreases |a|
  {
    if |a| > 1 {
      JoinPointwise(a[1..], b[1..], h);
    }
  }

  /** Rendering a dict only looks at its keys and the renderings of its values. */
  lemma {:induction false} PairsPointwise(keys: seq<Text>, a: seq<Value>, b: seq<Value>, h: Heap)
    requires |a| == |b|
    requires forall j :: 0 <= j < |a| ==> Render(a[j], h) == Render(b[j], h)
    ensures RenderPairs(keys, a, h) == RenderPairs(keys, b, h)
    decreases |a|
  {
    if keys != [] && |a| > 1 {
      PairsPointwise(keys[1..], a[1..], b[1..], h);
    }
  }

  // ---------------------------------------------------------------------------
  // Receiver rebinding
  // ---------------------------------------------------------------------------

  /** Rebinding receivers changes nothing a rendering shows: procedures
      render as `FCT` whatever their parameters hold. */
  lemma {:induction false} SetLocRender(d: DictV, here: Loc, h: Heap)
    ensures RenderDict(DictSetLoc(d, here), h) == RenderDict(d, h)
    decreases SizeSeq(d.vals.elems)
  {
    var s := d.vals.elems;
    var r := SetLocElems(s, here, 0);
    forall j | 0 <= j < |s|
      ensures Render(r[j], h) == Render(s[j], h)
    {
      SetLocElemsAt(s, here, 0, j);
      if s[j].Dict? {
        SizeElem(s, j);
        SetLocRender(s[j].d, Slot(here, j), h);
      }
    }
    PairsPointwise(d.keys, r, s, h);
  }

  /** `fct_set_loc` twice with the same location is `fct_set_loc` once: the
      key lookup does not depend on the slot it rewrites. */
  lemma FctSetLocIdempotent(f: Fct, here: Loc)
    ensures FctSetLoc(FctSetLoc(f, here), here) == FctSetLoc(f, here)
  {
    if f.Proc? && f.params.Dict? {
      var ps := f.params.d;
      var g := FctSetLoc(f, here);
      assert HasKey(g.params.d, SelfKey) == HasKey(ps, SelfKey) by {
        assert Pairs(g.params.d) == Pairs(ps);
      }
    }
  }

  /** `dyn_dict_set_loc` is idempotent. */
  lemma {:induction false} SetLocIdempotent(d: DictV, here: Loc)
    ensures DictSetLoc(DictSetLoc(d, here), here) == DictSetLoc(d, here)
    decreases SizeSeq(d.vals.elems)
  {
    var s := d.vals.elems;
    var once := SetLocElems(s, here, 0);
    var twice := SetLocElems(once, here, 0);
    forall j | 0 <= j < |s|
      ensures twice[j] == once[j]
    {
      SetLocElemsAt(s, here, 0, j);
      SetLocElemsAt(once, here, 0, j);
      match s[j]
      case Function(f) => FctSetLocIdempotent(f, here);
      case Dict(nd) =>
        SizeElem(s, j);
        SetLocIdempotent(nd, Slot(here, j));
      case _ =>
    }
    assert twice == once;
  }

  /** Rebinding receivers keeps every shape invariant: only a slot of a
      parameter dict changes, and it becomes a REFERENCE2. */
  lemma {:induction false} SetLocWf(d: DictV, here: Loc)
    requires Wf(Dict(d))
    ensures Wf(Dict(DictSetLoc(d, here)))
    decreases SizeSeq(d.vals.elems)
  {
    var s := d.vals.elems;
    var r := SetLocElems(s, here, 0);
    forall j | 0 <= j < |s|
      ensures Wf(r[j])
    {
      SetLocElemsAt(s, here, 0, j);
      assert Wf(s[j]);
      match s[j]
      case Function(f) => FctSetLocWf(f, here);
      case Dict(nd) =>
        SizeElem(s, j);
        SetLocWf(nd, Slot(here, j));
      case _ =>
    }
  }
  /** Rebinding a procedure's receiver keeps its parameters well formed:
      the receiver slot becomes a REFERENCE2, which needs nothing. */
  lemma FctSetLocWf(f: Fct, here: Loc)
    requires Wf(Function(f))
    ensures Wf(Function(FctSetLoc(f, here)))
  {
    if f.Proc? && f.params.Dict? {
      var ps := f.params.d;
      var g := FctSetLoc(f, here);
      assert DictOk(g.params.d) by {
        assert KeysUnique(g.params.d.keys);
      }
      forall i | 0 <= i < |g.params.d.vals.elems|
        ensures Wf(g.params.d.vals.elems[i])
      {
        assert Wf(Dict(ps));
      }
    }
  }


  // ---------------------------------------------------------------------------
  // Deep copy
  // ---------------------------------------------------------------------------

  /** After `i` insertions, `dyn_dict_copy`'s new dict holds exactly the
      first `i` pairs, each value copied into its own slot, in an allocation
      sized for all of them. */
  predicate CopiedPrefix(d: DictV, i: nat, acc: DictV, at: Loc)
    requires i <= |d.keys| && i <= |d.vals.elems|
  {
    && acc.keys == d.keys[..i]
    && |acc.vals.elems| == i
    && acc.vals.space == |d.vals.elems|
    && forall j :: 0 <= j < i ==> acc.vals.elems[j] == Copy(d.vals.elems[j], Slot(at, j))
  }

  lemma {:induction false} DictCopyFromShape(d: DictV, i: nat, acc: DictV, at: Loc)
    requires DictOk(d) && i <= |d.keys|
    requires CopiedPrefix(d, i, acc, at)
    ensures CopiedPrefix(d, |d.keys|, DictCopyFrom(d, i, acc, at), at)
    decreases |d.keys| - i
  {
    if i < |d.keys| {
      var key := d.keys[i];
      var v := d.vals.elems[i];
      assert Pairs(acc) == i;
      var pos := HasKey(acc, key);
      if pos > 0 {
        assert false;
      }
      var next := DictInsert(acc, key, v, at);
      assert next.keys == d.keys[..i + 1];
      assert CopiedPrefix(d, i + 1, next, at);
      DictCopyFromShape(d, i + 1, next, at);
    }
  }

  /** The dict `dyn_dict_copy` builds before rebinding: the same keys in the
      same order, and value `j` a copy stored at slot `j`. */
  lemma DictCopyFilled(d: DictV, at: Loc) returns (filled: DictV)
    requires DictOk(d)
    ensures DictCopy(d, at) == DictSetLoc(filled, at)
    ensures filled.keys == d.keys && filled.vals.space == |d.vals.elems|
    ensures |filled.vals.elems| == |d.vals.elems|
    ensures forall j :: 0 <= j < |d.vals.elems| ==>
      filled.vals.elems[j] == Copy(d.vals.elems[j], Slot(at, j))
  {
    var empty := DictV([], ListV([], |d.vals.elems|));
    assert CopiedPrefix(d, 0, empty, at);
    DictCopyFromShape(d, 0, empty, at);
    filled := DictCopyFrom(d, 0, empty, at);
    assert d.keys[..|d.keys|] == d.keys;
  }

  /** A deep copy renders exactly like the original. */
  lemma {:induction false} CopyRender(v: Value, at: Loc, h: Heap)
    requires Wf(v)
    ensures Render(Copy(v, at), h) == Render(v, h)
    decreases Size(v), 0
  {
    match v
    case List(l) => ElemsRender(l.elems, at, h);
    case Set(l) => ElemsRender(l.elems, at, h);
    case Dict(d) =>
      var filled := DictCopyFilled(d, at);
      SetLocRender(filled, at, h);
      forall j | 0 <= j < |d.vals.elems|
        ensures Render(filled.vals.elems[j], h) == Render(d.vals.elems[j], h)
      {
        SizeElem(d.vals.elems, j);
        CopyRender(d.vals.elems[j], Slot(at, j), h);
      }
      PairsPointwise(d.keys, filled.vals.elems, d.vals.elems, h);
    case Ref(t) => CopyRender(t, at, h);
    case _ =>
  }

  lemma {:induction false} ElemsRender(s: seq<Value>, at: Loc, h: Heap)
    requires forall i :: 0 <= i < |s| ==> Wf(s[i])
    ensures RenderJoin(CopyElems(s, at, 0), h) == RenderJoin(s, h)
    decreases SizeSeq(s), 1
  {
    var r := CopyElems(s, at, 0);
    forall j | 0 <= j < |s|
      ensures Render(r[j], h) == Render(s[j], h)
    {
      CopyElemsAt(s, at, 0, j);
      SizeElem(s, j);
      CopyRender(s[j], Slot(at, j), h);
    }
    JoinPointwise(r, s, h);
  }

  /** A deep copy of a well-formed value is well formed: copied lists are
      exactly as large as their contents, copied dicts keep their unique
      keys, and the copy holds no REFERENCE at all at its top. */
  lemma {:induction false} CopyWf(v: Value, at: Loc)
    requires Wf(v)
    ensures Wf(Copy(v, at))
    decreases Size(v), 0
  {
    match v
    case List(l) => ElemsWf(l.elems, at);
    case Set(l) => ElemsWf(l.elems, at);
    case Dict(d) =>
      var filled := DictCopyFilled(d, at);
      forall j | 0 <= j < |d.vals.elems|
        ensures Wf(filled.vals.elems[j])
      {
        SizeElem(d.vals.elems, j);
        CopyWf(d.vals.elems[j], Slot(at, j));
      }
      assert Wf(Dict(filled));
      SetLocWf(filled, at);
    case Function(f) =>
      if f.Proc? {
        assert Size(f.params) < Size(v);
        CopyWf(f.params, Params(at));
      }
    case Ref(t) => CopyWf(t, at);
    case _ =>
  }

  lemma {:induction false} ElemsWf(s: seq<Value>, at: Loc)
    requires forall i :: 0 <= i < |s| ==> Wf(s[i])
    ensures forall i :: 0 <= i < |s| ==> Wf(CopyElems(s, at, 0)[i])
    decreases SizeSeq(s), 1
  {
    forall j | 0 <= j < |s|
      ensures Wf(CopyElems(s, at, 0)[j])
    {
      CopyElemsAt(s, at, 0, j);
      SizeElem(s, j);
      CopyWf(s[j], Slot(at, j));
    }
  }

  // ---------------------------------------------------------------------------
  // Move
  // ---------------------------------------------------------------------------

  /** The destination of `dyn_move` renders like the source did. */
  lemma MoveRender(from: Value, to: Loc, h: Heap)
    requires Wf(from)
    ensures Render(Move(from, to), h) == Render(from, h)
  {
    var moved := if from.Ref? then Copy(from.target, to) else from;
    if from.Ref? {
      CopyRender(from.target, to, h);
    }
    if moved.Dict? {
      SetLocRender(moved.d, to, h);
    }
  }

  /** Moving keeps the shape invariants. */
  lemma MoveWf(from: Value, to: Loc)
    requires Wf(from)
    ensures Wf(Move(from, to))
  {
    var moved := if from.Ref? then Copy(from.target, to) else from;
    if from.Ref? {
      CopyWf(from.target, to);
    }
    if moved.Dict? {
      SetLocWf(moved.d, to);
    }
  }

  /** Moving a REFERENCE to a dict copies it and rebinds once: the second
      rebinding `dyn_move` performs changes nothing. */
  lemma MoveRefDict(d: DictV, to: Loc)
    ensures Move(Ref(Dict(d)), to) == Dict(DictCopy(d, to))
  {
    var filled := DictCopyFrom(d, 0, DictV([], ListV([], |d.vals.elems|)), to);
    SetLocIdempotent(filled, to);
  }
}

=== FILE: cstring.dfy ===
/** The string helpers of the runtime (ss_string.c). A C string is a byte
    buffer that ends at its first NUL; every length the helpers report is a
    16-bit unsigned number. */
module CString {

  /** One C `char` as stored in memory: a value 0..255. */
  type CChar = c: char | c as int < 256

  const NUL: CChar := '\0'

  /** The characters of a C string, without its terminating NUL. */
  type Text = s: seq<CChar> | NUL !in s

  type ushort = x: int | 0 <= x < 0x1_0000
  type int32 = x: int | -0x8000_0000 <= x < 0x8000_0000
  /** The C `char` that `ss_strcmp` returns (signed on the targets of the library). */
  type int8 = x: int | -0x80 <= x < 0x80

  const INT32_MIN: int := -0x8000_0000

  /** Conversion of a count to `ss_ushort`: C keeps it modulo 2^16. */
  function Width16(n: int): (r: ushort)
    ensures 0 <= n < 0x1_0000 ==> r == n
    ensures (r - n) % 0x1_0000 == 0
  {
    n % 0x1_0000
  }

  /** Conversion of an `int` to a signed `char`: the low eight bits, two's complement. */
  function Width8(n: int): (r: int8)
    ensures -0x80 <= n < 0x80 ==> r == n
    ensures (r - n) % 0x100 == 0
  {
    (n + 0x80) % 0x100 - 0x80
  }

  lemma Width8NonZero(d: int)
    requires d != 0 && -0x100 < d < 0x100
    ensures Width8(d) != 0
  {
  }

  /** A stored byte read as a signed `char`. */
  function Signed(c: CChar): (r: int8)
    ensures c as int < 0x80 ==> r == c as int
    ensures r == Width8(c as int)
  {
    if c as int < 0x80 then c as int else c as int - 0x100
  }

  // ---------------------------------------------------------------------------
  // Buffers
  // ---------------------------------------------------------------------------

  /** A buffer holds a C string when a NUL occurs somewhere in it. */
  predicate Terminated(buf: seq<CChar>) {
    NUL in buf
  }

  /** Position of the first NUL: the length of the C string the buffer holds. */
  function NulIndex(buf: seq<CChar>): (n: nat)
    requires Terminated(buf)
    ensures n < |buf| && buf[n] == NUL
    ensures NUL !in buf[..n]
  {
    if buf[0] == NUL then 0
    else
      assert buf == [buf[0]] + buf[1..];
      assert buf[..1 + NulIndex(buf[1..])] == [buf[0]] + buf[1..][..NulIndex(buf[1..])];
      1 + NulIndex(buf[1..])
  }

  /** The text of the C string a buffer holds. */
  function CText(buf: seq<CChar>): (t: Text)
    requires Terminated(buf)
    ensures |t| < |buf|
    ensures buf == t + buf[|t|..] && buf[|t|] == NUL
  {
    buf[..NulIndex(buf)]
  }

  /** A NUL-free prefix followed by a NUL fixes where the C string ends. */
  lemma {:induction false} NulIndexAt(buf: seq<CChar>, k: nat)
    requires k < |buf| && buf[k] == NUL && NUL !in buf[..k]
    ensures Terminated(buf) && NulIndex(buf) == k
  {
    if k > 0 {
      assert buf[0] in buf[..k];
      assert buf[1..][..k - 1] == buf[1..k];
      assert forall c :: c in buf[1..k] ==> c in buf[..k];
      NulIndexAt(buf[1..], k - 1);
    }
  }

  /** Every character before the first NUL is not a NUL. */
  lemma BeforeNul(buf: seq<CChar>)
    requires Terminated(buf)
    ensures forall p :: 0 <= p < NulIndex(buf) ==> buf[p] != NUL
  {
    var n := NulIndex(buf);
    forall p | 0 <= p < n
      ensures buf[p] != NUL
    {
      assert buf[..n][p] == buf[p];
    }
  }

  /** The buffer holding exactly one string and its terminator. */
  lemma Terminate(t: Text)
    ensures Terminated(t + [NUL]) && CText(t + [NUL]) == t
  {
    assert (t + [NUL])[..|t|] == t;
    NulIndexAt(t + [NUL], |t|);
  }

  // ---------------------------------------------------------------------------
  // ss_strlen, ss_strcpy, ss_strcat
  // ---------------------------------------------------------------------------

  /** What `ss_strlen` reports for a stored string: its length as a `ss_ushort`. */
  function TextLen(t: Text): (r: ushort)
    ensures |t| < 0x1_0000 ==> r == |t|
    ensures r == 0 <==> |t| % 0x1_0000 == 0
  {
    Width16(|t|)
  }

  /** `ss_strlen`: counts characters up to the NUL in a 16-bit counter. */
  method StrLen(str: seq<CChar>) returns (len: ushort)
    requires Terminated(str)
    ensures len == TextLen(CText(str))
  {
    len := 0;
    var p := 0;
    var n := NulIndex(str);
    BeforeNul(str);
    while str[p] != NUL
      invariant 0 <= p <= n
      invariant len == Width16(p)
      decreases n - p
    {
      len := Width16(len + 1);
      p := p + 1;
    }
  }

  /** `ss_strcpy(&a[at], b)`: writes the string of `b`, then a NUL, into `a`
      from position `at`; everything else in `a` stays. */
  method StrCpy(a: seq<CChar>, at: nat, b: seq<CChar>) returns (r: seq<CChar>)
    requires Terminated(b)
    requires at + NulIndex(b) < |a|
    ensures |r| == |a|
    ensures r[..at] == a[..at]
    ensures r[at..at + NulIndex(b)] == CText(b) && r[at + NulIndex(b)] == NUL
    ensures r[at + NulIndex(b) + 1..] == a[at + NulIndex(b) + 1..]
    ensures Terminated(r[at..]) && CText(r[at..]) == CText(b)
  {
    r := a;
    var i := 0;
    var n := NulIndex(b);
    BeforeNul(b);
    while b[i] != NUL
      invariant 0 <= i <= n
      invariant |r| == |a|
      invariant forall k :: 0 <= k < at ==> r[k] == a[k]
      invariant forall k :: 0 <= k < i ==> r[at + k] == b[k]
      invariant forall k :: at + i <= k < |a| ==> r[k] == a[k]
      decreases n - i
    {
      r := r[at + i := b[i]];
      i := i + 1;
    }
    r := r[at + i := NUL];
    Placed(a, at, b, r);
  }

  /** A buffer that agrees with `a` outside `at..at + NulIndex(b)`, holds the
      string of `b` there and a NUL after it, is the result of the copy. */
  lemma Placed(a: seq<CChar>, at: nat, b: seq<CChar>, r: seq<CChar>)
    requires Terminated(b) && at + NulIndex(b) < |r| == |a|
    requires forall k :: 0 <= k < at ==> r[k] == a[k]
    requires forall k :: 0 <= k < NulIndex(b) ==> r[at + k] == b[k]
    requires r[at + NulIndex(b)] == NUL
    requires forall k :: at + NulIndex(b) < k < |a| ==> r[k] == a[k]
    ensures r[..at] == a[..at]
    ensures r[at..at + NulIndex(b)] == CText(b) && r[at + NulIndex(b)] == NUL
    ensures r[at + NulIndex(b) + 1..] == a[at + NulIndex(b) + 1..]
    ensures Terminated(r[at..]) && CText(r[at..]) == CText(b)
  {
    var n := NulIndex(b);
    SamePrefix(a, r, at);
    SameSuffix(a, r, at + n + 1);
    PlacedText(r, at, b, n, CText(b));
  }

  lemma SamePrefix(a: seq<CChar>, r: seq<CChar>, j: nat)
    requires j <= |a| == |r|
    requires forall k :: 0 <= k < j ==> r[k] == a[k]
    ensures r[..j] == a[..j]
  {
  }

  lemma SameSuffix(a: seq<CChar>, r: seq<CChar>, i: nat)
    requires i <= |a| == |r|
    requires forall k :: i <= k < |a| ==> r[k] == a[k]
    ensures r[i..] == a[i..]
  {
  }

  lemma PlacedText(r: seq<CChar>, at: nat, b: seq<CChar>, n: nat, t: Text)
    requires at + n < |r| && n <= |b| && t == b[..n]
    requires forall k :: 0 <= k < n ==> r[at + k] == b[k]
    requires r[at + n] == NUL
    ensures r[at..at + n] == t
    ensures Terminated(r[at..]) && CText(r[at..]) == t
  {
    var w := r[at..];
    assert w[..n] == t;
    assert r[at..at + n] == w[..n];
    NulIndexAt(w, n);
  }

  /** `ss_strcat`: copies `b` to where `ss_strlen(a)` says `a` ends. */
  method StrCat(a: seq<CChar>, b: seq<CChar>) returns (r: seq<CChar>)
    requires Terminated(a) && Terminated(b)
    requires TextLen(CText(a)) + NulIndex(b) < |a|
    ensures |r| == |a|
    ensures |CText(a)| < 0x1_0000 ==> Terminated(r) && CText(r) == CText(a) + CText(b)
  {
    var n := StrLen(a);
    r := StrCpy(a, n, b);
    if |CText(a)| < 0x1_0000 {
      assert n == NulIndex(a);
      CatJoin(a, b, r, n);
    }
  }

  /** The copy of `b` placed at the end of the string of `a` extends it. */
  lemma CatJoin(a: seq<CChar>, b: seq<CChar>, r: seq<CChar>, n: nat)
    requires Terminated(a) && Terminated(b) && n == NulIndex(a)
    requires n + NulIndex(b) < |r| == |a| && r[..n] == a[..n]
    requires r[n..n + NulIndex(b)] == CText(b) && r[n + NulIndex(b)] == NUL
    ensures Terminated(r) && CText(r) == CText(a) + CText(b)
  {
    var k := n + NulIndex(b);
    var ta, tb := CText(a), CText(b);
    assert r[..n] == ta;
    SliceJoin(r, n, k);
    assert r[..k] == ta + tb;
    Concat(r, ta, tb, k);
  }

  lemma SliceJoin(r: seq<CChar>, n: nat, k: nat)
    requires n <= k <= |r|
    ensures r[..k] == r[..n] + r[n..k]
  {
  }

  lemma Concat(r: seq<CChar>, ta: Text, tb: Text, k: nat)
    requires k < |r| && r[..k] == ta + tb && r[k] == NUL
    ensures Terminated(r) && CText(r) == ta + tb
  {
    NulIndexAt(r, k);
  }

  // ---------------------------------------------------------------------------
  // ss_itoa_len, ss_itoa
  // ---------------------------------------------------------------------------

  function DigitChar(d: nat): (c: CChar)
    requires d < 10
    ensures '0' <= c <= '9'
  {
    (d + 0x30) as char
  }

  function DigitValue(c: CChar): (d: nat)
    requires '0' <= c <= '9'
    ensures d < 10 && DigitChar(d) == c
  {
    c as int - '0' as int
  }

  predicate IsDigits(t: seq<CChar>) {
    forall k :: 0 <= k < |t| ==> '0' <= t[k] <= '9'
  }

  /** The digits `ss_itoa` writes for a magnitude, produced as its do-while
      loop produces them: last digit first, so each step prepends the rest. */
  function Digits(n: nat): (t: Text)
    ensures |t| > 0 && IsDigits(t)
    decreases n
  {
    (if n >= 10 then Digits(n / 10) else []) + [DigitChar(n % 10)]
  }

  /** The text `ss_itoa` writes for `i`: a '-' for a negative number, then the
      digits of its magnitude. */
  function Itoa(i: int): (t: Text)
    ensures |t| > 0
    ensures t[0] == '-' <==> i < 0
    ensures IsDigits(if i < 0 then t[1..] else t)
  {
    if i < 0 then "-" + Digits(-i) else Digits(i)
  }

  /** Reading back what `ss_itoa` writes gives the number again. */
  lemma ItoaRoundTrip(i: int)
    ensures ParseDecimal(Itoa(i)) == i
  {
    ParseDigitsRoundTrip(if i < 0 then -i else i);
    if i < 0 {
      assert Itoa(i)[1..] == Digits(-i);
    }
  }

  /** The number of loop turns of `ss_itoa_len`'s `while (i) i /= 10`. */
  function DigitCount(n: nat): (c: nat)
    ensures n > 0 ==> c == |Digits(n)|
    decreases n
  {
    if n == 0 then 0 else 1 + DigitCount(n / 10)
  }

  /** `ss_itoa_len`: 1 for zero, else a sign position for a negative number plus
      one per decimal digit. It is the exact length of what `ss_itoa` writes. */
  function ItoaLen(i: int): (len: nat)
    ensures len == |Itoa(i)|
    ensures len > 0
  {
    if i == 0 then 1
    else if i < 0 then 1 + DigitCount(-i)
    else DigitCount(i)
  }

  // Reference reading of decimal text, independent of the writer above.

  function ParseDigits(t: seq<CChar>): (n: nat)
    requires IsDigits(t)
    decreases |t|
  {
    if t == [] then 0
    else ParseDigits(t[..|t| - 1]) * 10 + DigitValue(t[|t| - 1])
  }

  /** A decimal number, with an optional leading '-'. */
  function ParseDecimal(t: seq<CChar>): int {
    if |t| > 0 && t[0] == '-' && IsDigits(t[1..]) then 0 - ParseDigits(t[1..]) as int
    else if IsDigits(t) then ParseDigits(t)
    else 0
  }

  lemma {:induction false} ParseDigitsRoundTrip(n: nat)
    ensures ParseDigits(Digits(n)) == n
    decreases n
  {
    var t := Digits(n);
    var front := if n >= 10 then Digits(n / 10) else [];
    assert t == front + [DigitChar(n % 10)];
    assert t[..|t| - 1] == front;
    assert DigitValue(t[|t| - 1]) == n % 10;
    if n >= 10 {
      ParseDigitsRoundTrip(n / 10);
    }
  }

  // ---------------------------------------------------------------------------
  // ss_ftoa_len, ss_ftoa
  // ---------------------------------------------------------------------------

  /** C's conversion of a float to an integer: truncation toward zero. */
  function Trunc(f: real): (i: int)
    ensures f >= 0.0 ==> i as real <= f < i as real + 1.0
    ensures f < 0.0 ==> i as real - 1.0 < f <= i as real
  {
    if f >= 0.0 then f.Floor else -((-f).Floor)
  }

  /** The five fractional digits `ss_ftoa` keeps, with the sign of `f`. */
  function Fraction(f: real): int {
    Trunc((f - Trunc(f) as real) * 100000.0)
  }

  /** `ss_ftoa`: integer part, a '.', then the magnitude of the fraction. */
  function Ftoa(f: real): Text {
    var b := Fraction(f);
    Itoa(Trunc(f)) + "." + Itoa(if b < 0 then -b else b)
  }

  lemma FtoaParts(f: real, a: int, m: nat)
    requires a == Trunc(f) && m == (if Fraction(f) < 0 then -Fraction(f) else Fraction(f))
    ensures Ftoa(f) == Itoa(a) + "." + Itoa(m)
  {
  }

  /** What `ss_ftoa` writes reads back as the truncated integer part before
      the point and the magnitude of the five-digit fraction after it. */
  lemma FtoaReadsBack(f: real)
    ensures var t := Ftoa(f);
      var k := |Itoa(Trunc(f))|;
      && k < |t| && t[k] == '.'
      && ParseDecimal(t[..k]) == Trunc(f)
      && ParseDecimal(t[k + 1..]) == if Fraction(f) < 0 then -Fraction(f) else Fraction(f)
  {
    var a := Trunc(f);
    var b := Fraction(f);
    var m := if b < 0 then -b else b;
    FtoaParts(f, a, m);
    DecimalParts(a, m);
  }

  /** Both numbers of `a.m` read back from either side of the point. */
  lemma DecimalParts(a: int, m: nat)
    ensures var t := Itoa(a) + "." + Itoa(m);
      var k := |Itoa(a)|;
      && k < |t| && t[k] == '.'
      && ParseDecimal(t[..k]) == a
      && ParseDecimal(t[k + 1..]) == m
  {
    var x := Itoa(a);
    var y := Itoa(m);
    var t := x + "." + y;
    assert t[..|x|] == x;
    assert t[|x| + 1..] == y;
    ItoaRoundTrip(a);
    ItoaRoundTrip(m);
  }

  /** Between -1 and 0 the integer part is 0 and the fraction is written
      without its sign, so the minus sign is lost. */
  lemma FtoaSignLost(f: real)
    requires -1.0 < f < 0.0
    ensures Ftoa(f) == Ftoa(-f)
  {
    FractionMirror(f);
    var b := Fraction(-f);
    FtoaParts(f, 0, if b < 0 then -b else b);
    FtoaParts(-f, 0, if b < 0 then -b else b);
  }

  lemma FractionMirror(f: real)
    requires -1.0 < f < 0.0
    ensures Trunc(f) == 0 && Trunc(-f) == 0 && Fraction(f) == -Fraction(-f)
  {
    assert Trunc(f) == 0 && Trunc(-f) == 0;
    assert Fraction(f) == Trunc(f * 100000.0);
    assert Fraction(-f) == Trunc(-f * 100000.0);
  }

  /** The fraction is written as a plain number, so its leading zeros are
      lost: 1.03125 is written as "1.3125". */
  lemma FtoaDropsZeros()
    ensures Ftoa(1.03125) == "1.3125"
  {
    FtoaParts(1.03125, 1, 3125);
    Digits3125();
  }

  lemma Digits3125()
    ensures Itoa(1) + "." + Itoa(3125) == "1.3125"
  {
    assert Digits(3) == "3";
    assert Digits(31) == "31";
    assert Digits(312) == "312";
  }

  /** `ss_ftoa_len` counts the fraction with its sign, so it reserves one byte
      more than `ss_ftoa` writes exactly when the fraction is negative. */
  function FtoaLen(f: real): (len: nat)
    ensures len == |Ftoa(f)| + (if Fraction(f) < 0 then 1 else 0)
  {
    1 + ItoaLen(Trunc(f)) + ItoaLen(Fraction(f))
  }

  // ---------------------------------------------------------------------------
  // ss_strcmp
  // ---------------------------------------------------------------------------

  /** Lexicographic order on character codes, a proper prefix first. */
  predicate LexLess(x: seq<CChar>, y: seq<CChar>) {
    if x == [] then y != []
    else y != [] && (x[0] < y[0] || (x[0] == y[0] && LexLess(x[1..], y[1..])))
  }

  /** Every character is 7-bit, so signed and unsigned `char` agree. */
  predicate Ascii(t: seq<CChar>) {
    forall k :: 0 <= k < |t| ==> t[k] as int < 0x80
  }

  /** `ss_strcmp`: walks both buffers while the characters agree; 0 at a
      common NUL, else the difference of the first unequal pair as signed
      chars, truncated to a `char`. */
  function StrCmp(a: seq<CChar>, b: seq<CChar>): (r: int8)
    requires Terminated(a) && Terminated(b)
    ensures a == b ==> r == 0
    decreases |a|
  {
    if a[0] == b[0] then
      if a[0] == NUL then 0
      else
        assert a == [a[0]] + a[1..] && b == [b[0]] + b[1..];
        StrCmp(a[1..], b[1..])
    else
      Width8(Signed(a[0]) - Signed(b[0]))
  }

  /** `ss_strcmp` reports 0 exactly for equal strings. */
  lemma {:induction false} StrCmpZero(a: seq<CChar>, b: seq<CChar>)
    requires Terminated(a) && Terminated(b)
    ensures StrCmp(a, b) == 0 <==> CText(a) == CText(b)
    decreases |a|
  {
    FirstChar(a);
    FirstChar(b);
    if a[0] != b[0] {
      assert StrCmp(a, b) == Width8(Signed(a[0]) - Signed(b[0]));
      Width8NonZero(Signed(a[0]) - Signed(b[0]));
      if CText(a) != [] && CText(b) != [] {
        assert CText(a)[0] != CText(b)[0];
      }
    } else if a[0] != NUL {
      CTextHead(a);
      CTextHead(b);
      assert StrCmp(a, b) == StrCmp(a[1..], b[1..]);
      StrCmpZero(a[1..], b[1..]);
      ConsEqual(a[0], CText(a[1..]), CText(b[1..]));
    }
  }

  /** The first character of a buffer starts its string, or is the NUL that
      ends an empty one. */
  lemma FirstChar(a: seq<CChar>)
    requires Terminated(a)
    ensures a[0] == NUL <==> CText(a) == []
    ensures CText(a) != [] ==> CText(a)[0] == a[0]
  {
    var n := NulIndex(a);
    if n > 0 {
      assert CText(a)[0] == a[0];
    }
  }

  lemma ConsEqual(c: CChar, x: seq<CChar>, y: seq<CChar>)
    ensures [c] + x == [c] + y <==> x == y
  {
    if [c] + x == [c] + y {
      assert ([c] + x)[1..] == x && ([c] + y)[1..] == y;
    }
  }

  /** How a buffer's string starts: empty at a NUL, else its first character
      followed by the string of the tail. */
  lemma CTextHead(a: seq<CChar>)
    requires Terminated(a)
    ensures a[0] == NUL ==> CText(a) == []
    ensures a[0] != NUL ==> Terminated(a[1..]) && CText(a) == [a[0]] + CText(a[1..])
  {
    if a[0] != NUL {
      assert a[1..][..NulIndex(a) - 1] == a[1..NulIndex(a)];
      assert a[..NulIndex(a)] == [a[0]] + a[1..NulIndex(a)];
      NulIndexAt(a[1..], NulIndex(a) - 1);
    }
  }

  /** On 7-bit text the sign of `ss_strcmp` is the lexicographic order. */
  lemma {:induction false} StrCmpOrder(a: seq<CChar>, b: seq<CChar>)
    requires Terminated(a) && Terminated(b)
    ensures Ascii(CText(a)) && Ascii(CText(b)) ==>
              (StrCmp(a, b) < 0 <==> LexLess(CText(a), CText(b)))
    decreases |a|
  {
    if !(Ascii(CText(a)) && Ascii(CText(b))) {
      return;
    }
    CTextHead(a);
    CTextHead(b);
    if a[0] == b[0] && a[0] != NUL {
      AsciiTail(CText(a));
      AsciiTail(CText(b));
      StrCmpOrder(a[1..], b[1..]);
      LexLessCons(a[0], CText(a[1..]), CText(b[1..]));
    } else if a[0] != b[0] {
      StrCmpFirstDiff(a, b);
    }
  }

  lemma AsciiTail(t: seq<CChar>)
    requires |t| > 0 && Ascii(t)
    ensures Ascii(t[1..])
  {
    assert forall k :: 0 <= k < |t| - 1 ==> t[1..][k] == t[k + 1];
  }

  lemma LexLessCons(c: CChar, x: seq<CChar>, y: seq<CChar>)
    ensures LexLess([c] + x, [c] + y) == LexLess(x, y)
  {
    assert ([c] + x)[1..] == x && ([c] + y)[1..] == y;
  }

  /** At the first unequal pair, 7-bit characters decide the sign directly. */
  lemma StrCmpFirstDiff(a: seq<CChar>, b: seq<CChar>)
    requires Terminated(a) && Terminated(b) && a[0] != b[0]
    requires Ascii(CText(a)) && Ascii(CText(b))
    ensures StrCmp(a, b) < 0 <==> LexLess(CText(a), CText(b))
  {
    HeadChar(a);
    HeadChar(b);
    assert StrCmp(a, b) == Width8(Signed(a[0]) - Signed(b[0]));
    FirstDiffChars(a[0], b[0], CText(a), CText(b));
  }

  /** The first character of a buffer is the first of its string, or the
      NUL that ends an empty one. */
  lemma HeadChar(a: seq<CChar>)
    requires Terminated(a) && Ascii(CText(a))
    ensures a[0] == NUL <==> CText(a) == []
    ensures CText(a) != [] ==> CText(a)[0] == a[0] && a[0] as int < 0x80
  {
    FirstChar(a);
  }

  lemma FirstDiffChars(x: CChar, y: CChar, ta: seq<CChar>, tb: seq<CChar>)
    requires x != y
    requires x == NUL <==> ta == []
    requires y == NUL <==> tb == []
    requires ta != [] ==> ta[0] == x && x as int < 0x80
    requires tb != [] ==> tb[0] == y && y as int < 0x80
    ensures Width8(Signed(x) - Signed(y)) < 0 <==> LexLess(ta, tb)
  {
    assert Signed(x) == x as int && Signed(y) == y as int;
  }

  /** `ss_strcmp` on two stored strings. */
  function CompareText(s: Text, t: Text): (r: int8)
    ensures r == 0 <==> s == t
    ensures Ascii(s) && Ascii(t) ==> (r < 0 <==> LexLess(s, t))
  {
    Terminate(s);
    Terminate(t);
    StrCmpZero(s + [NUL], t + [NUL]);
    StrCmpOrder(s + [NUL], t + [NUL]);
    StrCmp(s + [NUL], t + [NUL])
  }
}

=== FILE: dicts.dfy ===
/** dynamic_dict.c: the insertion-ordered dict. Key `j` belongs to value
    slot `j` of the value list; a removal moves the last pair into the gap.
    Insertion, key lookup, copying and receiver binding are defined with the
    rest of the recursive core; this module adds the remaining operations and
    the facts about all of them. `at` is the location of the dict. */
module Dicts {
  import opened CString
  import opened Values
  import opened Dynamic
  import opened CopyFacts
  import Lists

  /** One key per value slot. */
  predicate Aligned(d: DictV) {
    |d.keys| == |d.vals.elems|
  }

  // ---------------------------------------------------------------------------
  // dyn_set_dict, dyn_dict_resize, dyn_dict_change, dyn_dict_empty
  // ---------------------------------------------------------------------------

  /** `dyn_set_dict(len)`: no pairs, room for `len`. */
  function SetDict(len: ushort): (r: DictV)
    ensures DictOk(r) && Pairs(r) == 0 && r.vals.space == len
  {
    DictV([], Lists.SetListLen(len))
  }

  datatype Resized = Resized(dict: DictV, ok: bool)

  /** `dyn_dict_resize(size)` only ever grows the allocation. */
  function Resize(d: DictV, size: ushort): (r: Resized)
    ensures r.ok <==> size > d.vals.space
    ensures !r.ok ==> r.dict == d
    ensures r.ok ==> r.dict.keys == d.keys && r.dict.vals.elems == d.vals.elems && r.dict.vals.space == size
    ensures DictOk(d) ==> DictOk(r.dict)
  {
    if size > d.vals.space then Resized(DictV(d.keys, ListV(d.vals.elems, size)), true)
    else Resized(d, false)
  }

  /** `dyn_dict_change(i, v)`: slot `i` receives a copy of `v`. */
  function Change(d: DictV, i: nat, v: Value, at: Loc): (r: DictV)
    requires i < |d.vals.elems|
    ensures r.keys == d.keys && r.vals.space == d.vals.space
    ensures |r.vals.elems| == |d.vals.elems|
    ensures r.vals.elems[i] == Copy(v, Slot(at, i))
    ensures forall j :: 0 <= j < |d.vals.elems| && j != i ==> r.vals.elems[j] == d.vals.elems[j]
  {
    DictV(d.keys, d.vals.(elems := d.vals.elems[i := Copy(v, Slot(at, i))]))
  }

  /** `dyn_dict_empty`: every pair is released, the allocation stays. */
  function Empty(d: DictV): (r: DictV)
    ensures Pairs(r) == 0 && r.vals.space == d.vals.space
    ensures ListOk(d.vals) ==> DictOk(r)
  {
    DictV([], ListV([], d.vals.space))
  }

  // ---------------------------------------------------------------------------
  // dyn_dict_has_key, dyn_dict_get
  // ---------------------------------------------------------------------------

  /** `dyn_dict_has_key` answers position + 1 of the key, or 0. */
  lemma HasKeyPosition(d: DictV, key: Text)
    requires DictOk(d)
    ensures HasKey(d, key) == 0 <==> key !in d.keys
    ensures forall j :: 0 <= j < |d.keys| && d.keys[j] == key ==> HasKey(d, key) == j + 1
  {
  }

  /** `dyn_dict_get`: the value stored under `key`, or NULL. */
  function Get(d: DictV, key: Text): (r: Option<Value>)
    ensures r.Some? <==> key in d.keys[..Pairs(d)]
    ensures DictOk(d) ==> forall j :: 0 <= j < |d.keys| && d.keys[j] == key ==> r == Some(d.vals.elems[j])
  {
    var pos := HasKey(d, key);
    if pos > 0 then Some(d.vals.elems[pos - 1]) else Nothing
  }

  // ---------------------------------------------------------------------------
  // dyn_dict_insert
  // ---------------------------------------------------------------------------

  /** The slot `dyn_dict_insert` returns: `dyn_dict_get_i_ref` of the
      position `j` the key ended up at. `dyn_list_get_ref` takes that
      position as an `ss_short`, so from 32768 on it turns negative and
      counts back from the end of the value list, or finds no slot. */
  function InsertSlot(d: DictV, key: Text, v: Value, at: Loc): (r: Option<nat>)
    requires DictOk(d)
    requires |d.vals.elems| < d.vals.space || d.vals.space + DICT_DEFAULT < 0x1_0000
    ensures r.Some? ==> r.value < |DictInsert(d, key, v, at).keys|
    ensures var keys := DictInsert(d, key, v, at).keys;
      forall j :: 0 <= j < |keys| && keys[j] == key ==>
        r == if j < 0x8000 then Some(j)
             else if j + |keys| >= 0x1_0000 then Some(j + |keys| - 0x1_0000)
             else Nothing
    ensures |d.keys| < 0x8000 ==> r.Some? && DictInsert(d, key, v, at).keys[r.value] == key
  {
    var r := DictInsert(d, key, v, at);
    InsertedAt(d, key, v, at);
    Lists.GetRef(r.vals, Lists.Short(HasKey(r, key) - 1))
  }

  /** The position `dyn_dict_has_key` finds the key at after insertion: the
      only one holding it, and below 32768 when the dict was. */
  lemma InsertedAt(d: DictV, key: Text, v: Value, at: Loc)
    requires DictOk(d)
    requires |d.vals.elems| < d.vals.space || d.vals.space + DICT_DEFAULT < 0x1_0000
    ensures var r := DictInsert(d, key, v, at);
      var j := HasKey(r, key) - 1;
      && DictOk(r) && 0 <= j < |r.keys| && j < 0x1_0000
      && (forall k :: 0 <= k < |r.keys| && r.keys[k] == key ==> k == j)
      && (|d.keys| < 0x8000 ==> j < 0x8000)
  {
    var r := DictInsert(d, key, v, at);
    InsertOk(d, key, v, at);
    assert |r.keys| <= |d.keys| + 1;
  }

  /** Inserting a key that is present overwrites its value in place. */
  lemma InsertExisting(d: DictV, key: Text, v: Value, at: Loc, j: nat)
    requires DictOk(d) && j < |d.keys| && d.keys[j] == key
    ensures var r := DictInsert(d, key, v, at);
      && r.keys == d.keys && r.vals.space == d.vals.space
      && |r.vals.elems| == |d.vals.elems|
      && r.vals.elems[j] == Copy(v, Slot(at, j))
      && forall k :: 0 <= k < |d.keys| && k != j ==> r.vals.elems[k] == d.vals.elems[k]
  {
    HasKeyPosition(d, key);
  }

  /** Inserting a new key appends the pair, growing a full allocation by
      DICT_DEFAULT. */
  lemma InsertNew(d: DictV, key: Text, v: Value, at: Loc)
    requires DictOk(d) && key !in d.keys
    ensures var r := DictInsert(d, key, v, at);
      && r.keys == d.keys + [key]
      && r.vals.elems == d.vals.elems + [Copy(v, Slot(at, |d.keys|))]
      && r.vals.space == (if |d.keys| == d.vals.space then d.vals.space + DICT_DEFAULT else d.vals.space)
  {
    HasKeyPosition(d, key);
    assert d.keys[..Pairs(d)] == d.keys;
  }

  /** Insertion keeps the dict invariant (while the 16-bit allocation
      counter does not wrap) and the key then finds a copy of the value. */
  lemma InsertOk(d: DictV, key: Text, v: Value, at: Loc)
    requires DictOk(d)
    requires |d.vals.elems| < d.vals.space || d.vals.space + DICT_DEFAULT < 0x1_0000
    ensures var r := DictInsert(d, key, v, at);
      && DictOk(r)
      && key in r.keys
      && forall j :: 0 <= j < |r.keys| && r.keys[j] == key ==> r.vals.elems[j] == Copy(v, Slot(at, j))
  {
    var r := DictInsert(d, key, v, at);
    if key in d.keys {
      var j :| 0 <= j < |d.keys| && d.keys[j] == key;
      InsertExisting(d, key, v, at, j);
    } else {
      InsertNew(d, key, v, at);
      assert KeysUnique(r.keys);
    }
  }

  /** Lookup by position in a dict whose keys are unique. */
  lemma GetAt(d: DictV, key: Text, j: nat)
    requires Aligned(d) && KeysUnique(d.keys) && j < |d.keys| && d.keys[j] == key
    ensures Get(d, key) == Some(d.vals.elems[j])
  {
    var pos := HasKey(d, key);
    assert pos > 0 && d.keys[pos - 1] == key;
  }

  lemma GetAbsent(d: DictV, key: Text)
    requires Aligned(d) && key !in d.keys
    ensures Get(d, key) == Nothing
  {
    assert d.keys[..Pairs(d)] == d.keys;
  }

  /** Insertion leaves the values of the other keys alone. */
  lemma InsertOthers(d: DictV, key: Text, v: Value, at: Loc, other: Text)
    requires DictOk(d) && other != key
    ensures Get(DictInsert(d, key, v, at), other) == Get(d, other)
  {
    var r := DictInsert(d, key, v, at);
    if key in d.keys {
      var j :| 0 <= j < |d.keys| && d.keys[j] == key;
      InsertExisting(d, key, v, at, j);
      OthersAt(d, r, other);
    } else {
      InsertNew(d, key, v, at);
      assert KeysUnique(r.keys);
      OthersAt(d, r, other);
    }
  }

  /** Two dicts that agree on the positions of `d`'s keys and on the values
      there agree on `other`, when `r` has `other` only where `d` does. */
  lemma OthersAt(d: DictV, r: DictV, other: Text)
    requires DictOk(d) && Aligned(r) && KeysUnique(r.keys)
    requires |d.keys| <= |r.keys| && r.keys[..|d.keys|] == d.keys
    requires other !in r.keys[|d.keys|..]
    requires forall k :: 0 <= k < |d.keys| && d.keys[k] == other ==> r.vals.elems[k] == d.vals.elems[k]
    ensures Get(r, other) == Get(d, other)
  {
    if other in d.keys {
      var k :| 0 <= k < |d.keys| && d.keys[k] == other;
      assert r.keys[k] == other;
      GetAt(d, other, k);
      GetAt(r, other, k);
    } else {
      assert r.keys == r.keys[..|d.keys|] + r.keys[|d.keys|..];
      assert other !in r.keys;
      GetAbsent(d, other);
      GetAbsent(r, other);
    }
  }

  // ---------------------------------------------------------------------------
  // dyn_dict_remove
  // ---------------------------------------------------------------------------

  datatype Removal = Removal(dict: DictV, found: bool)

  /** `dyn_dict_remove(key)`: the pair is released and, unless it was the
      last, the last pair moves into its position. */
  function Remove(d: DictV, key: Text, at: Loc): (r: Removal)
    requires Aligned(d)
    ensures r.found <==> key in d.keys
    ensures !r.found ==> r.dict == d
    ensures r.found ==> Aligned(r.dict) && |r.dict.keys| == |d.keys| - 1 && r.dict.vals.space == d.vals.space
  {
    var pos := HasKey(d, key);
    if pos == 0 then Removal(d, false)
    else
      var i := pos - 1;
      var n := |d.keys| - 1;
      if i != n then
        var keys := d.keys[i := d.keys[n]];
        var vals := d.vals.elems[i := Move(d.vals.elems[n], Slot(at, i))];
        Removal(DictV(keys[..n], ListV(vals[..n], d.vals.space)), true)
      else
        Removal(DictV(d.keys[..n], ListV(d.vals.elems[..n], d.vals.space)), true)
  }

  /** Which pairs survive a removal, and where: every pair keeps its
      position except the last, which fills the gap. */
  lemma RemoveLayout(d: DictV, key: Text, at: Loc, i: nat)
    requires DictOk(d) && i < |d.keys| && d.keys[i] == key
    ensures var r := Remove(d, key, at).dict;
      var n := |d.keys| - 1;
      && (forall j :: 0 <= j < n && j != i ==> r.keys[j] == d.keys[j] && r.vals.elems[j] == d.vals.elems[j])
      && (i < n ==> r.keys[i] == d.keys[n] && r.vals.elems[i] == Move(d.vals.elems[n], Slot(at, i)))
  {
    HasKeyPosition(d, key);
  }

  /** Removal keeps the dict invariant and the key is gone; the other keys
      are the same set as before. */
  lemma RemoveOk(d: DictV, key: Text, at: Loc, other: Text)
    requires DictOk(d) && other != key
    ensures var r := Remove(d, key, at).dict;
      && DictOk(r) && key !in r.keys
      && (other in d.keys <==> other in r.keys)
  {
    var r := Remove(d, key, at).dict;
    if key in d.keys {
      var i :| 0 <= i < |d.keys| && d.keys[i] == key;
      RemoveLayout(d, key, at, i);
      var n := |d.keys| - 1;
      assert forall j :: 0 <= j < n ==> r.keys[j] == d.keys[if j == i then n else j];
      DropKey(d.keys, r.keys, i, other);
    }
  }

  /** Keys where position `i` takes the last key and the last is dropped:
      still unique, without `keys[i]`, and with every other key. */
  lemma DropKey(keys: seq<Text>, rk: seq<Text>, i: nat, other: Text)
    requires KeysUnique(keys) && i < |keys| && |rk| == |keys| - 1
    requires forall j :: 0 <= j < |rk| ==> rk[j] == keys[if j == i then |rk| else j]
    requires other != keys[i]
    ensures KeysUnique(rk) && keys[i] !in rk
    ensures other in keys <==> other in rk
  {
    var n := |rk|;
    if other in keys {
      var k :| 0 <= k < |keys| && keys[k] == other;
      assert rk[if k == n then i else k] == other;
    }
    if other in rk {
      var k :| 0 <= k < n && rk[k] == other;
      assert keys[if k == i then n else k] == other;
    }
  }


  /** After a removal every other key finds a value that renders as before:
      the one pair that moved was moved with `dyn_move`. */
  lemma RemoveKeepsValues(d: DictV, key: Text, at: Loc, other: Text, h: Heap)
    requires Wf(Dict(d)) && other != key && other in d.keys && key in d.keys
    ensures Get(Remove(d, key, at).dict, other).Some?
    ensures Render(Get(Remove(d, key, at).dict, other).value, h) == Render(Get(d, other).value, h)
  {
    var r := Remove(d, key, at).dict;
    RemoveOk(d, key, at, other);
    var i :| 0 <= i < |d.keys| && d.keys[i] == key;
    var k :| 0 <= k < |d.keys| && d.keys[k] == other;
    RemoveLayout(d, key, at, i);
    var n := |d.keys| - 1;
    GetAt(d, other, k);
    if k == n {
      GetAt(r, other, i);
      assert Wf(d.vals.elems[n]);
      MoveRender(d.vals.elems[n], Slot(at, i), h);
    } else {
      GetAt(r, other, k);
    }
  }

  // ---------------------------------------------------------------------------
  // Rendering and receiver binding
  // ---------------------------------------------------------------------------

  /** A dict with no pairs renders as `{}`, with a count of 2. */
  lemma RenderEmpty(d: DictV, h: Heap)
    requires d.vals.elems == []
    ensures RenderDict(d, h) == "{}" && DictRenderLen(d, h) == 2
  {
  }

  /** `fct_set_loc`: with the key `""` at position `j` of the parameter dict,
      slot `j` becomes a REFERENCE2 to `here` and nothing else changes. The
      8-bit position means a key at position 255 or later is missed or
      mistaken for an earlier one. */
  lemma SelfBinding(code: seq<byte>, info: Info, ps: DictV, here: Loc, j: nat)
    requires DictOk(ps) && j < |ps.keys| && ps.keys[j] == SelfKey && j < 0xFF
    ensures var r := FctSetLoc(Proc(Dict(ps), code, info), here).params.d;
      && r.keys == ps.keys
      && r.vals.elems == ps.vals.elems[j := Ref2(here)]
  {
    HasKeyPosition(ps, SelfKey);
  }

  /** A procedure whose parameters lack the key `""` is left alone. */
  lemma NoSelfKey(code: seq<byte>, info: Info, ps: DictV, here: Loc)
    requires DictOk(ps) && SelfKey !in ps.keys
    ensures FctSetLoc(Proc(Dict(ps), code, info), here) == Proc(Dict(ps), code, info)
  {
    HasKeyPosition(ps, SelfKey);
  }

  /** `dyn_dict_set_loc` slot by slot: procedures are bound to this dict,
      nested dicts to their own slot, and every other value is untouched. */
  lemma SetLocSlots(d: DictV, here: Loc, j: nat)
    requires j < |d.vals.elems|
    ensures var e := d.vals.elems[j];
      var r := DictSetLoc(d, here).vals.elems[j];
      && (e.Function? ==> r == Function(FctSetLoc(e.fct, here)))
      && (e.Dict? ==> r == Dict(DictSetLoc(e.d, Slot(here, j))))
      && (!e.Function? && !e.Dict? ==> r == e)
  {
    SetLocElemsAt(d.vals.elems, here, 0, j);
  }
}

=== FILE: dynamic.dfy ===
/** The recursive core of the runtime. dynamic.c's release, setters,
    coercions, rendering, deep copy and move live here, together with the list,
    dict and function routines they recurse through: dyn_list_copy,
    dyn_dict_copy, dyn_dict_insert, dyn_dict_has_key, dyn_fct_copy,
    fct_set_loc, dyn_dict_set_loc, and the string_len/string_add of lists and
    dicts. A value is stored at a location `at`; the copy and move routines
    take the destination location because a copied dict rebinds the receivers
    of its procedures to wherever the copy is stored. */
module Dynamic {
  import opened CString
  import opened Values

  // ---------------------------------------------------------------------------
  // Reading through references
  // ---------------------------------------------------------------------------

  const EmptyDict: DictV := DictV([], ListV([], 0))

  /** The dict a REFERENCE2 handle points at. A handle with no entry in the
      heap reads as an empty dict. */
  function Target(h: Heap, l: Loc): (d: DictV)
    ensures l !in h ==> d.keys == [] && d.vals.elems == []
  {
    if l in h then h[l] else EmptyDict
  }

  predicate IsRef(v: Value) {
    v.Ref? || v.Ref2?
  }

  /** `DYN_IS_REFERENCE(dyn) ? dyn->data.ref : dyn`: one hop. */
  function Deref(v: Value, h: Heap): (r: Value)
    ensures v.Ref2? ==> r.Dict?
    ensures !IsRef(v) ==> r == v
  {
    match v
    case Ref(t) => t
    case Ref2(l) => Dict(Target(h, l))
    case _ => v
  }

  /** The number of key/value pairs a dict walk visits: the value list's
      length, bounded by the keys actually present. */
  function Pairs(d: DictV): (n: nat)
    ensures n <= |d.keys| && n <= |d.vals.elems|
    ensures DictOk(d) ==> n == |d.keys|
  {
    if |d.keys| < |d.vals.elems| then |d.keys| else |d.vals.elems|
  }

  /** The runtime's shape invariants over a whole value tree: lists, sets
      and dicts within their 16-bit counters, one unique key per dict value,
      procedure parameters that are NONE or a dict, and no reference that
      points at another reference. */
  predicate Wf(v: Value) {
    match v
    case List(l) => ListOk(l) && forall i :: 0 <= i < |l.elems| ==> Wf(l.elems[i])
    case Set(l) => ListOk(l) && forall i :: 0 <= i < |l.elems| ==> Wf(l.elems[i])
    case Dict(d) => DictOk(d) && forall i :: 0 <= i < |d.vals.elems| ==> Wf(d.vals.elems[i])
    case Function(f) => f.Proc? ==> (f.params.None? || f.params.Dict?) && Wf(f.params)
    case Ref(t) => !IsRef(t) && Wf(t)
    case _ => true
  }

  // ---------------------------------------------------------------------------
  // dyn_free and the setters
  // ---------------------------------------------------------------------------

  /** The kinds whose payload `dyn_free` releases. External data and both
      reference kinds are not owned by the value. */
  predicate OwnsPayload(v: Value) {
    v.Str? || v.List? || v.Set? || v.Dict? || v.Function?
  }

  /** `dyn_free`: whatever the value held, it is NONE afterwards. */
  function Free(v: Value): (r: Value)
    ensures Tag(r) == NONE
  {
    None
  }

  function SetNone(v: Value): (r: Value)
    ensures Tag(r) == NONE
  {
    Free(v)
  }

  /** `dyn_set_bool` stores a `char`: only the low 8 bits of the argument
      survive, and every reader tests the stored char against zero. */
  function SetBool(c: int): (r: Value)
    ensures r.Bool? && (r.b <==> c % 0x100 != 0)
  {
    Bool(Width8(c) != 0)
  }

  function SetInt(i: int32): (r: Value)
    ensures r.Int? && GetInt(r) == i
  {
    Int(i)
  }

  function SetFloat(f: real): (r: Value)
    ensures r.Float? && GetFloat(r) == f
  {
    Float(f)
  }

  function SetExtern(handle: nat): (r: Value)
    ensures r.Extern? && r.handle == handle && !OwnsPayload(r)
  {
    Extern(handle)
  }

  /** `dyn_set_string` stores its own copy of the characters before the
      terminator of `buf`. */
  function SetString(buf: seq<CChar>): (r: Value)
    requires Terminated(buf)
    ensures r.Str? && r.s == buf[..NulIndex(buf)]
    ensures Length(r, map[]) == TextLen(CText(buf))
  {
    Str(CText(buf))
  }

  /** `dyn_set_ref(ref, orig)`: a reference to `orig`, or to `orig`'s target
      when `orig` is itself a reference of either kind. */
  function SetRef(orig: Value, h: Heap): (r: Value)
    ensures r.Ref?
    ensures !IsRef(r.target) || (orig.Ref? && IsRef(orig.target))
  {
    match orig
    case Ref(t) => orig
    case Ref2(l) => Ref(Dict(Target(h, l)))
    case _ => Ref(orig)
  }

  // ---------------------------------------------------------------------------
  // Coercions: dyn_get_bool, dyn_get_int, dyn_get_float, dyn_length
  // ---------------------------------------------------------------------------

  /** `dyn_length`: characters of a string, elements of a list, set or dict,
      read through references, and 0 for everything else. The counters are
      16 bits wide. */
  function Length(v: Value, h: Heap): (n: ushort)
    ensures v.Str? ==> n == |v.s| % 0x1_0000
    ensures (v.List? || v.Set?) && ListOk(v.l) ==> n == |v.l.elems|
    ensures v.Dict? && ListOk(v.d.vals) ==> n == |v.d.vals.elems|
    ensures !OwnsPayload(v) && !IsRef(v) ==> n == 0
  {
    match v
    case Str(s) => TextLen(s)
    case List(l) => Width16(|l.elems|)
    case Set(l) => Width16(|l.elems|)
    case Dict(d) => Width16(|d.vals.elems|)
    case Ref(t) => Length(t, h)
    case Ref2(l) => Width16(|Target(h, l).vals.elems|)
    case _ => 0
  }

  /** `dyn_get_bool`: nonzero numbers and non-empty strings and containers
      are true; NONE, functions, external data and MISCELLANEOUS are false. */
  function GetBool(v: Value, h: Heap): (r: bool)
    ensures v.Int? ==> (r <==> v.i != 0)
    ensures v.Float? ==> (r <==> v.f != 0.0)
    ensures (OwnsPayload(v) && !v.Function?) || v.Ref2? ==> (r <==> Length(v, h) != 0)
    ensures v.None? || v.Function? || v.Extern? || v.Misc? ==> !r
  {
    match v
    case Bool(b) => b
    case Int(i) => i != 0
    case Float(f) => f != 0.0
    case Str(s) => TextLen(s) != 0
    case List(l) => Width16(|l.elems|) != 0
    case Set(l) => Width16(|l.elems|) != 0
    case Dict(d) => Width16(|d.vals.elems|) != 0
    case Ref(t) => GetBool(t, h)
    case Ref2(l) => Width16(|Target(h, l).vals.elems|) != 0
    case _ => false
  }

  /** `dyn_get_int`: BOOL as 0/1, a float truncated toward zero, and 0 for
      everything that is not a number. */
  function GetInt(v: Value): (r: int)
    ensures v.Bool? ==> (r == 1 <==> v.b) && (r == 0 <==> !v.b)
    ensures v.Float? ==> r as real <= v.f < r as real + 1.0 || r as real - 1.0 < v.f <= r as real
    ensures !v.Bool? && !v.Int? && !v.Float? && !v.Ref? ==> r == 0
  {
    match v
    case Bool(b) => if b then 1 else 0
    case Int(i) => i
    case Float(f) => Trunc(f)
    case Ref(t) => GetInt(t)
    case _ => 0
  }

  /** `dyn_get_float`: the numeric value as a real, 0 for the rest. */
  function GetFloat(v: Value): (r: real)
    ensures v.Int? ==> r == v.i as real
    ensures !v.Bool? && !v.Int? && !v.Float? && !v.Ref? ==> r == 0.0
  {
    match v
    case Bool(b) => if b then 1.0 else 0.0
    case Int(i) => i as real
    case Float(f) => f
    case Ref(t) => GetFloat(t)
    case _ => 0.0
  }

  // ---------------------------------------------------------------------------
  // Rendering: dyn_string_add, dyn_list_string_add, dyn_dict_string_add
  // ---------------------------------------------------------------------------

  /** The text `dyn_string_add` appends. Lists render as `[e1,e2]`, sets as
      `{e1,e2}`, dicts as `{k1:v1,k2:v2}`; references render their target.
      Following a REFERENCE2 leaves its location out of the heap, so a dict
      that reaches itself through a receiver renders the inner occurrence as
      `{}`. */
  function Render(v: Value, h: Heap): Text
    decreases |h.Keys|, Size(v), 0
  {
    match v
    case None => []
    case Bool(b) => if b then "1" else "0"
    case Int(i) => Itoa(i)
    case Float(f) => Ftoa(f)
    case Str(s) => s
    case List(l) => "[" + RenderJoin(l.elems, h) + "]"
    case Set(l) => "{" + RenderJoin(l.elems, h) + "}"
    case Dict(d) => RenderDict(d, h)
    case Function(_) => "FCT"
    case Extern(_) => "ex"
    case Ref(t) => Render(t, h)
    case Ref2(l) => if l in h then RenderDict(h[l], h - {l}) else "{}"
    case Misc => "$"
  }

  /** An integer's text reads back as the integer; a list's text is
      bracketed, and a set's or dict's is braced. */
  lemma RenderShape(v: Value, h: Heap)
    ensures var t := Render(v, h);
      && (v.Int? ==> ParseDecimal(t) == v.i)
      && (v.List? ==> |t| >= 2 && t[0] == '[' && t[|t| - 1] == ']')
      && (v.Set? || v.Dict? ==> |t| >= 2 && t[0] == '{' && t[|t| - 1] == '}')
  {
    if v.Int? {
      ItoaRoundTrip(v.i);
    }
  }

  /** The elements separated by commas. */
  function RenderJoin(s: seq<Value>, h: Heap): Text
    decreases |h.Keys|, SizeSeq(s), 1
  {
    if s == [] then []
    else if |s| == 1 then Render(s[0], h)
    else Render(s[0], h) + "," + RenderJoin(s[1..], h)
  }

  function RenderDict(d: DictV, h: Heap): Text
    decreases |h.Keys|, SizeSeq(d.vals.elems), 2
  {
    "{" + RenderPairs(d.keys, d.vals.elems, h) + "}"
  }

  /** `key:value` pairs separated by commas. */
  function RenderPairs(keys: seq<Text>, vals: seq<Value>, h: Heap): Text
    decreases |h.Keys|, SizeSeq(vals), 1
  {
    if keys == [] || vals == [] then []
    else
      var pair := keys[0] + ":" + Render(vals[0], h);
      if |keys| == 1 || |vals| == 1 then pair
      else pair + "," + RenderPairs(keys[1..], vals[1..], h)
  }

  // ---------------------------------------------------------------------------
  // Buffer sizes: dyn_string_len, dyn_list_string_len, dyn_dict_string_len
  // ---------------------------------------------------------------------------

  /** The byte count `dyn_string_len` computes, before its 16-bit wrap. For a
      list it is 3 + length + the elements' counts; for a non-empty dict it is
      length + the pairs' counts (key, value, colon and comma) + 2. */
  function RenderLen(v: Value, h: Heap): (n: nat)
    ensures v.Bool? || v.Int? || v.Str? ==> n == |Render(v, h)|
    ensures v.Float? ==> n == |Render(v, h)| + if Fraction(v.f) < 0 then 1 else 0
    decreases |h.Keys|, Size(v), 0
  {
    match v
    case None => 0
    case Bool(_) => 1
    case Int(i) => ItoaLen(i)
    case Float(f) => FtoaLen(f)
    case Str(s) => |s|
    case List(l) => 3 + |l.elems| + RenderLenSum(l.elems, h)
    case Set(l) => 3 + |l.elems| + RenderLenSum(l.elems, h)
    case Dict(d) => DictRenderLen(d, h)
    case Function(_) => 3
    case Extern(_) => 2
    case Ref(t) => RenderLen(t, h)
    case Ref2(l) => if l in h then DictRenderLen(h[l], h - {l}) else 2
    case Misc => 1
  }

  function RenderLenSum(s: seq<Value>, h: Heap): nat
    decreases |h.Keys|, SizeSeq(s), 1
  {
    if s == [] then 0 else RenderLen(s[0], h) + RenderLenSum(s[1..], h)
  }

  function DictRenderLen(d: DictV, h: Heap): nat
    decreases |h.Keys|, SizeSeq(d.vals.elems), 2
  {
    if |d.vals.elems| == 0 then 2
    else |d.vals.elems| + PairLenSum(d.keys, d.vals.elems, h) + 2
  }

  function PairLenSum(keys: seq<Text>, vals: seq<Value>, h: Heap): nat
    decreases |h.Keys|, SizeSeq(vals), 1
  {
    if keys == [] || vals == [] then 0
    else |keys[0]| + RenderLen(vals[0], h) + 2 + PairLenSum(keys[1..], vals[1..], h)
  }

  /** `dyn_string_len`: the 16-bit sum. Every step of the C accumulation is a
      `ushort` addition, so the result is the exact count modulo 2^16. */
  function StringLen(v: Value, h: Heap): (n: ushort)
    ensures RenderLen(v, h) < 0x1_0000 ==> |Render(v, h)| <= n
  {
    RenderFits(v, h);
    Width16(RenderLen(v, h))
  }

  /** `dyn_get_string`: a fresh buffer of `dyn_string_len + 1` bytes holding
      the rendering, which fits unless the count wrapped. */
  function GetString(v: Value, h: Heap): (t: Text)
    ensures v.Str? ==> t == v.s
    ensures RenderLen(v, h) < 0x1_0000 ==> |t| <= StringLen(v, h)
  {
    Render(v, h)
  }

  lemma {:induction false} RenderFits(v: Value, h: Heap)
    ensures |Render(v, h)| <= RenderLen(v, h)
    decreases |h.Keys|, Size(v), 0
  {
    match v
    case List(l) =>
      JoinFits(l.elems, h);
      assert |Render(v, h)| == 2 + |RenderJoin(l.elems, h)|;
    case Set(l) =>
      JoinFits(l.elems, h);
      assert |Render(v, h)| == 2 + |RenderJoin(l.elems, h)|;
    case Dict(d) =>
      DictFits(d, h);
      assert Render(v, h) == RenderDict(d, h) && RenderLen(v, h) == DictRenderLen(d, h);
    case Ref(t) =>
      RenderFits(t, h);
      assert Render(v, h) == Render(t, h) && RenderLen(v, h) == RenderLen(t, h);
    case Ref2(l) =>
      if l in h {
        DictFits(h[l], h - {l});
        assert Render(v, h) == RenderDict(h[l], h - {l});
      }
    case Int(i) =>
      assert Render(v, h) == Itoa(i) && RenderLen(v, h) == ItoaLen(i);
    case Float(f) =>
      assert Render(v, h) == Ftoa(f) && RenderLen(v, h) == FtoaLen(f);
    case _ =>
  }

  lemma {:induction false} JoinFits(s: seq<Value>, h: Heap)
    ensures |RenderJoin(s, h)| <= |s| + RenderLenSum(s, h)
    decreases |h.Keys|, SizeSeq(s), 1
  {
    if s != [] {
      RenderFits(s[0], h);
      JoinFits(s[1..], h);
    }
  }

  lemma {:induction false} DictFits(d: DictV, h: Heap)
    ensures |RenderDict(d, h)| <= DictRenderLen(d, h)
    decreases |h.Keys|, SizeSeq(d.vals.elems), 2
  {
    PairsFit(d.keys, d.vals.elems, h);
  }

  lemma {:induction false} PairsFit(keys: seq<Text>, vals: seq<Value>, h: Heap)
    ensures |RenderPairs(keys, vals, h)| <= PairLenSum(keys, vals, h) + |vals|
    ensures vals == [] ==> RenderPairs(keys, vals, h) == []
    decreases |h.Keys|, SizeSeq(vals), 1
  {
    if keys != [] && vals != [] {
      RenderFits(vals[0], h);
      PairsFit(keys[1..], vals[1..], h);
    }
  }

  // ---------------------------------------------------------------------------
  // Key lookup: dyn_dict_has_key
  // ---------------------------------------------------------------------------

  /** `dyn_dict_has_key`: 1 + the position of the first key equal to `key`
      (compared with `ss_strcmp`), or 0 when no key matches. */
  function HasKey(d: DictV, key: Text): (r: nat)
    ensures r <= Pairs(d)
    ensures r > 0 ==> d.keys[r - 1] == key
    ensures forall j :: 0 <= j < Pairs(d) && d.keys[j] == key ==> r > 0 && r - 1 <= j
  {
    FindKey(d.keys, key, 0, Pairs(d))
  }

  function FindKey(keys: seq<Text>, key: Text, i: nat, n: nat): (r: nat)
    requires i <= n <= |keys|
    ensures r == 0 || i < r <= n
    ensures r > 0 ==> keys[r - 1] == key
    ensures forall j :: i <= j < n && keys[j] == key ==> r > 0 && r - 1 <= j
    decreases n - i
  {
    if i == n then 0
    else if CompareText(keys[i], key) == 0 then i + 1
    else FindKey(keys, key, i + 1, n)
  }

  // ---------------------------------------------------------------------------
  // Deep copy: dyn_copy, dyn_list_copy, dyn_dict_copy, dyn_dict_insert,
  // dyn_fct_copy
  // ---------------------------------------------------------------------------

  /** `dyn_copy(v, at)`: strings, lists, sets, dicts and functions are copied
      deeply, a REFERENCE is replaced by a copy of its target, and everything
      else (REFERENCE2 included) is copied bit for bit. */
  function Copy(v: Value, at: Loc): (r: Value)
    ensures !r.Ref?
    ensures !v.Ref? ==> Tag(r) == Tag(v)
    ensures (v.List? ==> r.List? && |r.l.elems| == r.l.space == |v.l.elems|)
    ensures (v.Set? ==> r.Set? && |r.l.elems| == r.l.space == |v.l.elems|)
    decreases Size(v), 0
  {
    match v
    case List(l) => List(ListV(CopyElems(l.elems, at, 0), |l.elems|))
    case Set(l) => Set(ListV(CopyElems(l.elems, at, 0), |l.elems|))
    case Dict(d) => Dict(DictCopy(d, at))
    case Function(f) => Function(FctCopy(f, at))
    case Ref(t) => Copy(t, at)
    case _ => v
  }

  /** The element copies `dyn_list_copy` pushes: element `i` of the source
      goes to slot `k + i` of the list stored at `at`. */
  function CopyElems(s: seq<Value>, at: Loc, k: nat): (r: seq<Value>)
    ensures |r| == |s|
    decreases SizeSeq(s), 1
  {
    if s == [] then [] else [Copy(s[0], Slot(at, k))] + CopyElems(s[1..], at, k + 1)
  }

  /** `dyn_fct_copy`: a native function keeps its pointer and type byte; a
      procedure gets a deep copy of its parameters and the same bytecode. The
      info string survives only when it is non-empty. */
  function FctCopy(f: Fct, at: Loc): (r: Fct)
    ensures r.Native? == f.Native?
    ensures r.Native? ==> r.ptr == f.ptr && r.kind == f.kind
    ensures r.Proc? ==> r.code == f.code && !r.params.Ref?
    ensures r.info == NoInfo || r.info == f.info
    decreases SizeFct(f), 1
  {
    match f
    case Native(p, k, i) => Native(p, k, KeepInfo(i))
    case Proc(ps, code, i) => Proc(Copy(ps, Params(at)), code, KeepInfo(i))
  }

  /** `dyn_set_fct` copies the info string only when it is present and its
      16-bit length is nonzero. */
  function KeepInfo(i: Info): (r: Info)
    ensures r.Info? <==> i.Info? && |i.text| % 0x1_0000 != 0
    ensures r.Info? ==> r == i
  {
    match i
    case NoInfo => NoInfo
    case Info(t) => if TextLen(t) != 0 then i else NoInfo
  }

  /** `dyn_dict_copy`: an empty dict with room for every pair, the pairs
      inserted in order, then the receivers rebound to the copy's location. */
  function DictCopy(d: DictV, at: Loc): (r: DictV)
    ensures r.vals.space >= |d.vals.elems|
    ensures forall j :: 0 <= j < Pairs(d) ==> d.keys[j] in r.keys
    decreases SizeSeq(d.vals.elems), 4
  {
    var filled := DictCopyFrom(d, 0, DictV([], ListV([], |d.vals.elems|)), at);
    DictSetLoc(filled, at)
  }

  function DictCopyFrom(d: DictV, i: nat, acc: DictV, at: Loc): (r: DictV)
    requires i <= Pairs(d)
    ensures r.vals.space >= acc.vals.space
    ensures forall k :: k in acc.keys[..Pairs(acc)] ==> k in r.keys[..Pairs(r)]
    ensures forall j :: i <= j < Pairs(d) ==> d.keys[j] in r.keys[..Pairs(r)]
    decreases SizeSeq(d.vals.elems), 3, Pairs(d) - i
  {
    if i == Pairs(d) then acc
    else
      SizeElem(d.vals.elems, i);
      DictCopyFrom(d, i + 1, DictInsert(acc, d.keys[i], d.vals.elems[i], at), at)
  }

  /** `dyn_dict_insert(d, key, v)` for the dict stored at `at`: an existing key
      gets a copy of `v` in its slot; a new key is appended with a copy of
      `v`, growing the allocation by DICT_DEFAULT when it is full. */
  function DictInsert(d: DictV, key: Text, v: Value, at: Loc): (r: DictV)
    ensures key in r.keys[..Pairs(r)]
    ensures forall k :: k in d.keys[..Pairs(d)] ==> k in r.keys[..Pairs(r)]
    ensures r.vals.space >= d.vals.space
    decreases Size(v), 2
  {
    var pos := HasKey(d, key);
    if pos > 0 then
      DictV(d.keys, d.vals.(elems := d.vals.elems[pos - 1 := Copy(v, Slot(at, pos - 1))]))
    else
      var n := |d.vals.elems|;
      var space := if n == d.vals.space then d.vals.space + DICT_DEFAULT else d.vals.space;
      var keys := d.keys[..Pairs(d)] + [key];
      assert keys[..|keys|] == keys && keys[Pairs(d)] == key;
      DictV(keys, ListV(d.vals.elems + [Copy(v, Slot(at, n))], space))
  }

  // ---------------------------------------------------------------------------
  // Receiver binding: fct_set_loc, dyn_dict_set_loc
  // ---------------------------------------------------------------------------

  /** The key under which a procedure expects its receiver. */
  const SelfKey: Text := []

  /** `fct_set_loc(proc, here)`: a procedure whose parameter dict has the key
      `""` gets a REFERENCE2 to `here` in that slot. The position comes back
      from `dyn_dict_has_key` as a 16-bit value and is stored in a `dyn_byte`,
      so only its low 8 bits are used. Natives, procedures without
      parameters and procedures without the key are unchanged. */
  function FctSetLoc(f: Fct, here: Loc): (r: Fct)
    ensures r.Native? == f.Native? && (r.Native? ==> r == f)
    ensures r.Proc? ==> r.code == f.code && r.info == f.info && Tag(r.params) == Tag(f.params)
    ensures r.Proc? && r.params.Dict? ==>
      r.params.d.keys == f.params.d.keys &&
      |r.params.d.vals.elems| == |f.params.d.vals.elems| &&
      r.params.d.vals.space == f.params.d.vals.space
  {
    match f
    case Proc(Dict(ps), code, info) =>
      var pos := HasKey(ps, SelfKey) % 0x100;
      if pos != 0 then
        Proc(Dict(DictV(ps.keys, ps.vals.(elems := ps.vals.elems[pos - 1 := Ref2(here)]))), code, info)
      else f
    case _ => f
  }

  /** `dyn_dict_set_loc(d)` for the dict stored at `here`: every procedure
      directly in `d` is bound to `here`, and every nested dict in slot `i`
      is treated the same way with its own location. */
  function DictSetLoc(d: DictV, here: Loc): (r: DictV)
    ensures r.keys == d.keys && r.vals.space == d.vals.space
    ensures |r.vals.elems| == |d.vals.elems|
    decreases SizeSeq(d.vals.elems), 2
  {
    DictV(d.keys, d.vals.(elems := SetLocElems(d.vals.elems, here, 0)))
  }

  function SetLocElems(s: seq<Value>, here: Loc, k: nat): (r: seq<Value>)
    ensures |r| == |s|
    decreases SizeSeq(s), 1
  {
    if s == [] then [] else [SetLocOne(s[0], here, k)] + SetLocElems(s[1..], here, k + 1)
  }

  /** The treatment of the value in slot `k` of the dict stored at `here`. */
  function SetLocOne(e: Value, here: Loc, k: nat): (r: Value)
    ensures Tag(r) == Tag(e)
    ensures !e.Function? && !e.Dict? ==> r == e
    decreases Size(e), 0
  {
    match e
    case Function(f) => Function(FctSetLoc(f, here))
    case Dict(nd) => Dict(DictSetLoc(nd, Slot(here, k)))
    case _ => e
  }

  // ---------------------------------------------------------------------------
  // dyn_move
  // ---------------------------------------------------------------------------

  /** `dyn_move(from, to)`: the destination receives `from`'s content, or a
      deep copy of the target when `from` is a REFERENCE; a dict that lands
      there has its receivers rebound to `to`. The source is reset to NONE,
      which callers model by dropping it. */
  function Move(from: Value, to: Loc): (r: Value)
    ensures !r.Ref?
    ensures !from.Ref? ==> Tag(r) == Tag(from)
    ensures !from.Ref? && !from.Dict? ==> r == from
  {
    var moved := if from.Ref? then Copy(from.target, to) else from;
    if moved.Dict? then Dict(DictSetLoc(moved.d, to)) else moved
  }
}

=== FILE: functions.dfy ===
/** dynamic_function.c: native functions and interpreted procedures. The
    C pointer of a native function is opaque; a procedure owns its copied
    parameters (NONE or a dict) and its bytecode. `at` is the location the
    function value is stored at, so the parameters live at `Params(at)`. */
module Functions {
  import opened CString
  import opened Values
  import opened Dynamic
  import opened CopyFacts

  /** `dyn_set_fct(ptr, type, info)` with a nonzero type: a native function.
      The info string is copied only when it is present and not empty. */
  function SetFct(ptr: nat, kind: byte, info: Info): (r: Value)
    requires kind != 0
    ensures r.Function? && r.fct.Native? && r.fct.ptr == ptr && r.fct.kind == kind
    ensures r.fct.info.Info? <==> info.Info? && TextLen(info.text) != 0
    ensures r.fct.info.Info? ==> r.fct.info == info
    ensures Wf(r)
  {
    Function(Native(ptr, kind, KeepInfo(info)))
  }

  /** `dyn_set_fct_ss(params, length, code, info)`: a procedure holding the
      first `length` bytes of `code` and a deep copy of `params`. */
  function SetFctSs(params: Value, length: ushort, code: seq<byte>, info: Info, at: Loc): (r: Value)
    requires length <= |code|
    ensures r.Function? && r.fct.Proc?
    ensures |r.fct.code| == length as int
    ensures forall i :: 0 <= i < length ==> r.fct.code[i] == code[i]
    ensures r.fct.info.Info? <==> info.Info? && TextLen(info.text) != 0
    ensures r.fct.info.Info? ==> r.fct.info == info
    ensures !r.fct.params.Ref?
  {
    Function(Proc(Copy(params, Params(at)), code[..length], KeepInfo(info)))
  }

  /** A procedure built from well-formed parameters is well formed. */
  lemma SetFctSsWf(params: Value, length: ushort, code: seq<byte>, info: Info, at: Loc)
    requires length <= |code| && Wf(params) && (params.None? || params.Dict?)
    ensures Wf(SetFctSs(params, length, code, info, at))
  {
    CopyWf(params, Params(at));
  }

  /** `dyn_fct_get_ss`: the bytecode of a procedure. */
  function GetSs(v: Value): (code: seq<byte>)
    requires v.Function? && v.fct.Proc?
  {
    v.fct.code
  }

  /** What `dyn_set_fct_ss` stores, `dyn_fct_get_ss` hands back. */
  lemma GetSsRoundTrip(params: Value, code: seq<byte>, info: Info, at: Loc)
    requires |code| < 0x1_0000
    ensures GetSs(SetFctSs(params, |code| as ushort, code, info, at)) == code
  {
    assert code[..|code|] == code;
  }

  /** The stored parameters render like the ones passed in. */
  lemma SetFctSsParams(params: Value, length: ushort, code: seq<byte>, info: Info, at: Loc, h: Heap)
    requires length <= |code| && Wf(params)
    ensures Render(SetFctSs(params, length, code, info, at).fct.params, h) == Render(params, h)
  {
    CopyRender(params, Params(at), h);
  }

  /** `dyn_fct_copy` of a native function rebuilds it with `dyn_set_fct`,
      and that copy is identical to the original. */
  lemma CopyNative(ptr: nat, kind: byte, info: Info, at: Loc)
    requires kind != 0
    ensures Copy(SetFct(ptr, kind, info), at) == SetFct(ptr, kind, info)
  {
  }

  /** `dyn_fct_copy` of a procedure is `dyn_set_fct_ss` applied to the
      procedure's own parameters, code and info. */
  lemma CopyProc(f: Fct, at: Loc)
    requires f.Proc? && |f.code| < 0x1_0000
    ensures Copy(Function(f), at) == SetFctSs(f.params, |f.code| as ushort, f.code, f.info, at)
  {
    assert f.code[..|f.code|] == f.code;
  }

  /** Copying a procedure twice gives what copying it once gives: the code
      and info are kept, and the parameters are already plain values. */
  lemma CopyProcRender(f: Fct, at: Loc, h: Heap)
    requires Wf(Function(f)) && f.Proc?
    ensures var c := Copy(Function(f), at).fct;
      && c.Proc? && c.code == f.code
      && Render(c.params, h) == Render(f.params, h)
      && (c.info == f.info || (f.info.Info? && TextLen(f.info.text) == 0))
  {
    CopyRender(f.params, Params(at), h);
  }
}

=== FILE: lists.dfy ===
/** dynamic_list.c: the owning list. A list keeps `length` elements in an
    allocation of `space` slots; every slot past the elements holds NONE.
    Functions that place a value take `at`, the location of the list, so
    that element `i` is stored at `Slot(at, i)`. */
module Lists {
  import opened CString
  import opened Values
  import opened Dynamic
  import opened CopyFacts

  /** `ss_short`, the type of the index `dyn_list_get` takes. */
  type int16 = x: int | -0x8000 <= x < 0x8000

  /** Conversion of a 16-bit unsigned count to `ss_short`. */
  function Short(n: ushort): (r: int16)
    ensures n < 0x8000 ==> r == n
    ensures n >= 0x8000 ==> r < 0
  {
    if n < 0x8000 then n else n - 0x1_0000
  }

  /** What slot `i` of the allocation holds. */
  function SlotAt(l: ListV, i: nat): Value {
    if i < |l.elems| then l.elems[i] else None
  }

  // ---------------------------------------------------------------------------
  // Allocation: dyn_set_list_len, dyn_list_resize
  // ---------------------------------------------------------------------------

  /** `dyn_set_list_len(len)`: an empty list with `len` NONE slots. */
  function SetListLen(len: ushort): (r: ListV)
    ensures ListOk(r) && r.elems == [] && r.space == len
    ensures forall i :: 0 <= i < len ==> SlotAt(r, i) == None
  {
    ListV([], len)
  }

  /** `dyn_list_resize(size)`: the elements stay, the allocation becomes
      `size` slots and new slots are NONE. Cutting off live elements is
      excluded by the callers. */
  function Resize(l: ListV, size: ushort): (r: ListV)
    requires |l.elems| <= size
    ensures ListOk(r) && r.space == size
    ensures forall i :: 0 <= i < size ==> SlotAt(r, i) == SlotAt(l, i)
  {
    ListV(l.elems, size)
  }

  // ---------------------------------------------------------------------------
  // dyn_list_push, dyn_list_push_none
  // ---------------------------------------------------------------------------

  /** A full list grows by LIST_DEFAULT slots, in a 16-bit counter that must
      not wrap. */
  predicate CanGrow(l: ListV) {
    ListOk(l) && (|l.elems| < l.space || l.space + LIST_DEFAULT < 0x1_0000)
  }

  function Grown(l: ListV): nat {
    if |l.elems| == l.space then l.space + LIST_DEFAULT else l.space
  }

  /** `dyn_list_push(l, v)`: a copy of `v` becomes the new last element. */
  function Push(l: ListV, v: Value, at: Loc): (r: ListV)
    requires CanGrow(l)
    ensures ListOk(r) && |r.elems| == |l.elems| + 1
    ensures r.elems[..|l.elems|] == l.elems
    ensures r.elems[|l.elems|] == Copy(v, Slot(at, |l.elems|))
    ensures r.space == l.space || (|l.elems| == l.space && r.space == l.space + LIST_DEFAULT)
  {
    var n := |l.elems|;
    var grown := if n == l.space then Resize(l, l.space + LIST_DEFAULT) else l;
    ListV(grown.elems + [Copy(v, Slot(at, n))], grown.space)
  }

  /** `dyn_list_push_none`: one more element, NONE. */
  function PushNone(l: ListV): (r: ListV)
    requires CanGrow(l)
    ensures ListOk(r) && r.elems == l.elems + [None]
    ensures r.space == Grown(l)
  {
    ListV(l.elems + [None], Grown(l))
  }

  // ---------------------------------------------------------------------------
  // dyn_list_popi, dyn_list_pop
  // ---------------------------------------------------------------------------

  /** `dyn_list_popi(n)`: the last `n` elements are freed. */
  function Popi(l: ListV, n: int16): (r: ListV)
    requires 0 <= n <= |l.elems|
    ensures |r.elems| == |l.elems| - n && r.space == l.space
    ensures forall i :: 0 <= i < |r.elems| ==> r.elems[i] == l.elems[i]
  {
    ListV(l.elems[..|l.elems| - n], l.space)
  }

  datatype Popped = Popped(list: ListV, out: Value)

  /** `dyn_list_pop(l, out)`: the last element moves to `out` (stored at
      `to`); the allocation gives back LIST_DEFAULT slots once more than
      LIST_DEFAULT are unused. */
  function Pop(l: ListV, to: Loc): (r: Popped)
    requires |l.elems| > 0
    ensures r.list.elems == l.elems[..|l.elems| - 1]
    ensures r.out == Move(l.elems[|l.elems| - 1], to)
    ensures ListOk(l) ==> ListOk(r.list) && |r.list.elems| < r.list.space
    ensures r.list.space == l.space || r.list.space == l.space - LIST_DEFAULT
  {
    var n := |l.elems| - 1;
    var out := Move(l.elems[n], to);
    var shrunk := ListV(l.elems[..n], l.space);
    if l.space - n > LIST_DEFAULT then Popped(ListV(shrunk.elems, l.space - LIST_DEFAULT), out)
    else Popped(shrunk, out)
  }

  /** Popping right after a push gives back the old elements, and the popped
      value renders like the pushed one. */
  lemma PushPop(l: ListV, v: Value, at: Loc, to: Loc, h: Heap)
    requires CanGrow(l) && Wf(v)
    ensures Pop(Push(l, v, at), to).list.elems == l.elems
    ensures Render(Pop(Push(l, v, at), to).out, h) == Render(v, h)
  {
    var n := |l.elems|;
    var pushed := Push(l, v, at);
    CopyWf(v, Slot(at, n));
    MoveRender(pushed.elems[n], to, h);
    CopyRender(v, Slot(at, n), h);
  }

  // ---------------------------------------------------------------------------
  // dyn_list_remove, dyn_list_insert
  // ---------------------------------------------------------------------------

  /** The elements of `s` moved one by one so that `s[j]` lands in slot
      `k + j` of the list at `at`. */
  function Relocate(s: seq<Value>, at: Loc, k: nat): (r: seq<Value>)
    ensures |r| == |s|
  {
    seq(|s|, j requires 0 <= j < |s| => Move(s[j], Slot(at, k + j)))
  }

  /** Values that `dyn_move` transfers unchanged: neither a REFERENCE nor a
      dict whose receivers get rebound. */
  predicate Plain(s: seq<Value>) {
    forall j :: 0 <= j < |s| ==> !s[j].Ref? && !s[j].Dict?
  }

  lemma RelocatePlain(s: seq<Value>, at: Loc, k: nat)
    requires Plain(s)
    ensures Relocate(s, at, k) == s
  {
    assert forall j :: 0 <= j < |s| ==> Relocate(s, at, k)[j] == s[j];
  }

  /** What `dyn_list_remove(l, i)` leaves: the element at `i` is gone and
      its successors have moved down by one; `i` past the end changes
      nothing. */
  function Removed(l: ListV, i: nat, at: Loc): (r: ListV)
    ensures i < |l.elems| ==> |r.elems| == |l.elems| - 1
    ensures r.space == l.space
  {
    if i < |l.elems| then ListV(l.elems[..i] + Relocate(l.elems[i + 1..], at, i), l.space)
    else l
  }

  /** `dyn_list_remove`, the C loop: move each successor down, then free the
      last slot. */
  method Remove(l: ListV, i: ushort, at: Loc) returns (r: ListV)
    ensures r == Removed(l, i, at)
  {
    var n := |l.elems|;
    if n <= i {
      return l;
    }
    var s := l.elems;
    var j: nat := i;
    while j < n - 1
      invariant i <= j <= n - 1 && |s| == n
      invariant forall k :: 0 <= k < i ==> s[k] == l.elems[k]
      invariant forall k :: i <= k < j ==> s[k] == Move(l.elems[k + 1], Slot(at, k))
      invariant forall k :: j < k < n ==> s[k] == l.elems[k]
    {
      s := s[j := Move(s[j + 1], Slot(at, j))][j + 1 := None];
      j := j + 1;
    }
    r := ListV(s[..n - 1], l.space);
    assert r.elems == l.elems[..i] + Relocate(l.elems[i + 1..], at, i);
  }

  /** `dyn_list_remove` on values that move unchanged is `s[..i] + s[i+1..]`. */
  lemma RemovePlain(l: ListV, i: nat, at: Loc)
    requires i < |l.elems| && Plain(l.elems)
    ensures Removed(l, i, at).elems == l.elems[..i] + l.elems[i + 1..]
  {
    RelocatePlain(l.elems[i + 1..], at, i);
  }

  datatype InsertOut = InsertOut(list: ListV, element: Value)

  /** What `dyn_list_insert(l, v, i)` leaves: `v` is moved into position `i`
      after the elements from `i` on have moved up by one, and `v` itself is
      reset to NONE. An `i` past the end changes nothing. */
  function Inserted(l: ListV, v: Value, i: nat, at: Loc): (r: InsertOut)
    ensures i <= |l.elems| ==> |r.list.elems| == |l.elems| + 1 && r.element == None
    ensures i > |l.elems| ==> r == InsertOut(l, v)
  {
    if i <= |l.elems| then
      InsertOut(ListV(l.elems[..i] + [Move(v, Slot(at, i))] + Relocate(l.elems[i..], at, i + 1), Grown(l)), None)
    else InsertOut(l, v)
  }

  /** `dyn_list_insert`, the C loop: push a NONE, move the tail up from the
      end, then move `v` into the gap. */
  method Insert(l: ListV, v: Value, i: ushort, at: Loc) returns (r: ListV, element: Value)
    requires CanGrow(l)
    ensures InsertOut(r, element) == Inserted(l, v, i, at)
    ensures i <= |l.elems| ==> ListOk(r)
  {
    var n := |l.elems|;
    if n < i {
      return l, v;
    }
    var pushed := PushNone(l);
    var s := pushed.elems;
    var m := n;
    while m > i
      invariant i <= m <= n && |s| == n + 1
      invariant forall k :: 0 <= k < m ==> s[k] == l.elems[k]
      invariant forall k :: m < k <= n ==> s[k] == Move(l.elems[k - 1], Slot(at, k))
    {
      s := s[m := Move(s[m - 1], Slot(at, m))][m - 1 := None];
      m := m - 1;
    }
    s := s[i := Move(v, Slot(at, i))];
    r := ListV(s, pushed.space);
    element := None;
    Shifted(l.elems, v, i, at, s);
  }

  /** The slots after the shift: the prefix unchanged, the new element at
      `i`, and each later element one place up. */
  lemma Shifted(e: seq<Value>, v: Value, i: nat, at: Loc, s: seq<Value>)
    requires i <= |e| && |s| == |e| + 1
    requires forall k :: 0 <= k < i ==> s[k] == e[k]
    requires s[i] == Move(v, Slot(at, i))
    requires forall k :: i < k <= |e| ==> s[k] == Move(e[k - 1], Slot(at, k))
    ensures s == e[..i] + [Move(v, Slot(at, i))] + Relocate(e[i..], at, i + 1)
  {
    var t := e[..i] + [Move(v, Slot(at, i))] + Relocate(e[i..], at, i + 1);
    forall k | 0 <= k < |s|
      ensures s[k] == t[k]
    {
      if k > i {
        assert t[k] == Relocate(e[i..], at, i + 1)[k - i - 1];
      }
    }
  }

  /** Removing what was just inserted gives back the old elements, when they
      move unchanged. */
  lemma RemoveInserted(l: ListV, v: Value, i: nat, at: Loc)
    requires i <= |l.elems| && Plain(l.elems) && Plain([v])
    ensures Removed(Inserted(l, v, i, at).list, i, at).elems == l.elems
  {
    var e := l.elems;
    PlainSuffix(e, i);
    RelocatePlain(e[i..], at, i + 1);
    assert Move(v, Slot(at, i)) == v by {
      assert [v][0] == v;
    }
    var ins := Inserted(l, v, i, at).list;
    assert ins.elems == e[..i] + [v] + e[i..];
    Splice(e, v, i);
    RelocatePlain(e[i..], at, i);
  }

  lemma PlainSuffix(e: seq<Value>, i: nat)
    requires Plain(e) && i <= |e|
    ensures Plain(e[i..])
  {
    assert forall j :: 0 <= j < |e| - i ==> e[i..][j] == e[i + j];
  }

  /** The two sides of an element spliced in at `i`. */
  lemma Splice(e: seq<Value>, v: Value, i: nat)
    requires i <= |e|
    ensures var w := e[..i] + [v] + e[i..];
      w[..i] == e[..i] && w[i + 1..] == e[i..] && e[..i] + e[i..] == e
  {
  }


  /** The example in the documentation of `dyn_list_remove`. */
  lemma RemoveExample(at: Loc)
    ensures Removed(ListV([Int(0), Int(1), Int(2), Int(3), Int(4)], 5), 2, at).elems
      == [Int(0), Int(1), Int(3), Int(4)]
  {
    var s := [Int(0), Int(1), Int(2), Int(3), Int(4)];
    RemovePlain(ListV(s, 5), 2, at);
  }

  /** The example in the documentation of `dyn_list_insert`. */
  lemma InsertExample(at: Loc)
    ensures Inserted(ListV([Int(0), Int(1), Int(3), Int(4)], 5), Str("22"), 2, at).list.elems
      == [Int(0), Int(1), Str("22"), Int(3), Int(4)]
  {
    var s := [Int(0), Int(1), Int(3), Int(4)];
    RelocatePlain(s[2..], at, 3);
  }

  // ---------------------------------------------------------------------------
  // dyn_list_get, dyn_list_get_ref
  // ---------------------------------------------------------------------------

  /** The outcome of reading a slot: a value, no slot at that index, or a
      read past the end of the allocation. */
  datatype Fetched = Fetched(value: Value) | Missing | Overrun

  /** `dyn_list_get(l, out, i)` as written: a non-negative `i` is accepted up
      to and including the length, a negative `i` counts from the end. The
      length is converted to `ss_short` first. */
  function GetAsWritten(l: ListV, i: int16, to: Loc): (r: Fetched)
    requires ListOk(l)
    ensures r.Fetched? && 0 <= i < |l.elems| ==> r.value == Copy(l.elems[i], to)
  {
    var len := Short(|l.elems|);
    if i >= 0 then
      if i <= len then
        if i < |l.elems| then Fetched(Copy(l.elems[i], to))
        else if i < l.space then Fetched(None)
        else Overrun
      else Missing
    else if -(i as int) <= len then Fetched(Copy(l.elems[len + i], to))
    else Missing
  }

  /** `dyn_list_get_ref(l, i)` as written: the slot index it hands out. */
  function GetRefAsWritten(l: ListV, i: int16): (r: Option<nat>)
    requires ListOk(l)
    ensures r.Some? ==> r.value <= |l.elems|
  {
    if i >= 0 && i <= |l.elems| then Some(i)
    else if i < 0 && -(i as int) <= |l.elems| then Some(|l.elems| + i)
    else Nothing
  }

  /** A full list read at index `length`: `dyn_list_get` copies from, and
      `dyn_list_get_ref` points at, the slot just past the allocation. */
  lemma GetPastEnd()
    ensures GetAsWritten(ListV([Int(7)], 1), 1, Root(0)) == Overrun
    ensures GetRefAsWritten(ListV([Int(7)], 1), 1) == Some(1)
    ensures 1 >= ListV([Int(7)], 1).space
  {
  }

  /** `dyn_list_get` with the bound `i < length`. */
  function Get(l: ListV, i: int16, to: Loc): (r: Fetched)
    requires ListOk(l)
    ensures !r.Overrun?
    ensures |l.elems| < 0x8000 ==> (r.Fetched? <==> -|l.elems| <= i < |l.elems|)
    ensures r.Fetched? ==> r.value == Copy(l.elems[if i >= 0 then i else |l.elems| + i], to)
  {
    var len := Short(|l.elems|);
    if i >= 0 then
      if i < len then Fetched(Copy(l.elems[i], to)) else Missing
    else if -(i as int) <= len then Fetched(Copy(l.elems[len + i], to))
    else Missing
  }

  /** `dyn_list_get_ref` with the bound `i < length`. */
  function GetRef(l: ListV, i: int16): (r: Option<nat>)
    requires ListOk(l)
    ensures r.Some? <==> -|l.elems| <= i < |l.elems|
    ensures r.Some? ==> r.value < |l.elems| && (r.value == i || r.value == |l.elems| + i)
  {
    if i >= 0 && i < |l.elems| then Some(i)
    else if i < 0 && -(i as int) <= |l.elems| then Some(|l.elems| + i)
    else Nothing
  }

  /** The length goes through `ss_short`, so a list of 32768 elements or more
      cannot be read with `dyn_list_get` at all. */
  lemma GetLongList(l: ListV, i: int16, to: Loc)
    requires ListOk(l) && |l.elems| >= 0x8000
    ensures Get(l, i, to) == Missing
  {
  }

  // ---------------------------------------------------------------------------
  // The list scenario of the string test
  // ---------------------------------------------------------------------------

  /** Three pushes onto `DYN_SET_LIST`, a copy of the result pushed as one
      more element, then a pop: the list is back to three elements and the
      popped list has three. */
  lemma PushCopyPopScenario(at: Loc, other: Loc)
    ensures
      var l0 := SetListLen(LIST_DEFAULT);
      var l1 := Push(Push(Push(l0, Int(33), at), Int(33), at), Str("123456"), at);
      var c := Copy(List(l1), other);
      var l2 := Push(l1, c, at);
      var p := Pop(l2, other);
      && Length(List(l1), map[]) == 3 && Length(c, map[]) == 3
      && Length(List(l2), map[]) == 4
      && Length(List(p.list), map[]) == 3 && Length(p.out, map[]) == 3
  {
  }
}

=== FILE: ops.dfy ===
/** The arithmetic, logical and bitwise operators of dynamic_op.c. An
    operator evaluates at the higher-priority type of its two operands and
    leaves its result in the first one. A first operand that is a reference
    is first replaced by a copy of its target (stored at `at`); the second
    is read through one reference. A failing operator frees its first
    operand, leaving NONE. */
module Ops {
  import opened CString
  import opened Values
  import opened Dynamic
  import opened Compare
  import opened Bits
  import Lists

  // ---------------------------------------------------------------------------
  // Operands
  // ---------------------------------------------------------------------------

  /** `CHECK_COPY_REFERENCE`: a REFERENCE2 is treated as a REFERENCE, and a
      reference is replaced by a copy of what it points at. */
  function CheckCopy(x: Value, h: Heap, at: Loc): (r: Value)
    ensures !r.Ref?
    ensures !IsRef(x) ==> r == x
    ensures !Deref(x, h).Ref? ==> Tag(r) == Tag(Deref(x, h))
  {
    match x
    case Ref(t) => Copy(t, at)
    case Ref2(l) => Copy(Dict(Target(h, l)), at)
    case _ => x
  }

  predicate Fits(n: int) {
    INT32_MIN <= n < 0x8000_0000
  }

  /** Both operands present and the higher type at most INTEGER: the branch
      that computes on `dyn_get_int`. */
  predicate IntBranch(a: Value, b: Value) {
    !a.None? && !b.None? && MaxType(a, b) <= INTEGER
  }

  predicate FloatBranch(a: Value, b: Value) {
    !a.None? && !b.None? && MaxType(a, b) == FLOAT
  }

  /** A list or set that receives `k` more elements keeps its 16-bit counters. */
  predicate Room(v: Value, k: nat) {
    (v.List? || v.Set?) ==> ListOk(v.l) && |v.l.elems| + k + LIST_DEFAULT < 0x1_0000
  }

  // ---------------------------------------------------------------------------
  // C integer division
  // ---------------------------------------------------------------------------

  function Abs(n: int): nat {
    if n < 0 then -n else n
  }

  /** C's `/`: the quotient truncated toward zero. */
  function CDiv(p: int, q: int): (r: int)
    requires q != 0
    ensures Abs(r) * Abs(q) <= Abs(p) < (Abs(r) + 1) * Abs(q)
    ensures r == 0 || ((r < 0) <==> ((p < 0) != (q < 0)))
  {
    var d := Abs(p) / Abs(q);
    NatQuotient(Abs(p), Abs(q));
    var r := if (p < 0) != (q < 0) then -d else d;
    QuotientBounds(p, q, r);
    r
  }

  lemma NatQuotient(n: nat, m: nat)
    requires m > 0
    ensures n / m >= 0
  {
  }

  lemma QuotientBounds(p: int, q: int, r: int)
    requires q != 0 && Abs(r) == Abs(p) / Abs(q)
    ensures Abs(r) * Abs(q) <= Abs(p) < (Abs(r) + 1) * Abs(q)
  {
    TruncBounds(Abs(p), Abs(q));
  }

  lemma TruncBounds(n: nat, m: nat)
    requires m > 0
    ensures (n / m) * m <= n < (n / m + 1) * m
  {
    assert n == (n / m) * m + n % m;
  }

  /** C's `%`: the remainder that goes with `CDiv`, taking the dividend's sign. */
  function CRem(p: int, q: int): (r: int)
    requires q != 0
    ensures p == CDiv(p, q) * q + r
    ensures Abs(r) < Abs(q)
    ensures r == 0 || ((r < 0) <==> (p < 0))
  {
    CRemMagnitude(p, q);
    p - CDiv(p, q) * q
  }

  lemma CRemMagnitude(p: int, q: int)
    requires q != 0
    ensures var r := p - CDiv(p, q) * q;
      r == if p < 0 then -(Abs(p) % Abs(q)) else Abs(p) % Abs(q)
  {
    var d := Abs(p) / Abs(q);
    var m := Abs(p) % Abs(q);
    var c := CDiv(p, q);
    assert Abs(p) == d * Abs(q) + m;
    if q < 0 {
      assert d * q == -(d * Abs(q));
    }
    if (p < 0) != (q < 0) {
      assert c == -d;
      assert c * q == -(d * q);
    } else {
      assert c == d;
    }
  }

  // ---------------------------------------------------------------------------
  // dyn_op_neg
  // ---------------------------------------------------------------------------

  /** `dyn_op_neg`: logical negation of a boolean, arithmetic negation of a
      number; every other operand fails. */
  function Neg(x: Value, h: Heap, at: Loc): (r: Done)
    requires CheckCopy(x, h, at).Int? ==> CheckCopy(x, h, at).i != INT32_MIN
    ensures var a := CheckCopy(x, h, at);
      && (r.ok <==> Number(a))
      && (a.Bool? ==> r.value.Bool? && r.value.b != a.b)
      && (a.Int? ==> r.value.Int? && r.value.i + a.i == 0)
      && (a.Float? ==> r.value.Float? && r.value.f + a.f == 0.0)
    ensures !r.ok ==> r == Failed
  {
    match CheckCopy(x, h, at)
    case Bool(b) => Done(Bool(!b), true)
    case Int(i) => Done(Int(-i), true)
    case Float(f) => Done(Float(-f), true)
    case _ => Failed
  }

  /** The type an arithmetic result takes: the higher of the two, with
      booleans computed as integers. */
  function Promoted(a: Value, b: Value): nat {
    if MaxType(a, b) <= INTEGER then INTEGER else MaxType(a, b)
  }

  predicate Number(v: Value) {
    v.Bool? || v.Int? || v.Float?
  }

  // ---------------------------------------------------------------------------
  // dyn_op_add
  // ---------------------------------------------------------------------------

  /** The preconditions of `dyn_op_add`: no signed overflow, no counter
      wrap in the list or set that grows. */
  predicate AddOk(x: Value, y: Value, h: Heap, at: Loc) {
    var a := CheckCopy(x, h, at);
    var b := Deref(y, h);
    && (IntBranch(a, b) ==> Fits(GetInt(a) + GetInt(b)))
    && Room(a, if a.Set? && b.Set? then |b.l.elems| else 1)
    && Room(b, 1)
  }

  /** `dyn_set_insert` of each element of `es` in turn. */
  function Union(s: ListV, es: seq<Value>, h: Heap, at: Loc): (r: ListV)
    requires ListOk(s) && |s.elems| + |es| + LIST_DEFAULT < 0x1_0000
    ensures ListOk(r) && |s.elems| <= |r.elems| <= |s.elems| + |es|
    ensures r.elems[..|s.elems|] == s.elems
    decreases |es|
  {
    if es == [] then s
    else
      var next := SetInsert(s, es[0], h, at).after;
      var r := Union(next, es[1..], h, at);
      assert r.elems[..|s.elems|] == next.elems[..|next.elems|][..|s.elems|];
      r
  }

  /** `dyn_op_add`. Numbers add; if either side is a string the renderings
      are concatenated; a list gets the other operand appended (a list added
      to a list is nested, not spliced) or prepended; a set gets the other
      operand, or every element of another set, inserted; dicts and every
      other type fail. */
  function Add(x: Value, y: Value, h: Heap, at: Loc): (r: Done)
    requires AddOk(x, y, h, at)
    ensures var a := CheckCopy(x, h, at); var b := Deref(y, h);
      && (r.ok <==> !a.None? && !b.None? && MaxType(a, b) <= SET)
      && (r.ok ==> Tag(r.value) == Promoted(a, b))
    ensures !r.ok ==> r == Failed
  {
    var a := CheckCopy(x, h, at);
    var b := Deref(y, h);
    if a.None? || b.None? then Failed
    else
      var t := MaxType(a, b);
      if t <= INTEGER then Done(Int(GetInt(a) + GetInt(b)), true)
      else if t == FLOAT then Done(Float(GetFloat(a) + GetFloat(b)), true)
      else if t == STRING then Done(Str(Render(a, h) + Render(b, h)), true)
      else if t == LIST then
        if a.List? then Done(List(Lists.Push(a.l, b, at)), true)
        else Done(List(Lists.Inserted(Copy(b, at).l, a, 0, at).list), true)
      else if t == SET then
        if a.Set? && b.Set? then Done(Set(Union(a.l, b.l.elems, h, at)), true)
        else if a.Set? then Done(Set(SetInsert(a.l, b, h, at).after), true)
        else Done(Set(SetInsert(Copy(b, at).l, a, h, at).after), true)
      else Failed
  }

  // ---------------------------------------------------------------------------
  // dyn_op_sub
  // ---------------------------------------------------------------------------

  predicate SubOk(x: Value, y: Value, h: Heap, at: Loc) {
    var a := CheckCopy(x, h, at);
    var b := Deref(y, h);
    IntBranch(a, b) ==> Fits(GetInt(a) - GetInt(b))
  }

  /** Remove the element `search` finds for `e`, if any. */
  function RemoveFound(l: ListV, e: Value, h: Heap, at: Loc): (r: ListV)
    ensures r.space == l.space && |l.elems| - 1 <= |r.elems| <= |l.elems|
  {
    var pos := Search(Set(l), e, h);
    if pos != 0 then Lists.Removed(l, pos - 1, at) else l
  }

  /** `RemoveFound` for each element of `es` in turn. */
  function Without(l: ListV, es: seq<Value>, h: Heap, at: Loc): (r: ListV)
    ensures r.space == l.space && |r.elems| <= |l.elems|
    decreases |es|
  {
    if es == [] then l else Without(RemoveFound(l, es[0], h, at), es[1..], h, at)
  }

  /** `dyn_op_sub`. Numbers subtract; from a set the element equal to the
      other operand, or each element of another set, is removed (and a
      set on the right is the one removed from); every other type fails. */
  function Sub(x: Value, y: Value, h: Heap, at: Loc): (r: Done)
    requires SubOk(x, y, h, at)
    ensures var a := CheckCopy(x, h, at); var b := Deref(y, h);
      && (r.ok <==> !a.None? && !b.None? && (MaxType(a, b) <= FLOAT || MaxType(a, b) == SET))
      && (r.ok ==> Tag(r.value) == Promoted(a, b))
    ensures !r.ok ==> r == Failed
  {
    var a := CheckCopy(x, h, at);
    var b := Deref(y, h);
    if a.None? || b.None? then Failed
    else
      var t := MaxType(a, b);
      if t <= INTEGER then Done(Int(GetInt(a) - GetInt(b)), true)
      else if t == FLOAT then Done(Float(GetFloat(a) - GetFloat(b)), true)
      else if t == SET then
        if a.Set? && b.Set? then Done(Set(Without(a.l, b.l.elems, h, at)), true)
        else if a.Set? then Done(Set(RemoveFound(a.l, b, h, at)), true)
        else Done(Set(RemoveFound(Copy(b, at).l, a, h, at)), true)
      else Failed
  }

  // ---------------------------------------------------------------------------
  // dyn_op_mul
  // ---------------------------------------------------------------------------

  /** `n` copies of `s` one after the other. */
  function Repeat(s: Text, n: nat): (r: Text)
    ensures |r| == |s| * n
  {
    if n == 0 then [] else s + Repeat(s, n - 1)
  }

  /** The string branch of `dyn_op_mul` with the count already in 16 bits.
      A count of 0 gives the empty string and 1 keeps the string. From 2 on,
      the C takes the length from `ss_strlen`, a 16-bit counter, and repeats
      only that many leading characters. */
  function StrTimes(s: Text, n: ushort): (r: Text)
    ensures n == 0 ==> r == []
    ensures n == 1 ==> r == s
    ensures n >= 2 ==> |r| == Width16(|s|) * n
    ensures n >= 2 ==> forall k :: 0 <= k < |r| ==> r[k] == s[k % Width16(|s|)]
  {
    if n == 0 then []
    else if n == 1 then s
    else
      var t := s[..Width16(|s|)];
      RepeatFrom(t, n);
      Repeat(t, n)
  }

  /** `RepeatAt` for every position at once. */
  lemma RepeatFrom(s: Text, n: nat)
    ensures forall k :: 0 <= k < |s| * n ==> Repeat(s, n)[k] == s[k % |s|]
  {
    forall k | 0 <= k < |s| * n
      ensures Repeat(s, n)[k] == s[k % |s|]
    {
      RepeatAt(s, n, k);
    }
  }

  /** Character `k` of a repetition is character `k mod |s|` of `s`. */
  lemma {:induction false} RepeatAt(s: Text, n: nat, k: nat)
    requires k < |s| * n
    ensures Repeat(s, n)[k] == s[k % |s|]
  {
    var m := |s|;
    assert m * n == m + m * (n - 1);
    if k >= m {
      RepeatAt(s, n - 1, k - m);
      DivModUnique(k, m, (k - m) / m + 1, (k - m) % m);
    } else {
      DivModUnique(k, m, 0, k);
    }
  }

  /** The elements of a list multiplied by `n`: the originals followed by
      copies pushed from the front, each copy landing in its own slot. */
  function RepeatElems(e: seq<Value>, n: nat, at: Loc): (r: seq<Value>)
    ensures |r| == |e| * n
  {
    if |e| == 0 then []
    else
      seq(|e| * n, k requires 0 <= k < |e| * n =>
        if k < |e| then e[k] else Copy(e[k % |e|], Slot(at, k)))
  }

  predicate MulOk(x: Value, y: Value, h: Heap, at: Loc) {
    var a := CheckCopy(x, h, at);
    var b := Deref(y, h);
    && (IntBranch(a, b) ==> Fits(GetInt(a) * GetInt(b)))
    && (a.Int? && b.List? ==> |b.l.elems| * Width16(a.i) < 0x1_0000)
    && (a.List? && b.Int? ==> |a.l.elems| * Width16(b.i) < 0x1_0000)
  }

  /** The list branch of `dyn_op_mul` with the count already in 16 bits. */
  function MulList(l: ListV, n: ushort, at: Loc): (r: ListV)
    requires |l.elems| * n < 0x1_0000
    ensures n == 0 ==> r == ListV([], 1)
    ensures n != 0 ==> |r.elems| == |l.elems| * n == r.space
  {
    if n == 0 then ListV([], 1) else ListV(RepeatElems(l.elems, n, at), |l.elems| * n)
  }

  /** `dyn_op_mul`. Numbers multiply; a string or list times an integer is
      repeated that many times, the count taken as an unsigned 16-bit
      number; every other combination fails. */
  function Mul(x: Value, y: Value, h: Heap, at: Loc): (r: Done)
    requires MulOk(x, y, h, at)
    ensures var a := CheckCopy(x, h, at); var b := Deref(y, h);
      && (r.ok <==>
            (!a.None? && !b.None? &&
             (MaxType(a, b) <= FLOAT ||
              (a.Int? && (b.Str? || b.List?)) || (b.Int? && (a.Str? || a.List?)))))
      && (r.ok ==> Tag(r.value) == Promoted(a, b))
    ensures !r.ok ==> r == Failed
  {
    var a := CheckCopy(x, h, at);
    var b := Deref(y, h);
    if a.None? || b.None? then Failed
    else
      var t := MaxType(a, b);
      if t <= INTEGER then Done(Int(GetInt(a) * GetInt(b)), true)
      else if t == FLOAT then Done(Float(GetFloat(a) * GetFloat(b)), true)
      else if t == STRING then
        if a.Int? && b.Str? then Done(Str(StrTimes(b.s, Width16(a.i))), true)
        else if a.Str? && b.Int? then Done(Str(StrTimes(a.s, Width16(b.i))), true)
        else Failed
      else if t == LIST then
        if a.Int? && b.List? then Done(List(MulList(Copy(b, at).l, Width16(a.i), at)), true)
        else if a.List? && b.Int? then Done(List(MulList(a.l, Width16(b.i), at)), true)
        else Failed
      else Failed
  }

  // ---------------------------------------------------------------------------
  // dyn_op_div, dyn_op_mod
  // ---------------------------------------------------------------------------

  predicate DivOk(x: Value, y: Value, h: Heap, at: Loc) {
    var a := CheckCopy(x, h, at);
    var b := Deref(y, h);
    && (IntBranch(a, b) ==> GetInt(b) != 0 && Fits(CDivOr0(GetInt(a), GetInt(b))))
    && (FloatBranch(a, b) ==> GetFloat(b) != 0.0)
  }

  function CDivOr0(p: int, q: int): int {
    if q == 0 then 0 else CDiv(p, q)
  }

  /** `dyn_op_div`: integer division truncates toward zero; at FLOAT the
      division is exact. Every other type fails. */
  function Div(x: Value, y: Value, h: Heap, at: Loc): (r: Done)
    requires DivOk(x, y, h, at)
    ensures var a := CheckCopy(x, h, at); var b := Deref(y, h);
      && (r.ok <==> IntBranch(a, b) || FloatBranch(a, b))
      && (IntBranch(a, b) ==>
            r.value.Int? && r.value.i * GetInt(b) + CRem(GetInt(a), GetInt(b)) == GetInt(a))
      && (FloatBranch(a, b) ==> r.value.Float? && r.value.f * GetFloat(b) == GetFloat(a))
    ensures !r.ok ==> r == Failed
  {
    var a := CheckCopy(x, h, at);
    var b := Deref(y, h);
    if a.None? || b.None? then Failed
    else
      var t := MaxType(a, b);
      if t <= INTEGER then
        var p, d := GetInt(a), GetInt(b);
        var q := CDiv(p, d);
        var m := CRem(p, d);
        assert p == q * d + m;
        Done(Int(q), true)
      else if t == FLOAT then
        QuotientTimes(GetFloat(a), GetFloat(b));
        Done(Float(GetFloat(a) / GetFloat(b)), true)
      else Failed
  }

  lemma QuotientTimes(p: real, q: real)
    requires q != 0.0
    ensures (p / q) * q == p
  {
  }

  /** Dividing twice is dividing by the product. */
  lemma DivideTwice(p: real, q: real, s: real)
    requires q != 0.0 && s != 0.0
    ensures (p / q) / s == p / (q * s)
  {
  }

  predicate ModOk(x: Value, y: Value, h: Heap, at: Loc) {
    var a := CheckCopy(x, h, at);
    var b := Deref(y, h);
    !a.None? && !b.None? && MaxType(a, b) <= FLOAT ==>
      && GetInt(b) != 0 && Fits(GetInt(a)) && Fits(GetInt(b))
      && !(GetInt(a) == INT32_MIN && GetInt(b) == -1)
  }

  /** `dyn_op_mod`: the C remainder of the two values as integers, at BOOL,
      INTEGER and FLOAT alike (so floats are truncated first). */
  function Mod(x: Value, y: Value, h: Heap, at: Loc): (r: Done)
    requires ModOk(x, y, h, at)
    ensures var a := CheckCopy(x, h, at); var b := Deref(y, h);
      && (r.ok <==> !a.None? && !b.None? && MaxType(a, b) <= FLOAT)
      && (r.ok ==> r.value.Int? && r.value.i == CRem(GetInt(a), GetInt(b)))
    ensures !r.ok ==> r == Failed
  {
    var a := CheckCopy(x, h, at);
    var b := Deref(y, h);
    if a.None? || b.None? then Failed
    else if MaxType(a, b) <= FLOAT then
      var q := CRem(GetInt(a), GetInt(b));
      Done(Int(q), true)
    else Failed
  }

  // ---------------------------------------------------------------------------
  // dyn_op_pow
  // ---------------------------------------------------------------------------

  function IntPow(b: int, e: nat): int {
    if e == 0 then 1 else b * IntPow(b, e - 1)
  }

  function RealPow(b: real, e: nat): real {
    if e == 0 then 1.0 else b * RealPow(b, e - 1)
  }

  /** `while (--e) acc *= base;` entered with `e - 1` rounds to go. */
  function MulLoop(acc: int, base: int, k: nat): int
    decreases k
  {
    if k == 0 then acc else MulLoop(acc * base, base, k - 1)
  }

  function MulLoopReal(acc: real, base: real, k: nat): real
    decreases k
  {
    if k == 0 then acc else MulLoopReal(acc * base, base, k - 1)
  }

  /** `--e; while (e++) acc /= base;` runs `1 - e` rounds. */
  function DivLoop(acc: real, base: real, k: nat): real
    requires base != 0.0
    decreases k
  {
    if k == 0 then acc else DivLoop(acc / base, base, k - 1)
  }

  predicate PowOk(x: Value, y: Value, h: Heap, at: Loc) {
    var a := CheckCopy(x, h, at);
    var b := Deref(y, h);
    && (a.Int? && b.Int? && b.i > 0 ==> Fits(IntPow(a.i, b.i)))
    && ((a.Int? || a.Float?) && b.Int? && b.i <= 0 ==> GetFloat(a) != 0.0)
  }

  /** `dyn_op_pow`. A float exponent goes to `fast_approx_pow`, which is a
      parameter here. An integer exponent is applied by repeated
      multiplication when positive; otherwise the base becomes a float that
      is divided by itself `1 - e` times. */
  function Pow(x: Value, y: Value, h: Heap, at: Loc, approx: (real, real) -> real): (r: Done)
    requires PowOk(x, y, h, at)
    ensures var a := CheckCopy(x, h, at); var b := Deref(y, h);
      && (r.ok <==>
            (!a.None? && !b.None? &&
             ((Tag(a) <= FLOAT && b.Float?) || (b.Int? && (a.Int? || a.Float?)))))
      && (a.Int? && b.Int? && b.i > 0 ==> r.value == Int(IntPow(a.i, b.i)))
      && (a.Float? && b.Int? && b.i > 0 ==> r.value == Float(RealPow(a.f, b.i)))
      && ((a.Int? || a.Float?) && b.Int? && b.i <= 0 ==>
            r.value.Float? && r.value.f * RealPow(GetFloat(a), -(b.i as int)) == 1.0)
    ensures !r.ok ==> r == Failed
  {
    var a := CheckCopy(x, h, at);
    var b := Deref(y, h);
    if a.None? || b.None? then Failed
    else if Tag(a) <= FLOAT && b.Float? then Done(Float(approx(GetFloat(a), b.f)), true)
    else if b.Int? && (a.Int? || a.Float?) then Done(PowInt(a, b.i), true)
    else Failed
  }

  /** The integer-exponent branches of `dyn_op_pow`: repeated multiplication
      for a positive exponent, and otherwise the base as a float divided by
      itself `1 - e` times. */
  function PowInt(a: Value, e: int32): (r: Value)
    requires a.Int? || a.Float?
    requires a.Int? && e > 0 ==> Fits(IntPow(a.i, e))
    requires e <= 0 ==> GetFloat(a) != 0.0
    ensures a.Int? && e > 0 ==> r == Int(IntPow(a.i, e))
    ensures a.Float? && e > 0 ==> r == Float(RealPow(a.f, e))
    ensures e <= 0 ==> r.Float? && r.f * RealPow(GetFloat(a), -(e as int)) == 1.0
  {
    if a.Int? then
      if e > 0 then
        MulLoopPow(a.i, a.i, e - 1);
        Int(MulLoop(a.i, a.i, e - 1))
      else
        DivLoopPow(a.i as real, -(e as int));
        Float(DivLoop(a.i as real, a.i as real, 1 - e))
    else
      if e > 0 then
        MulLoopRealPow(a.f, a.f, e - 1);
        Float(MulLoopReal(a.f, a.f, e - 1))
      else
        DivLoopPow(a.f, -(e as int));
        Float(DivLoop(a.f, a.f, 1 - e))
  }

  lemma {:induction false} MulLoopPow(acc: int, base: int, k: nat)
    ensures MulLoop(acc, base, k) == acc * IntPow(base, k)
    decreases k
  {
    if k > 0 {
      MulLoopPow(acc * base, base, k - 1);
      assert IntPow(base, k) == base * IntPow(base, k - 1);
    }
  }

  lemma {:induction false} MulLoopRealPow(acc: real, base: real, k: nat)
    ensures MulLoopReal(acc, base, k) == acc * RealPow(base, k)
    decreases k
  {
    if k > 0 {
      MulLoopRealPow(acc * base, base, k - 1);
    }
  }

  lemma {:induction false} RealPowNonZero(b: real, k: nat)
    requires b != 0.0
    ensures RealPow(b, k) != 0.0
  {
    if k > 0 {
      RealPowNonZero(b, k - 1);
    }
  }

  lemma {:induction false} DivLoopClosed(acc: real, base: real, k: nat)
    requires base != 0.0
    ensures RealPow(base, k) != 0.0 && DivLoop(acc, base, k) == acc / RealPow(base, k)
    decreases k
  {
    RealPowNonZero(base, k);
    if k > 0 {
      var rest := RealPow(base, k - 1);
      RealPowNonZero(base, k - 1);
      DivLoopClosed(acc / base, base, k - 1);
      assert DivLoop(acc, base, k) == (acc / base) / rest;
      DivideTwice(acc, base, rest);
      assert RealPow(base, k) == base * rest;
    }
  }

  /** The division loop started at the base itself ends at 1 / base^n. */
  lemma DivLoopPow(base: real, n: nat)
    requires base != 0.0
    ensures DivLoop(base, base, n + 1) * RealPow(base, n) == 1.0
  {
    DivLoopClosed(base, base, n + 1);
    RealPowNonZero(base, n);
  }

  // ---------------------------------------------------------------------------
  // dyn_get_bool_3 and the three-valued logic
  // ---------------------------------------------------------------------------

  /** `dyn_get_bool_3`: the truth of a boolean, number, string, list, set or
      dict (read through one reference); every other type is unknown. */
  function GetBool3(x: Value, h: Heap): (r: Trilean)
    ensures r == Unknown <==> var v := Deref(x, h);
      !(Number(v) || v.Str? || v.List? || v.Set? || v.Dict?)
  {
    var v := Deref(x, h);
    match v
    case Bool(b) => if b then True else False
    case Int(i) => if i != 0 then True else False
    case Float(f) => if f != 0.0 then True else False
    case Str(s) => if TextLen(s) != 0 then True else False
    case List(l) => if Width16(|l.elems|) != 0 then True else False
    case Set(l) => if Width16(|l.elems|) != 0 then True else False
    case Dict(d) => if Length(v, h) != 0 then True else False
    case _ => Unknown
  }

  /** The value an operator leaves for a three-valued result. */
  function Truth(t: Trilean): (v: Value)
    ensures t == Unknown <==> v.None?
    ensures t != Unknown ==> v.Bool? && (v.b <==> t == True)
  {
    match t
    case True => SetBool(1)
    case False => SetBool(0)
    case Unknown => None
  }

  /** `dyn_op_and`: both known gives their conjunction, one false gives
      false, anything else frees the operand. */
  function And(x: Value, y: Value, h: Heap): (r: Value)
    ensures r.None? || r.Bool?
    ensures r.None? <==>
      && GetBool3(x, h) != False && GetBool3(y, h) != False
      && (GetBool3(x, h) == Unknown || GetBool3(y, h) == Unknown)
    ensures r.Bool? ==> (r.b <==> GetBool3(x, h) == True && GetBool3(y, h) == True)
  {
    var o1 := GetBool3(x, h);
    var o2 := GetBool3(y, h);
    if o1 != Unknown && o2 != Unknown then SetBool(if o1 == True && o2 == True then 1 else 0)
    else if o1 == False || o2 == False then SetBool(0)
    else None
  }

  /** `dyn_op_or`: both known gives their disjunction, one true gives true,
      anything else frees the operand. */
  function Or(x: Value, y: Value, h: Heap): (r: Value)
    ensures r.None? || r.Bool?
    ensures r.None? <==>
      && GetBool3(x, h) != True && GetBool3(y, h) != True
      && (GetBool3(x, h) == Unknown || GetBool3(y, h) == Unknown)
    ensures r.Bool? ==> (r.b <==> GetBool3(x, h) == True || GetBool3(y, h) == True)
  {
    var o1 := GetBool3(x, h);
    var o2 := GetBool3(y, h);
    if o1 != Unknown && o2 != Unknown then SetBool(if o1 == True || o2 == True then 1 else 0)
    else if o1 == True || o2 == True then SetBool(1)
    else None
  }

  /** `dyn_op_xor`: defined only when both sides are known. */
  function Xor(x: Value, y: Value, h: Heap): (r: Value)
    ensures r.None? || r.Bool?
    ensures r.None? <==> GetBool3(x, h) == Unknown || GetBool3(y, h) == Unknown
    ensures r.Bool? ==> (r.b <==> GetBool3(x, h) != GetBool3(y, h))
  {
    var o1 := GetBool3(x, h);
    var o2 := GetBool3(y, h);
    if o1 != Unknown && o2 != Unknown then SetBool(if o1 == o2 then 0 else 1)
    else None
  }

  /** `dyn_op_not`. */
  function Not(x: Value, h: Heap): (r: Value)
    ensures r.None? <==> GetBool3(x, h) == Unknown
    ensures r.Bool? ==> (r.b <==> GetBool3(x, h) == False)
  {
    var o := GetBool3(x, h);
    if o == True then SetBool(0) else if o == False then SetBool(1) else None
  }

  // ---------------------------------------------------------------------------
  // The bitwise operators, on 32-bit two's complement words
  // ---------------------------------------------------------------------------

  /** `dyn_op_b_not`: the complement of an integer, every bit inverted. */
  function BNot(x: Value, h: Heap, at: Loc): (r: Done)
    ensures r.ok <==> CheckCopy(x, h, at).Int?
    ensures r.ok ==> r.value.Int? && r.value.i == -1 - CheckCopy(x, h, at).i
    ensures !r.ok ==> r == Failed
  {
    var a := CheckCopy(x, h, at);
    if a.Int? then
      Pow2Word();
      NotWord(a.i);
      Done(Int(FromWord(Flip(ToWord(a.i), 32))), true)
    else Failed
  }

  /** Inverting the 32 bits of a word holding `i` holds `-1 - i`. */
  lemma NotWord(i: int32)
    ensures Pow2(32) == 0x1_0000_0000
    ensures FromWord(Flip(ToWord(i), 32)) == -1 - i
  {
    Pow2Word();
    var u := ToWord(i);
    FlipValue(u, 32);
    DivModUnique(u, 0x1_0000_0000, 0, u);
    var f := Flip(u, 32);
    assert f == 0xFFFF_FFFF - u;
    if i < 0 {
      assert f == -1 - i;
    } else {
      assert f == 0xFFFF_FFFF - i;
    }
  }

  /** `dyn_op_b_and`, `dyn_op_b_or`, `dyn_op_b_xor`: both operands must be
      integers, and every bit of the result is the gate applied to the
      same bit of each. */
  function Bitwise(op: BitOp, x: Value, y: Value, h: Heap, at: Loc): (r: Done)
    ensures var a := CheckCopy(x, h, at); var b := Deref(y, h);
      && (r.ok <==> a.Int? && b.Int?)
      && (r.ok ==> r.value.Int?)
      && (r.ok ==> forall j :: 0 <= j < 32 ==>
            BitAt(ToWord(r.value.i), j) == Gate(op, BitAt(ToWord(a.i), j), BitAt(ToWord(b.i), j)))
    ensures !r.ok ==> r == Failed
  {
    var a := CheckCopy(x, h, at);
    var b := Deref(y, h);
    if a.Int? && b.Int? then
      Pow2Word();
      var w := Combine(op, ToWord(a.i), ToWord(b.i), 32);
      EveryBit(op, ToWord(a.i), ToWord(b.i));
      Done(Int(FromWord(w)), true)
    else Failed
  }

  lemma EveryBit(op: BitOp, p: nat, q: nat)
    ensures forall j :: 0 <= j < 32 ==> BitAt(Combine(op, p, q, 32), j) == Gate(op, BitAt(p, j), BitAt(q, j))
  {
    forall j | 0 <= j < 32
      ensures BitAt(Combine(op, p, q, 32), j) == Gate(op, BitAt(p, j), BitAt(q, j))
    {
      CombineBits(op, p, q, 32, j);
    }
  }

  predicate ShiftOk(x: Value, y: Value, h: Heap, at: Loc) {
    var a := CheckCopy(x, h, at);
    var b := Deref(y, h);
    a.Int? && b.Int? ==> 0 <= b.i < 32 && 0 <= a.i && a.i * Pow2(b.i) < 0x8000_0000
  }

  /** `dyn_op_b_shift_l`. C defines `a << j` only for a non-negative `a`
      whose product with 2^j is representable, and then it is that product. */
  function ShiftLeft(x: Value, y: Value, h: Heap, at: Loc): (r: Done)
    requires ShiftOk(x, y, h, at)
    ensures var a := CheckCopy(x, h, at); var b := Deref(y, h);
      && (r.ok <==> a.Int? && b.Int?)
      && (r.ok ==> r.value.Int? && r.value.i % Pow2(b.i) == 0 && r.value.i / Pow2(b.i) == a.i)
    ensures !r.ok ==> r == Failed
  {
    var a := CheckCopy(x, h, at);
    var b := Deref(y, h);
    if a.Int? && b.Int? then
      var p := a.i * Pow2(b.i);
      DivModUnique(p, Pow2(b.i), a.i, 0);
      Done(Int(p), true)
    else Failed
  }

  /** `dyn_op_b_shift_r`: an arithmetic shift, which is division by 2^j
      rounded toward minus infinity (negative operands included). */
  function ShiftRight(x: Value, y: Value, h: Heap, at: Loc): (r: Done)
    requires Deref(y, h).Int? ==> 0 <= Deref(y, h).i < 32
    ensures var a := CheckCopy(x, h, at); var b := Deref(y, h);
      && (r.ok <==> a.Int? && b.Int?)
      && (r.ok ==> r.value.Int?)
      && (r.ok ==> r.value.i * Pow2(b.i) <= a.i < (r.value.i + 1) * Pow2(b.i))
    ensures !r.ok ==> r == Failed
  {
    var a := CheckCopy(x, h, at);
    var b := Deref(y, h);
    if a.Int? && b.Int? then
      FloorBounds(a.i, Pow2(b.i));
      Done(Int(a.i / Pow2(b.i)), true)
    else Failed
  }

  lemma FloorBounds(n: int32, m: nat)
    requires m > 0
    ensures (n / m) * m <= n < (n / m + 1) * m
    ensures INT32_MIN <= n / m < 0x8000_0000
  {
    assert n == (n / m) * m + n % m;
    MulMono(m, 1, n / m);
    MulMono(m, n / m, -1);
  }
}

=== FILE: ops_facts.dfy ===
/** What the arithmetic, logical and bitwise operators of dynamic_op.c
    compute, stated against independent definitions: inverses, closed
    forms, the Kleene tables, and the documented examples. */
module OpsFacts {
  import opened CString
  import opened Values
  import opened Dynamic
  import opened Compare
  import opened Bits
  import opened Ops
  import Lists
  import CopyFacts
  import CompareFacts

  // ---------------------------------------------------------------------------
  // neg
  // ---------------------------------------------------------------------------

  /** Negating a boolean or number twice gives it back. */
  lemma NegTwice(v: Value, h: Heap, at: Loc)
    requires Number(v) && (v.Int? ==> v.i != INT32_MIN)
    ensures Neg(v, h, at).ok && Neg(Neg(v, h, at).value, h, at) == Done(v, true)
  {
  }

  /** Strings and containers are not negated: the operand becomes NONE. */
  lemma NegOthers(v: Value, h: Heap, at: Loc)
    requires v.Str? || v.List? || v.Set?
    ensures Neg(v, h, at) == Failed
  {
  }

  // ---------------------------------------------------------------------------
  // add
  // ---------------------------------------------------------------------------

  /** Adding a list to a list nests it: the result holds one more element,
      the copy of the second list. */
  lemma ListsNest(l: ListV, m: ListV, h: Heap, at: Loc)
    requires Room(List(l), 1) && Room(List(m), 1)
    ensures var r := Add(List(l), List(m), h, at);
      && r.ok && r.value.List?
      && r.value.l.elems == l.elems + [Copy(List(m), Slot(at, |l.elems|))]
      && r.value.l.elems[|l.elems|].List?
      && |r.value.l.elems[|l.elems|].l.elems| == |m.elems|
  {
    var p := Lists.Push(l, List(m), at);
    assert p.elems == p.elems[..|l.elems|] + [p.elems[|l.elems|]];
  }

  /** A value of lower type added to a list is put in front of its
      elements. */
  lemma AddPrepends(v: Value, s: seq<Value>, h: Heap, at: Loc)
    requires !v.None? && !IsRef(v) && Tag(v) < LIST && |s| + 1 + LIST_DEFAULT < 0x1_0000
    requires Plain(s) && forall i :: 0 <= i < |s| ==> !s[i].List? && !s[i].Set? && !s[i].Function?
    ensures Add(v, List(ListV(s, |s|)), h, at) == Done(List(ListV([v] + s, |s| + LIST_DEFAULT)), true)
  {
    var x := List(ListV(s, |s|));
    CopyPlain(s, at, 0);
    assert Copy(x, at) == x;
    AddIntoList(v, x.l, h, at);
    Lists.RelocatePlain(s, at, 1);
    assert s[..0] == [] && s[0..] == s;
    assert Move(v, Slot(at, 0)) == v;
    assert Lists.Inserted(x.l, v, 0, at).list.elems == [v] + s;
  }

  /** Adding a value of lower type to a list takes the insert-at-front
      branch, on a copy of the list. */
  lemma AddIntoList(v: Value, l: ListV, h: Heap, at: Loc)
    requires !v.None? && !IsRef(v) && Tag(v) < LIST && AddOk(v, List(l), h, at)
    ensures Add(v, List(l), h, at) == Done(List(Lists.Inserted(Copy(List(l), at).l, v, 0, at).list), true)
  {
    assert MaxType(v, List(l)) == LIST;
  }

  predicate Plain(s: seq<Value>) {
    Lists.Plain(s)
  }

  /** Copying values that own nothing nested leaves them as they are. */
  lemma {:induction false} CopyPlain(s: seq<Value>, at: Loc, k: nat)
    requires Plain(s) && forall i :: 0 <= i < |s| ==> !s[i].List? && !s[i].Set? && !s[i].Function?
    ensures CopyElems(s, at, k) == s
    decreases |s|
  {
    if s != [] {
      assert forall i :: 1 <= i < |s| ==> s[1..][i - 1] == s[i];
      CopyPlain(s[1..], at, k + 1);
      assert s == [s[0]] + s[1..];
    }
  }

  /** The example of the header: a string appended to and prepended to a
      list of integers. */
  lemma AddListDocExample(h: Heap, at: Loc)
    ensures var l := List(ListV([Int(1), Int(2), Int(3)], 3));
      && Add(l, Str("test"), h, at) ==
           Done(List(ListV([Int(1), Int(2), Int(3), Str("test")], 3 + LIST_DEFAULT)), true)
      && Add(Str("test"), l, h, at) ==
           Done(List(ListV([Str("test"), Int(1), Int(2), Int(3)], 3 + LIST_DEFAULT)), true)
  {
    var s := [Int(1), Int(2), Int(3)];
    AddPrepends(Str("test"), s, h, at);
    assert [Str("test")] + s == [Str("test"), Int(1), Int(2), Int(3)];
    AppendString(ListV(s, 3), "test", h, at);
    assert s + [Str("test")] == [Int(1), Int(2), Int(3), Str("test")];
  }

  /** A string added to a full list is pushed after its elements, and the
      list grows by LIST_DEFAULT slots. */
  lemma AppendString(l: ListV, t: Text, h: Heap, at: Loc)
    requires |l.elems| == l.space && |l.elems| + 1 + LIST_DEFAULT < 0x1_0000
    ensures Add(List(l), Str(t), h, at) == Done(List(ListV(l.elems + [Str(t)], l.space + LIST_DEFAULT)), true)
  {
    assert MaxType(List(l), Str(t)) == LIST;
    var p := Lists.Push(l, Str(t), at);
    assert Add(List(l), Str(t), h, at) == Done(List(p), true);
    assert p.elems == p.elems[..|l.elems|] + [p.elems[|l.elems|]];
  }

  /** Dicts cannot be added, not even to each other. */
  lemma DictAddFails(d: DictV, e: DictV, v: Value, h: Heap, at: Loc)
    requires Room(Deref(v, h), 1)
    ensures Add(Dict(d), Dict(e), h, at) == Failed
    ensures Add(Dict(d), v, h, at) == Failed
  {
  }

  /** Adding an integer to a set of fewer than 255 elements twice changes
      nothing the second time. */
  lemma SetAddTwice(s: ListV, k: int32, h: Heap, at: Loc)
    requires ListOk(s) && |s.elems| < 0xFF
    ensures var once := Add(Set(s), Int(k), h, at);
      && once.ok && once.value.Set? && Room(once.value, 1)
      && Add(once.value, Int(k), h, at) == once
  {
    var r := SetInsert(s, Int(k), h, at);
    AddIntToSet(s, k, h, at);
    CompareFacts.InsertIntOnce(s, k, h, at);
    AddIntToSet(r.after, k, h, at);
  }

  /** Adding an integer to a set is the set insertion. */
  lemma AddIntToSet(s: ListV, k: int32, h: Heap, at: Loc)
    requires ListOk(s) && |s.elems| + 1 + LIST_DEFAULT < 0x1_0000
    ensures Lists.CanGrow(s)
    ensures Add(Set(s), Int(k), h, at) == Done(Set(SetInsert(s, Int(k), h, at).after), true)
  {
    assert MaxType(Set(s), Int(k)) == SET;
  }

  /** Subtracting an integer just added to a set that did not hold it gives
      back the original elements. */
  lemma SubUndoesAdd(s: ListV, k: int32, h: Heap, at: Loc)
    requires ListOk(s) && |s.elems| < 0xFF
    requires forall i :: 0 <= i < |s.elems| ==> Cmp(s.elems[i], Int(k), h) != EQ
    ensures var added := Add(Set(s), Int(k), h, at);
      && added.ok && added.value.Set?
      && SubOk(added.value, Int(k), h, at)
      && Sub(added.value, Int(k), h, at).value.l.elems == s.elems
  {
    AddNewToSet(s, k, h, at);
    SubLast(s, k, h, at);
  }

  /** An integer that no element equals is pushed onto the set. */
  lemma AddNewToSet(s: ListV, k: int32, h: Heap, at: Loc)
    requires ListOk(s) && |s.elems| < 0xFF
    requires forall i :: 0 <= i < |s.elems| ==> Cmp(s.elems[i], Int(k), h) != EQ
    ensures Lists.CanGrow(s)
    ensures Add(Set(s), Int(k), h, at) == Done(Set(Lists.Push(s, Int(k), at)), true)
  {
    var e := SetRef(Int(k), h);
    CompareFacts.InSmall(e, s, h);
    assert Deref(e, h) == Int(k);
    assert !In(e, Set(s), h).value.b;
    assert MaxType(Set(s), Int(k)) == SET;
  }

  /** Subtracting the integer just pushed finds it last and removes it. */
  lemma SubLast(s: ListV, k: int32, h: Heap, at: Loc)
    requires ListOk(s) && |s.elems| < 0xFF
    requires forall i :: 0 <= i < |s.elems| ==> Cmp(s.elems[i], Int(k), h) != EQ
    ensures Lists.CanGrow(s)
    ensures var after := Lists.Push(s, Int(k), at);
      SubOk(Set(after), Int(k), h, at) && Sub(Set(after), Int(k), h, at).value.l.elems == s.elems
  {
    var n := |s.elems|;
    var after := Lists.Push(s, Int(k), at);
    assert after.elems[n] == Int(k);
    assert Cmp(Int(k), Int(k), h) == EQ;
    forall j | 0 <= j < n
      ensures Cmp(after.elems[j], Int(k), h) != EQ
    {
      assert after.elems[j] == after.elems[..n][j];
    }
    CompareFacts.SearchLast(after.elems, Int(k), h);
    assert Search(Set(after), Int(k), h) == n + 1;
    assert Sub(Set(after), Int(k), h, at) == Done(Set(Lists.Removed(after, n, at)), true);
    assert after.elems[n + 1..] == [];
  }

  /** Subtracting the integer just added gives the first operand back. */
  lemma AddSubInt(i: int32, j: int32, h: Heap, at: Loc)
    requires Fits(i + j)
    ensures var s := Add(Int(i), Int(j), h, at);
      && s.ok && SubOk(s.value, Int(j), h, at)
      && Sub(s.value, Int(j), h, at) == Done(Int(i), true)
  {
  }

  /** The same for floats, which are exact reals here. */
  lemma AddSubFloat(f: real, g: real, h: Heap, at: Loc)
    ensures var s := Add(Float(f), Float(g), h, at);
      && s.ok && SubOk(s.value, Float(g), h, at)
      && Sub(s.value, Float(g), h, at) == Done(Float(f), true)
  {
  }

  /** A string added to a scalar, on either side, is concatenated with the
      scalar's rendering: two strings are joined, `"n=" + 5` is `"n=5"`. */
  lemma AddStringConcat(s: Text, v: Value, h: Heap, at: Loc)
    requires !v.None? && !IsRef(v) && Tag(v) <= STRING
    ensures Add(Str(s), v, h, at) == Done(Str(s + Render(v, h)), true)
    ensures Add(v, Str(s), h, at) == Done(Str(Render(v, h) + s), true)
  {
  }

  lemma AddStringExample(h: Heap, at: Loc)
    ensures Add(Str("n="), Int(5), h, at) == Done(Str("n=5"), true)
    ensures Add(Str("ab"), Str("cd"), h, at) == Done(Str("abcd"), true)
  {
    AddStringConcat("n=", Int(5), h, at);
    assert Itoa(5) == "5" by {
      assert Digits(5) == [DigitChar(5)];
    }
  }

  // ---------------------------------------------------------------------------
  // mul
  // ---------------------------------------------------------------------------

  /** The example of the header: `3 * "abc"` and `"abc" * 3`. */
  lemma MulDocExample(h: Heap, at: Loc)
    ensures Mul(Int(3), Str("abc"), h, at) == Done(Str("abcabcabc"), true)
    ensures Mul(Str("abc"), Int(3), h, at) == Done(Str("abcabcabc"), true)
  {
    assert StrTimes("abc", 3) == "abcabcabc" by {
      assert "abc"[..Width16(3)] == "abc";
      assert Repeat("abc", 3) == "abcabcabc";
    }
  }

  /** A zero count gives the empty string and a count of 1 keeps the string;
      a negative count is taken as an unsigned 16-bit number, so `"ab" * -1`
      repeats 65535 times, of the first `|s| mod 2^16` characters. */
  lemma MulStringCount(s: Text, h: Heap, at: Loc)
    ensures Mul(Str(s), Int(0), h, at) == Done(Str([]), true)
    ensures Mul(Str(s), Int(1), h, at) == Done(Str(s), true)
    ensures Mul(Str(s), Int(-1), h, at).ok && |Mul(Str(s), Int(-1), h, at).value.s| == Width16(|s|) * 0xFFFF
  {
  }

  /** A string of exactly 2^16 characters has a 16-bit length of 0, so
      multiplying it by 2 leaves the empty string. */
  lemma MulLongStringEmpty(h: Heap, at: Loc)
    ensures var s := seq(0x1_0000, _ => 'a');
      Mul(Str(s), Int(2), h, at) == Done(Str([]), true)
  {
    var s := seq(0x1_0000, _ => 'a');
    assert Width16(|s|) == 0;
  }

  /** Every element of a multiplied list renders like the original element
      it repeats. */
  lemma MulListRender(l: ListV, n: ushort, at: Loc, h: Heap, k: nat)
    requires Wf(List(l)) && 0 < n && |l.elems| * n < 0x1_0000 && k < |l.elems| * n
    ensures var r := MulList(l, n, at);
      Render(r.elems[k], h) == Render(l.elems[k % |l.elems|], h)
  {
    var e := l.elems;
    var r := MulList(l, n, at);
    assert r.elems == RepeatElems(e, n, at);
    if k >= |e| {
      assert r.elems[k] == Copy(e[k % |e|], Slot(at, k));
      assert Wf(e[k % |e|]);
      CopyFacts.CopyRender(e[k % |e|], Slot(at, k), h);
    } else {
      assert r.elems[k] == e[k];
      DivModUnique(k, |e|, 0, k);
    }
  }

  // ---------------------------------------------------------------------------
  // div, mod
  // ---------------------------------------------------------------------------

  /** C's `/` undoes an exact multiplication. */
  lemma CDivExact(i: int, j: int)
    requires j != 0
    ensures CDiv(i * j, j) == i
  {
    var p := i * j;
    assert Abs(p) == Abs(i) * Abs(j) by {
      if i < 0 && j < 0 {
        assert p == (-i) * (-j);
      } else if i < 0 {
        assert -p == (-i) * j;
      } else if j < 0 {
        assert -p == i * (-j);
      }
    }
    DivModUnique(Abs(p), Abs(j), Abs(i), 0);
  }

  /** Dividing the product of two integers by the second gives the first
      back. */
  lemma MulDivInt(i: int32, j: int32, h: Heap, at: Loc)
    requires j != 0 && Fits(i * j)
    ensures var m := Mul(Int(i), Int(j), h, at);
      && m.ok && DivOk(m.value, Int(j), h, at)
      && Div(m.value, Int(j), h, at) == Done(Int(i), true)
  {
    CDivExact(i, j);
  }

  /** The same for floats, dividing by a nonzero second operand. */
  lemma MulDivFloat(f: real, g: real, h: Heap, at: Loc)
    requires g != 0.0
    ensures var m := Mul(Float(f), Float(g), h, at);
      && m.ok && DivOk(m.value, Float(g), h, at)
      && Div(m.value, Float(g), h, at) == Done(Float(f), true)
  {
  }

  /** Integer division and remainder rebuild the dividend, as in C. */
  lemma DivModRebuild(i: int32, j: int32, h: Heap, at: Loc)
    requires j != 0 && !(i == INT32_MIN && j == -1)
    ensures DivOk(Int(i), Int(j), h, at) && ModOk(Int(i), Int(j), h, at)
    ensures Div(Int(i), Int(j), h, at).value.i * j + Mod(Int(i), Int(j), h, at).value.i == i
  {
    var q := Div(Int(i), Int(j), h, at).value.i;
    var m := Mod(Int(i), Int(j), h, at).value.i;
    assert q == CDiv(i, j);
    assert m == CRem(i, j);
  }

  /** Division truncates toward zero and the remainder takes the sign of
      the dividend. */
  lemma DivModSigns(h: Heap, at: Loc)
    ensures Div(Int(-7), Int(2), h, at) == Done(Int(-3), true)
    ensures Mod(Int(-7), Int(2), h, at) == Done(Int(-1), true)
    ensures Mod(Int(7), Int(-2), h, at) == Done(Int(1), true)
  {
    assert CDiv(-7, 2) == -3;
    assert CDiv(7, -2) == -3;
  }

  /** A float operand is truncated before `%`. */
  lemma ModFloatExample(h: Heap, at: Loc)
    ensures Mod(Float(7.5), Int(2), h, at) == Done(Int(1), true)
  {
    assert Trunc(7.5) == 7 by {
      assert 7 as real <= 7.5 < 8 as real;
    }
  }

  // ---------------------------------------------------------------------------
  // pow
  // ---------------------------------------------------------------------------

  /** An integer to a positive integer power stays an integer; to zero or a
      negative power it becomes the reciprocal float. */
  lemma PowExamples(h: Heap, at: Loc, approx: (real, real) -> real)
    ensures Pow(Int(2), Int(10), h, at, approx) == Done(Int(1024), true)
    ensures Pow(Int(2), Int(-2), h, at, approx) == Done(Float(0.25), true)
    ensures Pow(Int(5), Int(0), h, at, approx) == Done(Float(1.0), true)
  {
    assert IntPow(2, 10) == 1024;
    var r := Pow(Int(2), Int(-2), h, at, approx);
    assert RealPow(2.0, 2) == 4.0;
    assert r.value.f * 4.0 == 1.0;
    var z := Pow(Int(5), Int(0), h, at, approx);
    assert z.value.f * RealPow(5.0, 0) == 1.0;
  }
  /** A float exponent goes to the approximation; a string base fails. */
  lemma PowMixedExamples(h: Heap, at: Loc, approx: (real, real) -> real)
    ensures Pow(Int(2), Float(0.5), h, at, approx) == Done(Float(approx(2.0, 0.5)), true)
    ensures Pow(Str("a"), Int(2), h, at, approx) == Failed
  {
  }


  /** The integer power multiplies the base in `e - 1` times, so it agrees
      with the exponent law for a sum of positive exponents. */
  lemma {:induction false} IntPowAdd(b: int, m: nat, n: nat)
    ensures IntPow(b, m + n) == IntPow(b, m) * IntPow(b, n)
  {
    if m > 0 {
      IntPowAdd(b, m - 1, n);
    }
  }

  // ---------------------------------------------------------------------------
  // get_bool_3 and Kleene logic
  // ---------------------------------------------------------------------------

  /** The truth order False < Unknown < True of Kleene's logic. */
  function Rank(t: Trilean): nat {
    match t
    case False => 0
    case Unknown => 1
    case True => 2
  }

  function Meet(p: Trilean, q: Trilean): (r: Trilean)
    ensures Rank(r) <= Rank(p) && Rank(r) <= Rank(q)
    ensures r == p || r == q
  {
    if Rank(p) <= Rank(q) then p else q
  }

  function Join(p: Trilean, q: Trilean): (r: Trilean)
    ensures Rank(r) >= Rank(p) && Rank(r) >= Rank(q)
    ensures r == p || r == q
  {
    if Rank(p) >= Rank(q) then p else q
  }

  function Negation(p: Trilean): (r: Trilean)
    ensures Rank(r) + Rank(p) == 2
  {
    match p
    case False => True
    case Unknown => Unknown
    case True => False
  }

  /** Exclusive or is unknown as soon as one side is. */
  function Differ(p: Trilean, q: Trilean): (r: Trilean)
    ensures r == Unknown <==> p == Unknown || q == Unknown
  {
    if p == Unknown || q == Unknown then Unknown else if p != q then True else False
  }

  /** Where `dyn_get_bool_3` knows the answer, it is `dyn_get_bool`'s. */
  lemma Bool3Agrees(x: Value, h: Heap)
    requires GetBool3(x, h) != Unknown
    ensures GetBool3(x, h) == True <==> GetBool(x, h)
  {
  }

  /** NONE, functions and external data are unknown. */
  lemma Bool3Unknown(x: Value, h: Heap)
    requires x.None? || x.Function? || x.Extern?
    ensures GetBool3(x, h) == Unknown
  {
  }

  /** The truth of what an operator leaves behind. */
  lemma TruthOfBool(c: int, h: Heap)
    ensures GetBool3(SetBool(c), h) == if c % 0x100 != 0 then True else False
  {
  }

  /** `and` is the Kleene meet. */
  lemma AndKleene(x: Value, y: Value, h: Heap)
    ensures GetBool3(And(x, y, h), h) == Meet(GetBool3(x, h), GetBool3(y, h))
  {
    TruthOfBool(0, h);
    TruthOfBool(1, h);
  }

  /** `or` is the Kleene join. */
  lemma OrKleene(x: Value, y: Value, h: Heap)
    ensures GetBool3(Or(x, y, h), h) == Join(GetBool3(x, h), GetBool3(y, h))
  {
    TruthOfBool(0, h);
    TruthOfBool(1, h);
  }

  /** `xor` is known only when both sides are. */
  lemma XorKleene(x: Value, y: Value, h: Heap)
    ensures GetBool3(Xor(x, y, h), h) == Differ(GetBool3(x, h), GetBool3(y, h))
  {
    TruthOfBool(0, h);
    TruthOfBool(1, h);
  }

  /** `not` mirrors the order and keeps Unknown. */
  lemma NotKleene(x: Value, h: Heap)
    ensures GetBool3(Not(x, h), h) == Negation(GetBool3(x, h))
  {
    TruthOfBool(0, h);
    TruthOfBool(1, h);
  }

  /** De Morgan's law holds for the three-valued operators. */
  lemma DeMorgan(x: Value, y: Value, h: Heap)
    ensures GetBool3(Not(And(x, y, h), h), h) == GetBool3(Or(Not(x, h), Not(y, h), h), h)
  {
    NotKleene(And(x, y, h), h);
    AndKleene(x, y, h);
    OrKleene(Not(x, h), Not(y, h), h);
    NotKleene(x, h);
    NotKleene(y, h);
  }

  // ---------------------------------------------------------------------------
  // Bitwise operators
  // ---------------------------------------------------------------------------

  /** Xor-ing the same integer twice gives the first operand back. */
  lemma XorUndo(i: int32, j: int32, h: Heap, at: Loc)
    ensures var once := Bitwise(XorBits, Int(i), Int(j), h, at);
      once.ok && Bitwise(XorBits, once.value, Int(j), h, at) == Done(Int(i), true)
  {
    Pow2Word();
    var w := Combine(XorBits, ToWord(i), ToWord(j), 32);
    var v := FromWord(w);
    assert Bitwise(XorBits, Int(i), Int(j), h, at) == Done(Int(v), true);
    XorTwice(ToWord(i), ToWord(j), 32);
    assert ToWord(i) % 0x1_0000_0000 == ToWord(i);
    assert Combine(XorBits, ToWord(v), ToWord(j), 32) == ToWord(i);
    assert FromWord(ToWord(i)) == i;
    assert Bitwise(XorBits, Int(v), Int(j), h, at) == Done(Int(FromWord(ToWord(i))), true);
  }

  /** `&`, `|` and `^` do not depend on the order of the operands. */
  lemma BitwiseSymmetric(op: BitOp, i: int32, j: int32, h: Heap, at: Loc)
    ensures Bitwise(op, Int(i), Int(j), h, at) == Bitwise(op, Int(j), Int(i), h, at)
  {
    CombineSymmetric(op, ToWord(i), ToWord(j), 32);
  }

  /** `i & i` and `i | i` are `i`; `i ^ i` is zero. */
  lemma BitwiseSelf(op: BitOp, i: int32, h: Heap, at: Loc)
    ensures Bitwise(op, Int(i), Int(i), h, at) == Done(Int(if op == XorBits then 0 else i), true)
  {
    Pow2Word();
    CombineSelf(op, ToWord(i), 32);
    DivModUnique(ToWord(i), Pow2(32), 0, ToWord(i));
  }

  /** Complementing twice gives the integer back. */
  lemma BNotTwice(i: int32, h: Heap, at: Loc)
    ensures BNot(BNot(Int(i), h, at).value, h, at) == Done(Int(i), true)
  {
  }

  /** Shifting left and then right by the same count gives the integer
      back. */
  lemma ShiftBack(i: int32, j: int32, h: Heap, at: Loc)
    requires 0 <= j < 32 && 0 <= i && i * Pow2(j) < 0x8000_0000
    ensures var l := ShiftLeft(Int(i), Int(j), h, at);
      l.ok && ShiftRight(l.value, Int(j), h, at) == Done(Int(i), true)
  {
    DivModUnique(i * Pow2(j), Pow2(j), i, 0);
  }

  /** The right shift keeps the sign: -1 stays -1 and -7 becomes -4. */
  lemma ShiftRightNegative(h: Heap, at: Loc)
    ensures ShiftRight(Int(-1), Int(1), h, at) == Done(Int(-1), true)
    ensures ShiftRight(Int(-7), Int(1), h, at) == Done(Int(-4), true)
  {
  }

  /** Only integers take part in bitwise operators. */
  lemma BitwiseNeedsIntegers(op: BitOp, v: Value, h: Heap, at: Loc)
    requires !IsRef(v)
    ensures Bitwise(op, Float(1.0), v, h, at) == Failed
    ensures Bitwise(op, Bool(true), v, h, at) == Failed
    ensures BNot(Str([]), h, at) == Failed
  {
  }
}

=== FILE: values.dfy ===
/** The value representation of the runtime (dynamic_types.h): one tagged
    dynamic value, its owning containers, and the function payload. */
module Values {
  import opened CString

  type byte = x: int | 0 <= x < 0x100

  /** Where a value lives. A REFERENCE2 stores one of these, because it points
      back at the dict that encloses it and can therefore form a cycle.
      `Slot(p, i)` is entry `i` of the container stored at `p`; `Params(p)` is
      the parameter dict of the procedure stored at `p`. */
  datatype Loc = Root(id: nat) | Slot(parent: Loc, index: nat) | Params(owner: Loc)

  /** The optional info string of a function: `NoInfo` is the C NULL pointer. */
  datatype Info = NoInfo | Info(text: Text)

  /** `struct dynamic_list`: the elements in use (`length` of them) and the
      number of allocated slots. Slots beyond the elements hold NONE. */
  datatype ListV = ListV(elems: seq<Value>, space: nat)

  /** `struct dynamic_dict`: a key array, index-aligned with a value list. */
  datatype DictV = DictV(keys: seq<Text>, vals: ListV)

  /** `struct dynamic_function`. A nonzero type byte marks a native C function
      (an opaque pointer); type 0 marks an interpreted procedure, whose
      `struct dynamic_procedure` holds the parameters (NONE or a dict) and
      the bytecode. */
  datatype Fct =
    | Native(ptr: nat, kind: byte, info: Info)
    | Proc(params: Value, code: seq<byte>, info: Info)

  /** `struct dynamic`, one constructor per used tag of `enum TYPE`. A
      REFERENCE is represented by the value it points at: the runtime never
      writes through it, and `dyn_set_ref` never makes one point at another
      reference. */
  datatype Value =
    | None
    | Bool(b: bool)
    | Int(i: int32)
    | Float(f: real)
    | Str(s: Text)
    | List(l: ListV)
    | Set(l: ListV)
    | Dict(d: DictV)
    | Function(fct: Fct)
    | Extern(handle: nat)
    | Ref(target: Value)
    | Ref2(loc: Loc)
    | Misc

  /** A C pointer that may be NULL. (`Nothing`, because NONE is a value.) */
  datatype Option<T> = Nothing | Some(value: T)

  /** The dicts that REFERENCE2 handles point at. */
  type Heap = map<Loc, DictV>

  // enum TYPE: the numbering is also the operator priority (max_type).
  const NONE: nat := 0
  const BOOL: nat := 1
  const BYTE: nat := 2
  const INTEGER: nat := 3
  const FLOAT: nat := 4
  const STRING: nat := 5
  const LIST: nat := 6
  const SET: nat := 7
  const DICT: nat := 8
  const TEMP: nat := 9
  const FUNCTION: nat := 10
  const EXTERN: nat := 11
  const REFERENCE: nat := 12
  const REFERENCE2: nat := 13
  const MISCELLANEOUS: nat := 14

  /** Growth steps of lists and dicts (src/dynamic_defines.h). */
  const LIST_DEFAULT: nat := 5
  const DICT_DEFAULT: nat := 6

  function Tag(v: Value): (t: nat)
    ensures t <= MISCELLANEOUS && t != BYTE && t != TEMP
  {
    match v
    case None => NONE
    case Bool(_) => BOOL
    case Int(_) => INTEGER
    case Float(_) => FLOAT
    case Str(_) => STRING
    case List(_) => LIST
    case Set(_) => SET
    case Dict(_) => DICT
    case Function(_) => FUNCTION
    case Extern(_) => EXTERN
    case Ref(_) => REFERENCE
    case Ref2(_) => REFERENCE2
    case Misc => MISCELLANEOUS
  }

  /** The tag identifies the constructor. */
  lemma TagInjective(v: Value, w: Value)
    ensures Tag(v) == Tag(w) <==>
      (v.None? && w.None?) || (v.Bool? && w.Bool?) || (v.Int? && w.Int?) ||
      (v.Float? && w.Float?) || (v.Str? && w.Str?) || (v.List? && w.List?) ||
      (v.Set? && w.Set?) || (v.Dict? && w.Dict?) || (v.Function? && w.Function?) ||
      (v.Extern? && w.Extern?) || (v.Ref? && w.Ref?) || (v.Ref2? && w.Ref2?) ||
      (v.Misc? && w.Misc?)
  {
  }

  /** `max_type`: the operand whose tag ranks higher decides an operator. */
  function MaxType(v: Value, w: Value): (t: nat)
    ensures t == Tag(v) || t == Tag(w)
    ensures t >= Tag(v) && t >= Tag(w)
  {
    if Tag(v) > Tag(w) then Tag(v) else Tag(w)
  }

  /** `trilean`: DYN_FALSE, DYN_TRUE and DYN_NONE. */
  datatype Trilean = False | True | Unknown {
    function Code(): (c: int)
      ensures -1 <= c <= 1
      ensures c == 0 <==> this == False
      ensures c == 1 <==> this == True
      ensures c == -1 <==> this == Unknown
    {
      match this
      case False => 0
      case True => 1
      case Unknown => -1
    }
  }

  // ---------------------------------------------------------------------------
  // Shape invariants
  // ---------------------------------------------------------------------------

  /** 16-bit `length` and `space`, with the elements in use inside the allocation. */
  predicate ListOk(l: ListV) {
    |l.elems| <= l.space < 0x1_0000
  }

  predicate KeysUnique(keys: seq<Text>) {
    forall i, j :: 0 <= i < j < |keys| ==> keys[i] != keys[j]
  }

  /** One key per live value slot, and no key twice. */
  predicate DictOk(d: DictV) {
    |d.keys| == |d.vals.elems| && ListOk(d.vals) && KeysUnique(d.keys)
  }

  // ---------------------------------------------------------------------------
  // A size measure, for the recursions that visit two values at once
  // ---------------------------------------------------------------------------

  function Size(v: Value): (n: nat)
    ensures n >= 1
  {
    match v
    case List(l) => 1 + SizeSeq(l.elems)
    case Set(l) => 1 + SizeSeq(l.elems)
    case Dict(d) => 1 + SizeSeq(d.vals.elems)
    case Function(f) => 1 + SizeFct(f)
    case Ref(t) => 1 + Size(t)
    case _ => 1
  }

  function SizeFct(f: Fct): nat {
    match f
    case Native(_, _, _) => 0
    case Proc(p, _, _) => Size(p)
  }

  function SizeSeq(s: seq<Value>): (n: nat)
    ensures n >= |s|
  {
    if s == [] then 0 else Size(s[0]) + SizeSeq(s[1..])
  }

  lemma {:induction false} SizeElem(s: seq<Value>, i: nat)
    requires i < |s|
    ensures Size(s[i]) <= SizeSeq(s)
    decreases i
  {
    if i > 0 {
      SizeElem(s[1..], i - 1);
    }
  }
}
